=== FILE: README.md ===
# X12 EDI processor — a verified model of its core

This project is a Dafny model of the pure core of the X12 EDI processor, a
Python service that reads healthcare EDI documents and summarises them. It
covers these parts:

* **The 277CA parser** (`segments.dfy`, `ack277ca.dfy`). It is a hand-written
  tokenizer over `~` and `*`, plus a one-pass state machine.
  * An HL segment at hierarchy level 22 opens an acknowledgment record.
  * NM1, TRN, STC, REF, DTP and MSG segments fill fields of the open record.
  * Records without a trace number are dropped.
  * The kept records are split into rejections (A7) and acceptances (A1),
    and summarised.
* **The claim reconciliation engine** (`match_key.dfy`, `reconciliation.dfy`).
  * It files 277CA rejections and 835 payments under a composite key: the
    patient, the date of service and the whole-dollar amount.
  * A payment marks the rejection with the same key as resubmitted.
  * Rejections left unmarked past a threshold become "black hole" alerts,
    sorted oldest first.
  * It also produces a summary and a report.
* **The 277 and 835 extractors** (`json.dfy`, `status277.dfy`,
  `remit835.dfy`). They walk the JSON-like tree an external X12 reader
  produces, using:
  * `_safe_get`;
  * the "a single dict counts as a one-element list" normalisation;
  * the "a list counts as its first element" rule;
  * the `validate` checks.
* **The ST-segment scans** (`st_header.dfy`): the base parser's
  `get_transaction_info` and the handler's transaction-type detection.
* **The Lambda handler** (`handler.dfy`):
  * S3 event handling, input reading and parser dispatch;
  * validation in strict and lenient mode;
  * output-key naming and the output write;
  * the response summary and the choice of status code (200, 400 or 500).
* **Upload input** (`upload.dfy`): size and emptiness checks, and the
  mapping of decode failures to `InputError`.
* **Configuration** (`config.dfy`) and **the exception hierarchy**
  (`exceptions.dfy`), including first-match `except` clause selection.
* **Cross-layer facts** (`feeds.dfy`): what the engine does when it is fed
  the parsers' own output.

Conventions:
* `wrappers.dfy` holds `Option` and `Result`.
* `text.dfy` holds the Python string operations the code relies on: `split`,
  `join`, `strip`, `replace`, `str(int)` and `int(float)`.
* `percent.dfy` holds the percentage used by both summaries.

The outside world enters as function-typed parameters:
* the X12 reader;
* the conversion of an element to a number;
* the date parser and the current time, in microseconds;
* the byte decoder;
* S3 and file access;
* the output timestamp.

Python exceptions become `Result` errors that carry the exception class.

## Model

| member | source | states |
|---|---|---|
| Segments.SegmentOf | src/parsers/x12_277ca_parser.py:242-247 | Cutting a stripped piece at `*` gives an identifier and its elements. Joining them with `*` gives the piece back, and no field holds a `*`. |
| Segments.LineSegments | src/parsers/x12_277ca_parser.py:237-247 | A `~`-piece gives at most one segment and a blank piece gives none. The segment it gives is well formed. |
| Segments.Tokenize | src/parsers/x12_277ca_parser.py:224-249 | Every segment of a document is well formed: its fields hold no `*`, `~` or newline, and its text is non-blank with no white space at either end. |
| Segments.TokenizeConcat | src/parsers/x12_277ca_parser.py:235-247 | Segments keep source order: the segments of `a~b` are those of `a` followed by those of `b`. |
| Segments.TokenizeBlank | src/parsers/x12_277ca_parser.py:238-240 | A piece of nothing but white space yields no segment. |
| Segments.TokenizeSerialize | src/parsers/x12_277ca_parser.py:224-249 | Round trip: tokenizing the `~`-join of rendered well-formed segments gives back exactly those segments. |
| Segments.RenderSegmentOf | src/parsers/x12_277ca_parser.py:242-247 | Cutting the text of a segment whose fields are free of `*` gives back that segment. |
| Ack277CA.ProcessNm1 | src/parsers/x12_277ca_parser.py:267-282 | For entity IL, three or more elements set the name to "third second", and nine or more set the patient id from the ninth. For entity 1P, nine or more elements set the NPI. Nothing else changes. |
| Ack277CA.ProcessTrn | src/parsers/x12_277ca_parser.py:284-288 | The second element becomes the trace number. No other field changes. |
| Ack277CA.ProcessStc | src/parsers/x12_277ca_parser.py:290-310 | Category and code are set only when the first element holds `:`. The amount is set only from a present, non-empty, numeric fourth element. No other field changes. |
| Ack277CA.ProcessRef | src/parsers/x12_277ca_parser.py:312-325 | D9 sets the claim id. EA sets the patient id only when none is present. No other field changes. |
| Ack277CA.ProcessDtp | src/parsers/x12_277ca_parser.py:327-335 | Qualifier 472 with three or more elements sets the date of service from the third. No other field changes. |
| Ack277CA.ProcessMsg | src/parsers/x12_277ca_parser.py:337-342 | The first element becomes the rejection reason. No other field changes. |
| Ack277CA.Dispatch | src/parsers/x12_277ca_parser.py:94-107 | Only the six segment types write to the open record, so an HL of another level changes nothing. Only TRN writes the trace number. |
| Ack277CA.Scan | src/parsers/x12_277ca_parser.py:76-111 | Every emitted record has a non-empty trace number, the last open record included. There are no more records than opening HL segments. |
| Ack277CA.ScanBlocks | src/parsers/x12_277ca_parser.py:76-111 | The single pass equals a block-wise definition. Each block runs from an opening HL up to the next one and is filled from a blank record. Blocks come out in source order. |
| Ack277CA.PreambleIgnored | src/parsers/x12_277ca_parser.py:83-95 | Segments before the first level-22 HL belong to no record. |
| Ack277CA.WithCategory | src/parsers/x12_277ca_parser.py:114-118 | A record is in the sublist exactly when it is an acknowledgment with that category. |
| Ack277CA.WithCategoryConcat | src/parsers/x12_277ca_parser.py:114-118 | The filter distributes over concatenation, so the sublists keep source order. |
| Ack277CA.CategoriesPartition | src/parsers/x12_277ca_parser.py:114-118 | Rejections and acceptances are disjoint and together number at most all records. Other categories fall in neither list. |
| Ack277CA.Summarize | src/parsers/x12_277ca_parser.py:121-129 | The counts equal the list lengths. The rejection rate is rejections / records × 100, in [0, 100], and 0 when there are no records. |
| Ack277CA.Parse | src/parsers/x12_277ca_parser.py:59-136 | Type 277CA and version 005010X214. The acknowledgments are the block-wise records of the tokenized text. The rejections are the A7 sublist and the acceptances the A1 sublist. The summary counts these lists, and its rate is `Percent.Rate` of rejections over records: 0 when there are no records. |
| Ack277CA.RateExample | src/parsers/x12_277ca_parser.py:125-128 | 3 rejections out of 4 records give a rate of 75. |
| Ack277CA.Validate | src/parsers/x12_277ca_parser.py:361-393 | The error list is empty exactly when every record has a patient id or a trace number and every A7 record has a reason. There are at most two errors per record. |
| Ack277CA.ValidateReports | src/parsers/x12_277ca_parser.py:377-391 | A missing-identifier error appears exactly when some record has neither a patient id nor a trace number. A missing-reason error for patient `p` appears exactly when some A7 record of `p` has no reason. |
| Ack277CA.ValidateTraced | src/parsers/x12_277ca_parser.py:361-393 | On parser output, which always has trace numbers, only missing-reason errors can occur. |
| Percent.Rate | src/parsers/x12_277ca_parser.py:125-128 | The percentage lies in [0, 100]. It is 0 for an empty total, and rate × total = part × 100. |
| ClaimKey.NormalizeDate | src/core/reconciliation.py:230-235 | The date changes exactly when it is a range `YYYYMMDD-…` with a single dash at position 8. It then becomes its first eight characters. |
| ClaimKey.NormalizeIdempotent | src/core/reconciliation.py:230-235 | Normalising twice changes nothing more. |
| ClaimKey.MatchKey | src/core/reconciliation.py:209-247 | There is no key exactly when the patient id is missing, or when neither a date nor a non-zero amount (billed, else charged) is there. A key starts with the patient id. |
| ClaimKey.KeyDecodes | src/core/reconciliation.py:237-247 | Splitting a key on `\|` gives back the patient id, then the normalised date if there is one, then the truncated amount if there is one. |
| ClaimKey.RangeMatchesStart | src/core/reconciliation.py:230-235 | A date range gives the same key as its start date. |
| ClaimKey.CentsIgnored | src/core/reconciliation.py:243-245 | 100.99 and 100.00 give the same key. |
| ClaimKey.DateAmountCollision | src/core/reconciliation.py:237-247 | The parts are unlabelled: a claim dated with the digits of a whole number n and an undated claim of n.00 share the key "P\|n" (for n = 123, "P\|123"). |
| Reconciliation.NewEngine | src/core/reconciliation.py:34-43 | The empty engine is consistent and keeps the look-back. |
| Reconciliation.AddRejection | src/core/reconciliation.py:52-68 | A record without a key changes nothing. Otherwise its entry replaces the one under its key and starts out unmatched. No other entry and no payment changes, and consistency is kept. |
| Reconciliation.AddRejections | src/core/reconciliation.py:45-73 | Loading a list keeps the payments and keeps consistency. |
| Reconciliation.LastKeyed | src/core/reconciliation.py:52-57 | The position of the last record with the key, or none exactly when no record has it. |
| Reconciliation.LastRejectionWins | src/core/reconciliation.py:52-68 | After loading, the entry under a key is made from the last record with that key. Other keys keep their earlier entry. |
| Reconciliation.AddPayment | src/core/reconciliation.py:82-98 | A claim with a key is stored as a payment. Only the rejection under that key is marked found, with the payment date as its resubmission date. Everything else stays as it was. |
| Reconciliation.AddPayments | src/core/reconciliation.py:75-103 | Loading claims never adds or removes a rejection and keeps consistency. |
| Reconciliation.PaymentsMark | src/core/reconciliation.py:82-98 | After loading claims, a rejection is marked exactly when it was marked before or some claim has its key. Its resubmission date is that of the last such claim, and its other fields are untouched. |
| Reconciliation.LoadOrderMatters | src/core/reconciliation.py:52-98 | A payment marks a rejection loaded before it. A rejection loaded after its payment stays unmatched. |
| Reconciliation.Check | src/core/reconciliation.py:125-166 | An entry gets an alert exactly when it is unmatched and has a present, parseable date. The date must be strictly older than now minus the threshold. |
| Reconciliation.Scan | src/core/reconciliation.py:125-166 | An alert for each overdue entry and nothing else. Every alert is well formed for its key. |
| Reconciliation.ScanDistinct | src/core/reconciliation.py:125-166 | Walking distinct keys raises at most one alert per key. |
| Reconciliation.DaysAtLeastThreshold | src/core/reconciliation.py:146-147 | An alerted rejection is at least `threshold` whole days old. |
| Reconciliation.SortByDays | src/core/reconciliation.py:174 | The result is a permutation sorted by age, oldest first. |
| Reconciliation.SortStable | src/core/reconciliation.py:174 | The sort is stable: alerts of equal age keep their relative order. |
| Reconciliation.SortDistinct | src/core/reconciliation.py:174 | Sorting keeps alert keys pairwise distinct. |
| Reconciliation.FindUnsubmitted | src/core/reconciliation.py:105-176 | For every tracked key there is an alert exactly when its entry is overdue. Every alert is well formed, no two alerts share a key, and they are sorted oldest first. |
| Reconciliation.AlertsAreTracked | src/core/reconciliation.py:105-176 | An alert is only ever raised for a key the engine tracks as a rejection. |
| Reconciliation.AlertFields | src/core/reconciliation.py:149-164 | Every alert is for an unmatched entry at least `threshold` days old. It is HIGH exactly when older than 45 days, and its estimated loss is the billed amount. |
| Reconciliation.FindUnsubmittedStable | src/core/reconciliation.py:125-174 | Alerts of equal age come out in the dictionary's insertion order. |
| Reconciliation.CountFoundKeys | src/core/reconciliation.py:186-188 | Counting along distinct keys gives the number of matched entries among them. |
| Reconciliation.GetSummary | src/core/reconciliation.py:178-207 | Total = number of entries, and resubmitted + unsubmitted = total. Resubmitted = the number of tracked entries a payment has matched. The rate is `Percent.Rate` of resubmitted over total: in [0, 100], 0 with nothing tracked, 100 when all are resubmitted. The tracking period is the look-back. |
| Reconciliation.PaymentLowersRisk | src/core/reconciliation.py:186-196 | A payment matching an unmatched entry moves exactly one entry from unsubmitted to resubmitted. It takes exactly that entry's billed amount (missing counts as 0) off the revenue at risk. |
| Reconciliation.ReportEngine | src/core/reconciliation.py:266-270 | The report's engine is consistent and uses the default look-back of 60 days. |
| Reconciliation.CountHighPositions | src/core/reconciliation.py:281-283 | The HIGH count is the number of positions holding a HIGH alert. |
| Reconciliation.GenerateReport | src/core/reconciliation.py:250-291 | The summary is that of the engine built from the inputs. The alerts are sorted oldest first with no key twice. The alert count is the number of alerts, and the HIGH count is the number of HIGH alerts among them. The summary adds up and its rate is `Percent.Rate` of resubmitted over total. |
| Reconciliation.DefaultReportAges | src/core/reconciliation.py:250-254 | With the default threshold of 30 days, every alert is at least 30 days old and HIGH exactly when older than 45 days. |
| Reconciliation.ReportAlerts | src/core/reconciliation.py:266-273 | End to end, the report alerts on a key exactly when all three hold: some rejection has the key, no payment has it, and the last rejection with it is overdue. |
| Json.Entries | src/parsers/x12_835_parser.py:134-139 | A dict is iterated as a one-element list and a list as its elements. A string is iterated character by character. Anything else fails. |
| Json.Traverse | src/parsers/x12_835_parser.py:139-155 | The in-order walk succeeds exactly when every entry does, giving one result per entry. |
| Json.SafeGetLookup | src/parsers/x12_835_parser.py:277-287 | With the code's non-dict default, `_safe_get` returns the value at the path. It returns the default when an intermediate value is not a dict, a key is missing, or the value is None. |
| Json.SafeGetDictDefault | src/parsers/x12_277_parser.py:213-223 | A dict default is itself descended into, so the lookup can return a value that is not in the tree. |
| Status277.EntityOf | src/parsers/x12_277_parser.py:91-99 | A missing NM1 segment gives three empty strings. A non-dict NM1 segment fails. |
| Status277.ExtractEntity | src/parsers/x12_277_parser.py:78-121 | An outer loop that is not a dict, after taking a list's first element, gives three empty strings. |
| Status277.SourceFirstElement | src/parsers/x12_277_parser.py:78-99 | A list `loop_2000a`, and a list `loop_2100a` below it, each contribute only their first element. |
| Status277.SourceFallback | src/parsers/x12_277_parser.py:78-99 | A missing, empty-list or string `loop_2000a` gives three empty strings. |
| Status277.ExtractClaim | src/parsers/x12_277_parser.py:156-175 | The identifier is the trace number under the claim's nested `loop_2200c`. There is one status code per STC entry, in order. |
| Status277.ClaimWithoutTrace | src/parsers/x12_277_parser.py:157-165 | Without the nested loop, the identifier is "". |
| Status277.ExtractClaims | src/parsers/x12_277_parser.py:148-177 | One claim per `loop_2200c` entry, in order. A dict counts as one entry. |
| Status277.ExtractProvider | src/parsers/x12_277_parser.py:131-144 | A provider carries the claims of its own loop. |
| Status277.ExtractProviders | src/parsers/x12_277_parser.py:123-146 | One provider per `loop_2000c` entry, in order. A dict counts as one entry. |
| Status277.ProvidersDictAsList | src/parsers/x12_277_parser.py:128-129 | A single provider dict and a one-element list holding it give the same providers. |
| Status277.ExtractTransaction | src/parsers/x12_277_parser.py:57-76 | The record keeps the raw model. Its overall claim-status list is always empty. |
| Status277.Parse | src/parsers/x12_277_parser.py:21-55 | Type 277 and version 005010X212, with as many transactions as the reader handed over trees, at least one. Every failure, including an empty model list, surfaces as X12ParseError. |
| Status277.ParseWalksEveryModel | src/parsers/x12_277_parser.py:33-48 | Parsing succeeds exactly when the reader returns a non-empty list and every tree in it can be walked. The transactions are then the walked trees, in order. |
| Status277.Validate | src/parsers/x12_277_parser.py:185-211 | A type error exactly when the type is not 277, and "no transactions" exactly when the list is empty. A per-transaction error exactly for a falsy control number or source name. |
| Remit835.ExtractAdjustments | src/parsers/x12_835_parser.py:182-218 | One adjustment per CAS entry, in order, at claim and at service level. A dict counts as one entry. |
| Remit835.ExtractServiceLines | src/parsers/x12_835_parser.py:157-180 | One service line per `loop_2100` entry, in order. A dict counts as one entry. |
| Remit835.ExtractClaim | src/parsers/x12_835_parser.py:139-151 | A claim carries the service lines and the adjustments of its own loop. |
| Remit835.ExtractClaims | src/parsers/x12_835_parser.py:131-155 | One claim per `loop_2000` entry, in order. A dict counts as one entry. |
| Remit835.ClaimDefaults | src/parsers/x12_835_parser.py:140-151 | An empty CLP segment gives "" texts and 0 amounts. |
| Remit835.ClaimFieldDefaults | src/parsers/x12_835_parser.py:140-151 | In any claim loop, each CLP field the segment lacks becomes "" (texts) or 0 (amounts), and each field it holds is copied unchanged. |
| Remit835.ClaimsDictAsList | src/parsers/x12_835_parser.py:136-137 | A single claim dict and a one-element list holding it give the same claims. |
| Remit835.Totals | src/parsers/x12_835_parser.py:225-233 | The loop counts the claims and sums charges and payments. It fails exactly when some amount is not a number. |
| Remit835.ExtractSummary | src/parsers/x12_835_parser.py:220-240 | The total claims is the number of extracted claims. The totals are the sums of their charges and of their payments. |
| Remit835.ExtractTransaction | src/parsers/x12_835_parser.py:58-78 | The record's claims are the extracted claims, its summary totals them, and it keeps the raw model. |
| Remit835.Parse | src/parsers/x12_835_parser.py:22-56 | Type 835 and version 005010X221A1, with as many transactions as the reader handed over trees, at least one. Every failure, including an empty model list, surfaces as X12ParseError. |
| Remit835.ParseWalksEveryModel | src/parsers/x12_835_parser.py:36-51 | Parsing succeeds exactly when the reader returns a non-empty list and every tree in it can be walked. The transactions are then the walked trees, in order. |
| Remit835.Validate | src/parsers/x12_835_parser.py:242-275 | A type error exactly when the type is not 835, and "no transactions" exactly when the list is empty. A per-transaction error exactly for each falsy field: control number, payment, payer name or payee name. |
| Remit835.ZeroPaymentMissing | src/parsers/x12_835_parser.py:265-267 | A provider payment of 0 is reported as missing. |
| StHeader.FirstHeader | src/parsers/base_parser.py:73-77 | The piece found has stripped text starting with "ST" and at least the required number of `*`-fields. |
| StHeader.FirstHeaderIsFirst | src/parsers/base_parser.py:73-77 | Every earlier piece fails the test, so it is skipped, not fatal. No piece is found exactly when none passes. |
| StHeader.GetTransactionInfo | src/parsers/base_parser.py:62-82 | The code is the second field of the first qualifying piece with three or more fields. The version is the fourth field if there is one, else "unknown". Both are "unknown" when no piece qualifies. |
| StHeader.DetectTransactionType | src/handlers/lambda_handler.py:190-216 | The second field of the first qualifying piece with two or more fields, else "unknown". |
| StHeader.DetectAgreesWithInfo | src/handlers/lambda_handler.py:205-216 | Detection and `get_transaction_info` agree on the code unless some ST piece has exactly two fields. |
| StHeader.SkipShortHeader | src/parsers/base_parser.py:74-77 | A short ST piece before the header does not stop the header from being found. |
| StHeader.StcTakenForHeader | src/handlers/lambda_handler.py:208-214 | The prefix test accepts an STC status segment, so "STC*A1:20~ST*277" is detected as "A1:20". |
| Handler.ApplyRecords | src/handlers/lambda_handler.py:63-69 | The first S3 record overrides bucket and key and sets the source to "s3". A malformed record raises KeyError. Nothing else changes. |
| Handler.ReadInput | src/handlers/lambda_handler.py:148-187 | "s3" needs a non-empty bucket and key, and "local" a non-empty path. With them it returns exactly what the S3 fetch or the file read gives. Anything else is a ValueError. |
| Handler.TransactionTypeFor | src/handlers/lambda_handler.py:74-85 | Detection runs exactly when the type is absent or "auto". |
| Handler.GetParser | src/handlers/lambda_handler.py:219-243 | A parser exactly for "277" and "835"; anything else is a ValueError. |
| Handler.NoParserFor277CA | src/handlers/lambda_handler.py:236-243 | "277CA", "unknown" and a document led by an STC segment all get no parser. |
| Handler.ParseDocument | src/handlers/lambda_handler.py:88-89 | The result is the chosen parser's: it succeeds exactly when that parser does, wrapping its result, which has at least one transaction. Its failures are X12ParseError. |
| Handler.ValidateDocument | src/handlers/lambda_handler.py:92-93 | A 277 document gets the 277 validator's issues and an 835 document the 835 validator's. |
| Handler.SummaryOfParsed | src/handlers/lambda_handler.py:309-330 | The summary of a parsed document counts one transaction per tree the reader produced, under the parser's type and version. |
| Handler.SummaryReportsIssues | src/handlers/lambda_handler.py:309-330 | The summary reports validation errors exactly when validation ran and the document's validator found some. |
| Handler.OutputKey | src/handlers/lambda_handler.py:272-284 | The key is the prefix, a name, `_`, the timestamp and `.json`. With an input key the name holds no `/`; without one it is the transaction type. |
| Handler.OutputKeyTimestamp | src/handlers/lambda_handler.py:272-284 | For equal-length timestamps, two keys for the same input differ exactly when the timestamps differ. |
| Handler.BaseNameOf | src/handlers/lambda_handler.py:280 | The last `/`-separated part of a key is its file name: `dir/name` gives back `name` when neither part holds a `/`. |
| Handler.RemoveAllSuffix | src/handlers/lambda_handler.py:280 | Removing every occurrence of a pattern from `name` followed by the pattern gives back `name` when the name lacks the pattern's first character. For ".x12" that means a name without `.`. |
| Handler.OutputKeyExample | src/handlers/lambda_handler.py:276-284 | "input/claims.x12" under "output/" is written as "output/claims_<timestamp>.json". |
| Handler.WriteOutput | src/handlers/lambda_handler.py:246-306 | S3, the default, succeeds exactly when the put does and returns `s3://bucket/key`. The local write as written always fails; corrected, it returns the path. Any other destination is "in-memory". |
| Handler.Prepare | src/handlers/lambda_handler.py:58-106 | A strict-mode validation failure stops with 400 before any output. Validation errors are attached exactly when validation is enabled, and they are the validator's errors for the parsed document. |
| Handler.Process | src/handlers/lambda_handler.py:58-126 | Without an exception the answer is 400 (strict validation) or 200. A 200 answer carries the summary of a 277 or 835 document. |
| Handler.HandleWith | src/handlers/lambda_handler.py:58-145 | The status is 200, 400 or 500. An exception gives 400 exactly when it is an X12ProcessingError, and 500 otherwise. |
| Handler.Handle | src/handlers/lambda_handler.py:58-145 | The status is 200 exactly when the body reports success. |
| Handler.InternalErrors | src/handlers/lambda_handler.py:63-69 | A malformed S3 record gives 500 with KeyError. An unsupported input source gives 500 with ValueError. |
| Handler.UnsupportedTypeFails | src/handlers/lambda_handler.py:236-243 | With a local source and no S3 records, an explicit type other than 277, 835 or auto gives 500 with ValueError once the file is read. |
| Handler.ReadFailureAnswers | src/handlers/lambda_handler.py:58-187 | For any event and source, a failed read is answered with its own error: 400 when it is an X12ProcessingError (an S3 or file error), 500 otherwise (a missing bucket, key or path, or an unsupported source). |
| Handler.NoParserAnswers500 | src/handlers/lambda_handler.py:74-145 | For any event and source, a transaction type with no parser is answered with 500 and ValueError once the input is read, whatever the content. |
| Handler.UnreachableObject | src/handlers/lambda_handler.py:63-69 | An S3 notification for an object that S3 cannot fetch is answered with 400 and S3Error. |
| Handler.RecordsOverride | src/handlers/lambda_handler.py:63-69 | With an S3 record, the input comes from its bucket and key, whatever the event says. |
| Handler.PrepareAfterParser | src/handlers/lambda_handler.py:86-105 | Once a parser is chosen, a parse failure raises X12ParseError. A strict validation failure stops with 400 and the validator's errors. Otherwise the document goes on to be written, with the validator's errors attached when validation is on. |
| Handler.ParseFailureAnswers400 | src/handlers/lambda_handler.py:86-136 | A document the chosen parser cannot parse is answered with 400 and X12ParseError. |
| Handler.UnreadableLocalFile | src/handlers/lambda_handler.py:58-136 | A local file declared as "835" that the reader cannot read is answered with 400 and X12ParseError, whatever the settings. |
| Handler.ProcessingErrorAnswers400 | src/handlers/lambda_handler.py:128-136 | A processing error raised in the handler's body is answered with 400 and that error. |
| Handler.StrictValidationAnswers400 | src/handlers/lambda_handler.py:91-102 | With validation on and strict mode on, a document with validation errors is answered with 400 and exactly those errors. |
| Handler.WrittenAnswers200 | src/handlers/lambda_handler.py:91-126 | Otherwise the answer is 200 exactly when writing the output succeeds. It then carries the transaction type, the output location and the summary of the processed document. |
| Handler.NoValidationNoBlock | src/handlers/lambda_handler.py:92-106 | With validation off, a processed document answers 200 with no validation errors. |
| Handler.LocalOutputFails | src/handlers/lambda_handler.py:298-303 | As written, local output turns a 200 into 500 with TypeError. Corrected, it returns the output path. |
| Upload.ValidateUpload | src/input/upload_input.py:31-53 | It fails exactly on empty or over-limit content. Empty content gives InputError, and otherwise the failure is FileSizeError. Content at the limit passes. |
| Upload.EmptyBeforeSize | src/input/upload_input.py:41-50 | Emptiness is checked before size. |
| Upload.ReadUpload | src/input/upload_input.py:55-77 | Validation errors propagate unwrapped. A UnicodeDecodeError becomes InputError. Other decode errors propagate. |
| Upload.ReadUploadOk | src/input/upload_input.py:55-77 | Text that is read is the decoding of non-empty content within the limit. |
| Upload.ReadUploadErrors | src/input/upload_input.py:65-77 | With a decoder that only raises UnicodeDecodeError, the only errors are InputError and FileSizeError. |
| Upload.MetadataOfAccepted | src/input/upload_input.py:79-90 | The size reported for an upload that was read is positive and within the limit. |
| Upload.SizeLimitInclusive | src/input/upload_input.py:44-50 | Content of exactly the configured mebibytes × 1048576 bytes passes, and one byte more is refused with FileSizeError. |
| Upload.ValidateStream | src/input/upload_input.py:130-141 | It fails, with InputError, exactly on a missing stream. |
| Upload.ReadStream | src/input/upload_input.py:143-178 | Every failure is InputError. The read succeeds exactly when the stream exists, reads, is within the limit and decodes. |
| Upload.StreamSizeBeforeDecode | src/input/upload_input.py:159-167 | An oversized stream fails whatever the decoder would do. |
| Upload.UploadAndStreamDiffer | src/input/upload_input.py:41-50 | An oversized upload raises FileSizeError while an oversized stream raises InputError. An empty stream is accepted where an empty upload is not. |
| Upload.StreamMetadataIgnoresStream | src/input/upload_input.py:180-187 | Stream metadata never depends on the stream: streams with the same name and encoding get the same metadata, of type "streaming". |
| Config.ParseEnvironment | src/core/config.py:53 | Exactly the three literals are accepted, each naming its value. |
| Config.ParseLogLevel | src/core/config.py:61 | Exactly the five upper-case literals are accepted, each naming its value. |
| Config.NamesRoundTrip | src/core/config.py:53-61 | Every literal reads back as the value it names. |
| Config.MaxFileSizeMonotone | src/core/config.py:75-80 | The limit is monotone in the megabytes, and the default is 52428800 bytes. |
| Config.IsProductionLiteral | src/core/config.py:53-94 | Production is recognised exactly by its literal. The defaults are development, 50 MB, validation on and strict mode off. |
| Exceptions.Parent | src/core/exceptions.py:32-166 | Only `Exception` has no base, and the base is always closer to the root. |
| Exceptions.ProcessingErrors | src/core/exceptions.py:32-166 | The processing errors are exactly the base class and its seven subclasses. No built-in exception is one. |
| Exceptions.AllAreExceptions | src/core/exceptions.py:32 | Every class is an `Exception`. |
| Exceptions.IsATransitive | src/core/exceptions.py:32-166 | The subclass relation is transitive. |
| Exceptions.Siblings | src/core/exceptions.py:48-147 | FileSizeError and S3Error are not InputErrors. The parse and validation errors are unrelated. |
| Exceptions.Catch | src/handlers/lambda_handler.py:128-145 | The first clause that matches catches the exception, or none when no clause matches. |
| Exceptions.ClauseOrder | src/handlers/lambda_handler.py:128-145 | Clause order decides. The handler's order sends a parse error to the 400 clause and a ValueError to the 500 clause. |
| Feeds.ClaimsNeverMatch | src/core/reconciliation.py:222-228 | 835 claims carry no `patient_id`, so loading them into the engine changes nothing. |
| Feeds.NoAlertsFromAcks | src/core/reconciliation.py:58-133 | 277CA acknowledgments carry no `transaction_date`, so a report built from them never alerts. |
| Feeds.PipelineNeverResubmits | src/core/reconciliation.py:266-284 | Fed a parsed 277CA document and a parsed 835 transaction, the report shows no resubmission and no alert. |

## Left out

- Reading from S3 and the file system, the S3 put and opening the local output file: these are the `Env` parameters of the handler.
- `UploadInput.save_to_file`: it only writes bytes to a file.
- The external X12 reader (`parse_with_linuxforhealth`): it is the `Reader` parameter. The trees it returns are arbitrary `Json.Value`s.
- Floating point: amounts are exact reals. `float()` on a 277CA element is the `AmountParser` parameter, and IEEE rounding of rates and totals is not modelled. Exact reals have no NaN or infinity, so the model does not show that `int(float(amount))` in the match key (src/core/reconciliation.py:245) raises ValueError on "nan" and OverflowError on "inf".
- `Decimal` amounts from the reader: a `Decimal` added to a float raises in Python, but the model has a single number kind.
- The clock and calendar: "now" is a parameter in microseconds, and `strptime` is the `DateParser` parameter returning a day number. The report's `report_date` text is not produced.
- Byte decoding: it is the `Decoder` parameter.
- Logging, tracing and the Lambda context.
- Message texts: exceptions are their class (`Cls`), and validation messages are constructors (`Issue`, `AckError`).
- JSON serialisation of responses and outputs: the body is the `Body` datatype.
- Loading settings from the environment and caching them: a `Settings` value is given.
- Event values that are present but `None`, or not strings: an event field is either an absent key or a string.
- Engine records whose fields are not strings and reals, such as a numeric patient id passed through `str()`, or an amount string that `float()` rejects.
- `_extract_transaction_data` and `_format_name`: no caller reaches them.
- The backup Lambda handler, the packaging scripts, the tests, the debug scripts and the parsers' package `__init__`.
- Ack277CA.Parse: it returns a result directly, because on a string input nothing in its `try` body can raise.
- Ack277CA.Scan: its own contract states only tracedness and a bound. The exact records are stated by `Ack277CA.ScanBlocks`.
- Reconciliation.GetSummary: the revenue at risk is not in its own contract. `Reconciliation.PaymentLowersRisk` states how it changes.
- Handler.OutputKey: its contract fixes the structure of the key. The exact name is shown by `Handler.OutputKeyExample`, and `Text.RemoveAllNotIdempotent` shows that a single `.replace` pass can leave a ".x12" behind.

## Findings

| source | as written | input that shows it | evidently intended | confidence | as-written member | corrected member |
|---|---|---|---|---|---|---|
| src/handlers/lambda_handler.py:301-302 | `json.dumps(data, f, indent=2)` passes the file as a second positional argument, which `dumps` does not accept, so every local write raises `TypeError` | an event with `output_destination` "local" that otherwise succeeds | `json.dump(data, f, indent=2, default=str)`, writing the JSON to the file as the S3 branch serialises it (lambda_handler.py:291), and returning the path | high (not executed) | Handler.LocalOutputFails | Handler.Handle |

=== FILE: ack277ca.dfy ===
/** The 277CA claim acknowledgment parser (X12 005010X214). It walks the
    tokenized segments once: an HL segment at hierarchy level 22 opens a new
    acknowledgment record, the NM1, TRN, STC, REF, DTP and MSG segments fill
    fields of the open record, and a finished record is kept only when it has
    a trace number. The kept records are then split into rejections (status
    category A7) and acceptances (A1) and summarised. */
module Ack277CA {
  import opened Wrappers
  import opened Text
  import opened Segments
  import opened Percent

  /** One acknowledgment record; every field starts out absent. */
  datatype Ack = Ack(
    claimId: Option<string>,
    patientId: Option<string>,
    patientName: Option<string>,
    dateOfService: Option<string>,
    billedAmount: Option<real>,
    statusCategory: Option<string>,
    statusCode: Option<string>,
    rejectionReason: Option<string>,
    providerNpi: Option<string>,
    payerClaimControlNumber: Option<string>,
    traceNumber: Option<string>)

  /** The freshly opened record: every field absent. */
  const Blank := Ack(None, None, None, None, None, None, None, None, None, None, None)

  /** Conversion of an element to a number, as Python's `float()` does it;
      `None` stands for the `ValueError` it raises on a non-numeric text. */
  type AmountParser = string -> Option<real>

  /** NM1: entity `IL` sets the patient name (from three elements on) and the
      patient id (the ninth element); entity `1P` sets the provider NPI. */
  function ProcessNm1(e: seq<string>, a: Ack): (r: Ack)
    ensures r.patientName == (if |e| >= 3 && e[0] == "IL" then Some(e[2] + " " + e[1]) else a.patientName)
    ensures r.patientId == (if |e| >= 9 && e[0] == "IL" then Some(e[8]) else a.patientId)
    ensures r.providerNpi == (if |e| >= 9 && e[0] == "1P" then Some(e[8]) else a.providerNpi)
    ensures r.(patientName := a.patientName, patientId := a.patientId, providerNpi := a.providerNpi) == a
  {
    if |e| < 2 then a
    else if e[0] == "IL" then
      var named := if |e| >= 3 then a.(patientName := Some(e[2] + " " + e[1])) else a;
      if |e| >= 9 then named.(patientId := Some(e[8])) else named
    else if e[0] == "1P" then
      if |e| >= 9 then a.(providerNpi := Some(e[8])) else a
    else a
  }

  /** TRN: the second element is the trace number. */
  function ProcessTrn(e: seq<string>, a: Ack): (r: Ack)
    ensures r.traceNumber == (if |e| >= 2 then Some(e[1]) else a.traceNumber)
    ensures r.(traceNumber := a.traceNumber) == a
  {
    if |e| >= 2 then a.(traceNumber := Some(e[1])) else a
  }

  /** STC: a first element `CATEGORY:CODE` sets category and code; a present,
      non-empty and numeric fourth element sets the billed amount. */
  function ProcessStc(e: seq<string>, a: Ack, parseAmount: AmountParser): (r: Ack)
    ensures |e| >= 1 && ':' in e[0] ==>
      r.statusCategory == Some(Split(e[0], ':')[0]) && r.statusCode == Some(Split(e[0], ':')[1])
    ensures !(|e| >= 1 && ':' in e[0]) ==>
      r.statusCategory == a.statusCategory && r.statusCode == a.statusCode
    ensures r.billedAmount ==
      (if |e| >= 4 && e[3] != "" && parseAmount(e[3]).Some? then parseAmount(e[3]) else a.billedAmount)
    ensures r.(statusCategory := a.statusCategory, statusCode := a.statusCode, billedAmount := a.billedAmount) == a
  {
    if |e| < 1 then a
    else
      var coded :=
        if ':' in e[0] then
          var parts := Split(e[0], ':');
          a.(statusCategory := Some(parts[0]), statusCode := if |parts| > 1 then Some(parts[1]) else None)
        else a;
      if |e| >= 4 && e[3] != "" then
        match parseAmount(e[3])
        case Some(x) => coded.(billedAmount := Some(x))
        case None => coded
      else coded
  }

  /** REF: qualifier `D9` sets the claim id; `EA` sets the patient id only
      when none is present yet. */
  function ProcessRef(e: seq<string>, a: Ack): (r: Ack)
    ensures r.claimId == (if |e| >= 2 && e[0] == "D9" then Some(e[1]) else a.claimId)
    ensures r.patientId == (if |e| >= 2 && e[0] == "EA" && !Present(a.patientId) then Some(e[1]) else a.patientId)
    ensures r.(claimId := a.claimId, patientId := a.patientId) == a
  {
    if |e| < 2 then a
    else if e[0] == "D9" then a.(claimId := Some(e[1]))
    else if e[0] == "EA" then
      if !Present(a.patientId) then a.(patientId := Some(e[1])) else a
    else a
  }

  /** DTP: qualifier `472` (service period) sets the date of service. */
  function ProcessDtp(e: seq<string>, a: Ack): (r: Ack)
    ensures r.dateOfService == (if |e| >= 3 && e[0] == "472" then Some(e[2]) else a.dateOfService)
    ensures r.(dateOfService := a.dateOfService) == a
  {
    if |e| < 3 then a
    else if e[0] == "472" then a.(dateOfService := Some(e[2]))
    else a
  }

  /** MSG: the first element is the rejection reason text. */
  function ProcessMsg(e: seq<string>, a: Ack): (r: Ack)
    ensures r.rejectionReason == (if |e| >= 1 then Some(e[0]) else a.rejectionReason)
    ensures r.(rejectionReason := a.rejectionReason) == a
  {
    if |e| >= 1 then a.(rejectionReason := Some(e[0])) else a
  }

  /** The segment identifiers that write into the open record. */
  predicate Writes(id: string)
  {
    id == "NM1" || id == "TRN" || id == "STC" || id == "REF" || id == "DTP" || id == "MSG"
  }

  /** Apply one segment to the open record. Any other segment (HL included)
      leaves it alone, and the trace number is written by TRN alone. */
  function Dispatch(seg: Segment, a: Ack, parseAmount: AmountParser): (r: Ack)
    ensures !Writes(seg.id) ==> r == a
    ensures seg.id != "TRN" ==> r.traceNumber == a.traceNumber
    ensures r.payerClaimControlNumber == a.payerClaimControlNumber
  {
    var e := seg.elements;
    if seg.id == "NM1" then ProcessNm1(e, a)
    else if seg.id == "TRN" then ProcessTrn(e, a)
    else if seg.id == "STC" then ProcessStc(e, a, parseAmount)
    else if seg.id == "REF" then ProcessRef(e, a)
    else if seg.id == "DTP" then ProcessDtp(e, a)
    else if seg.id == "MSG" then ProcessMsg(e, a)
    else a
  }

  /** An HL segment whose third element (the level code) is `22` opens a record. */
  predicate Opens(seg: Segment)
  {
    seg.id == "HL" && |seg.elements| >= 3 && seg.elements[2] == "22"
  }

  /** A finished record is kept only when its trace number is present. */
  function Keep(a: Ack): (r: seq<Ack>)
  {
    if Present(a.traceNumber) then [a] else []
  }

  /** Emit the open record, if any, subject to `Keep`. */
  function Flush(current: Option<Ack>): seq<Ack>
  {
    if current.Some? then Keep(current.value) else []
  }

  /** All emitted records carry a trace number. */
  predicate AllTraced(acks: seq<Ack>)
  {
    forall i | 0 <= i < |acks| :: Present(acks[i].traceNumber)
  }

  /** The number of segments that open a record. */
  function CountOpens(segs: seq<Segment>): nat
  {
    if |segs| == 0 then 0 else (if Opens(segs[0]) then 1 else 0) + CountOpens(segs[1..])
  }

  /** The single pass of the parser over the segments, with the currently
      open record (if any); returns the kept records in emission order. */
  function Scan(segs: seq<Segment>, current: Option<Ack>, parseAmount: AmountParser): (acks: seq<Ack>)
    ensures AllTraced(acks)
    ensures |acks| <= CountOpens(segs) + (if current.Some? then 1 else 0)
    decreases |segs|
  {
    if |segs| == 0 then Flush(current)
    else
      var seg := segs[0];
      if Opens(seg) then
        Flush(current) + Scan(segs[1..], Some(Dispatch(seg, Blank, parseAmount)), parseAmount)
      else
        var next := if current.Some? then Some(Dispatch(seg, current.value, parseAmount)) else None;
        Scan(segs[1..], next, parseAmount)
  }

  // ---------------------------------------------------------------------
  // A block-wise reference definition of the same records.
  // ---------------------------------------------------------------------

  /** Index of the first opening segment, or `|segs|` when there is none. */
  function NextOpen(segs: seq<Segment>): (k: nat)
    ensures k <= |segs|
    ensures k < |segs| ==> Opens(segs[k])
    ensures forall j | 0 <= j < k :: !Opens(segs[j])
  {
    if |segs| == 0 then 0
    else if Opens(segs[0]) then 0
    else 1 + NextOpen(segs[1..])
  }

  /** The record produced by applying segments left to right. */
  function Fill(a: Ack, segs: seq<Segment>, parseAmount: AmountParser): Ack
    decreases |segs|
  {
    if |segs| == 0 then a else Fill(Dispatch(segs[0], a, parseAmount), segs[1..], parseAmount)
  }

  /** Cut the segments into blocks, each starting at an opening segment and
      running up to the next one; each block gives one record. */
  function Blocks(segs: seq<Segment>, parseAmount: AmountParser): seq<Ack>
    requires |segs| == 0 || Opens(segs[0])
    decreases |segs|
  {
    if |segs| == 0 then []
    else
      var k := 1 + NextOpen(segs[1..]);
      Keep(Fill(Blank, segs[..k], parseAmount)) + Blocks(segs[k..], parseAmount)
  }

  /** The records of a segment list: everything before the first opening
      segment is ignored, and every block is filled from a blank record. */
  function Acknowledgments(segs: seq<Segment>, parseAmount: AmountParser): seq<Ack>
  {
    Blocks(segs[NextOpen(segs)..], parseAmount)
  }

  /** What `ScanBlocks` states about one segment list and open record. */
  predicate ScanIsBlocks(segs: seq<Segment>, current: Option<Ack>, parseAmount: AmountParser)
  {
    var k := NextOpen(segs);
    Scan(segs, current, parseAmount) ==
      (if current.Some? then Keep(Fill(current.value, segs[..k], parseAmount)) else [])
      + Blocks(segs[k..], parseAmount)
  }

  /** An opening segment closes the open record and starts a fresh one. */
  lemma ScanBlocksOpen(segs: seq<Segment>, current: Option<Ack>, parseAmount: AmountParser)
    requires |segs| > 0 && Opens(segs[0])
    requires ScanIsBlocks(segs[1..], Some(Dispatch(segs[0], Blank, parseAmount)), parseAmount)
    ensures ScanIsBlocks(segs, current, parseAmount)
  {
    var rest := segs[1..];
    var k' := NextOpen(rest);
    var started := Dispatch(segs[0], Blank, parseAmount);
    assert segs[..1 + k'][1..] == rest[..k'];
    assert segs[1 + k'..] == rest[k'..];
    assert NextOpen(segs) == 0 && segs[0..] == segs && segs[..0] == [];
    assert Fill(Blank, segs[..1 + k'], parseAmount) == Fill(started, rest[..k'], parseAmount);
    assert Blocks(segs, parseAmount) == Keep(Fill(started, rest[..k'], parseAmount)) + Blocks(rest[k'..], parseAmount);
  }

  /** Any other segment is applied to the open record, if there is one. */
  lemma ScanBlocksInside(segs: seq<Segment>, current: Option<Ack>, parseAmount: AmountParser)
    requires |segs| > 0 && !Opens(segs[0])
    requires ScanIsBlocks(segs[1..],
      if current.Some? then Some(Dispatch(segs[0], current.value, parseAmount)) else None, parseAmount)
    ensures ScanIsBlocks(segs, current, parseAmount)
  {
    var rest := segs[1..];
    var k' := NextOpen(rest);
    assert segs[..1 + k'][1..] == rest[..k'];
    assert segs[1 + k'..] == rest[k'..];
    assert NextOpen(segs) == 1 + k';
    if current.Some? {
      var next := Dispatch(segs[0], current.value, parseAmount);
      assert Fill(current.value, segs[..1 + k'], parseAmount) == Fill(next, rest[..k'], parseAmount);
    }
  }

  /** The single pass agrees with the block-wise definition: with a record
      open, the segments up to the first opener fill it, and the rest is cut
      into blocks. */
  lemma {:induction false} ScanBlocks(segs: seq<Segment>, current: Option<Ack>, parseAmount: AmountParser)
    ensures var k := NextOpen(segs);
      Scan(segs, current, parseAmount) ==
        (if current.Some? then Keep(Fill(current.value, segs[..k], parseAmount)) else [])
        + Blocks(segs[k..], parseAmount)
    decreases |segs|
  {
    if |segs| > 0 {
      var seg := segs[0];
      if Opens(seg) {
        ScanBlocks(segs[1..], Some(Dispatch(seg, Blank, parseAmount)), parseAmount);
        ScanBlocksOpen(segs, current, parseAmount);
      } else {
        var next := if current.Some? then Some(Dispatch(seg, current.value, parseAmount)) else None;
        ScanBlocks(segs[1..], next, parseAmount);
        ScanBlocksInside(segs, current, parseAmount);
      }
    }
  }

  // ---------------------------------------------------------------------
  // Categorisation, summary and the parse result.
  // ---------------------------------------------------------------------

  /** The in-order sublist of records with the given status category. */
  function WithCategory(acks: seq<Ack>, category: string): (r: seq<Ack>)
    ensures |r| <= |acks|
    ensures forall x :: x in r <==> x in acks && x.statusCategory == Some(category)
  {
    if |acks| == 0 then []
    else
      (if acks[0].statusCategory == Some(category) then [acks[0]] else [])
      + WithCategory(acks[1..], category)
  }

  /** Filtering distributes over concatenation, so the sublists keep the
      source order. */
  lemma {:induction false} WithCategoryConcat(xs: seq<Ack>, ys: seq<Ack>, category: string)
    ensures WithCategory(xs + ys, category) == WithCategory(xs, category) + WithCategory(ys, category)
    decreases |xs|
  {
    if |xs| == 0 {
      assert xs + ys == ys;
    } else {
      assert (xs + ys)[1..] == xs[1..] + ys;
      WithCategoryConcat(xs[1..], ys, category);
    }
  }

  /** Rejections and acceptances never share a record, and together they
      are at most all records (other categories fall in neither list). */
  lemma {:induction false} CategoriesPartition(acks: seq<Ack>)
    ensures forall x | x in WithCategory(acks, "A7") :: x !in WithCategory(acks, "A1")
    ensures |WithCategory(acks, "A7")| + |WithCategory(acks, "A1")| <= |acks|
    decreases |acks|
  {
    if |acks| > 0 {
      CategoriesPartition(acks[1..]);
    }
  }

  datatype Summary = Summary(totalClaims: nat, rejectedCount: nat, acceptedCount: nat, rejectionRate: real)

  datatype Parsed = Parsed(
    transactionType: string,
    version: string,
    acknowledgments: seq<Ack>,
    rejections: seq<Ack>,
    acceptances: seq<Ack>,
    summary: Summary)

  function Summarize(acks: seq<Ack>, rejections: seq<Ack>, acceptances: seq<Ack>): (s: Summary)
    requires |rejections| <= |acks|
    ensures s.totalClaims == |acks| && s.rejectedCount == |rejections| && s.acceptedCount == |acceptances|
    ensures 0.0 <= s.rejectionRate <= 100.0
    ensures |acks| == 0 ==> s.rejectionRate == 0.0
    ensures |acks| > 0 ==> s.rejectionRate * |acks| as real == |rejections| as real * 100.0
  {
    Summary(|acks|, |rejections|, |acceptances|, Rate(|rejections|, |acks|))
  }

  /** Parse a 277CA document. */
  function Parse(content: string, parseAmount: AmountParser): (p: Parsed)
    ensures p.transactionType == "277CA" && p.version == "005010X214"
    ensures p.acknowledgments == Acknowledgments(Tokenize(content), parseAmount)
    ensures AllTraced(p.acknowledgments)
    ensures p.rejections == WithCategory(p.acknowledgments, "A7")
    ensures p.acceptances == WithCategory(p.acknowledgments, "A1")
    ensures p.summary.totalClaims == |p.acknowledgments|
    ensures p.summary.rejectedCount == |p.rejections| && p.summary.acceptedCount == |p.acceptances|
    ensures 0.0 <= p.summary.rejectionRate <= 100.0
    ensures |p.acknowledgments| == 0 ==> p.summary.rejectionRate == 0.0
    ensures |p.rejections| <= |p.acknowledgments|
    ensures p.summary.rejectionRate == Rate(|p.rejections|, |p.acknowledgments|)
  {
    var segs := Tokenize(content);
    var acks := Scan(segs, None, parseAmount);
    ScanBlocks(segs, None, parseAmount);
    var rejections := WithCategory(acks, "A7");
    var acceptances := WithCategory(acks, "A1");
    Parsed("277CA", "005010X214", acks, rejections, acceptances, Summarize(acks, rejections, acceptances))
  }

  /** Segments before the first opening HL belong to no record. */
  lemma {:induction false} PreambleIgnored(pre: seq<Segment>, segs: seq<Segment>, parseAmount: AmountParser)
    requires forall j | 0 <= j < |pre| :: !Opens(pre[j])
    ensures Acknowledgments(pre + segs, parseAmount) == Acknowledgments(segs, parseAmount)
    decreases |pre|
  {
    if |pre| > 0 {
      assert (pre + segs)[1..] == pre[1..] + segs;
      PreambleIgnored(pre[1..], segs, parseAmount);
    } else {
      assert pre + segs == segs;
    }
  }

  /** Three rejections out of four records give a rejection rate of 75. */
  lemma RateExample()
    ensures Rate(3, 4) == 75.0
  {
  }

  // ---------------------------------------------------------------------
  // Validation.
  // ---------------------------------------------------------------------

  datatype AckError =
    | MissingIdentifiers                            // neither patient id nor trace number
    | MissingRejectionReason(patientId: Option<string>)  // an A7 record without a reason

  /** The record can be cross-referenced: it has a patient id or a trace number. */
  predicate Identified(a: Ack)
  {
    Present(a.patientId) || Present(a.traceNumber)
  }

  /** A rejection states why it was rejected. */
  predicate Explained(a: Ack)
  {
    a.statusCategory == Some("A7") ==> Present(a.rejectionReason)
  }

  /** One error per unidentified record and one per unexplained rejection. */
  function Validate(acks: seq<Ack>): (errors: seq<AckError>)
    ensures |errors| <= 2 * |acks|
    ensures errors == [] <==> forall i | 0 <= i < |acks| :: Identified(acks[i]) && Explained(acks[i])
  {
    if |acks| == 0 then []
    else
      var a := acks[0];
      (if !Present(a.patientId) && !Present(a.traceNumber) then [MissingIdentifiers] else [])
      + (if a.statusCategory == Some("A7") && !Present(a.rejectionReason)
         then [MissingRejectionReason(a.patientId)] else [])
      + Validate(acks[1..])
  }

  /** Validation reports a missing identifier exactly when some record has
      neither a patient id nor a trace number, and a missing reason for
      patient `p` exactly when some rejection of `p` states no reason. */
  lemma {:induction false} ValidateReports(acks: seq<Ack>)
    ensures MissingIdentifiers in Validate(acks) <==> exists i | 0 <= i < |acks| :: !Identified(acks[i])
    ensures forall p :: MissingRejectionReason(p) in Validate(acks) <==>
      exists i | 0 <= i < |acks| :: !Explained(acks[i]) && acks[i].patientId == p
    decreases |acks|
  {
    if |acks| > 0 {
      var t := acks[1..];
      ValidateReports(t);
      assert forall i | 0 <= i < |t| :: t[i] == acks[i + 1];
      assert forall i | 0 < i < |acks| :: acks[i] == t[i - 1];
    }
  }

  /** Records that come out of the parser always carry a trace number, so
      validating them can only report rejections without a reason. */
  lemma {:induction false} ValidateTraced(acks: seq<Ack>)
    requires AllTraced(acks)
    ensures forall e | e in Validate(acks) :: e.MissingRejectionReason?
    decreases |acks|
  {
    if |acks| > 0 {
      ValidateTraced(acks[1..]);
    }
  }
}

=== FILE: config.dfy ===
/** The application settings: the environment-variable fields with their
    literal domains and defaults, and the two derived properties. The loading
    of the variables themselves is outside the model: a `Settings` value is
    what loading produced. */
module Config {
  import opened Wrappers

  datatype Environment = Development | Staging | Production
  datatype LogLevel = Debug | Info | Warning | Error | Critical

  datatype Settings = Settings(
    environment: Environment,
    awsRegion: string,
    awsS3Bucket: string,
    awsLambdaFunctionName: string,
    logLevel: LogLevel,
    maxFileSizeMb: int,
    enableValidation: bool,
    strictMode: bool)

  /** The settings when no variable is set. */
  const Defaults := Settings(Development, "us-east-1", "", "x12-edi-processor", Info, 50, true, false)

  /** The literal an environment is written as. */
  function EnvironmentName(e: Environment): string
  {
    match e
    case Development => "development"
    case Staging => "staging"
    case Production => "production"
  }

  /** Reading `ENVIRONMENT`: one of three literals, anything else is rejected. */
  function ParseEnvironment(s: string): (r: Option<Environment>)
    ensures r.Some? <==> s in {"development", "staging", "production"}
    ensures r.Some? ==> EnvironmentName(r.value) == s
  {
    if s == "development" then Some(Development)
    else if s == "staging" then Some(Staging)
    else if s == "production" then Some(Production)
    else None
  }

  function LogLevelName(l: LogLevel): string
  {
    match l
    case Debug => "DEBUG"
    case Info => "INFO"
    case Warning => "WARNING"
    case Error => "ERROR"
    case Critical => "CRITICAL"
  }

  /** Reading `LOG_LEVEL`: one of five upper-case literals. The value is
      matched exactly because the field is a `Literal` type; the
      case-sensitive setting governs the environment variable names only. */
  function ParseLogLevel(s: string): (r: Option<LogLevel>)
    ensures r.Some? <==> s in {"DEBUG", "INFO", "WARNING", "ERROR", "CRITICAL"}
    ensures r.Some? ==> LogLevelName(r.value) == s
  {
    if s == "DEBUG" then Some(Debug)
    else if s == "INFO" then Some(Info)
    else if s == "WARNING" then Some(Warning)
    else if s == "ERROR" then Some(Error)
    else if s == "CRITICAL" then Some(Critical)
    else None
  }

  /** Every literal reads back as the value it names. */
  lemma NamesRoundTrip(e: Environment, l: LogLevel)
    ensures ParseEnvironment(EnvironmentName(e)) == Some(e)
    ensures ParseLogLevel(LogLevelName(l)) == Some(l)
  {
  }

  /** The upload limit in bytes: megabytes of 1024 × 1024 bytes. */
  function MaxFileSizeBytes(s: Settings): (r: int)
    ensures r == s.maxFileSizeMb * 1048576
  {
    s.maxFileSizeMb * 1024 * 1024
  }

  /** The limit grows with the megabyte setting, and the default is 52428800 bytes. */
  lemma MaxFileSizeMonotone(s: Settings, t: Settings)
    requires s.maxFileSizeMb <= t.maxFileSizeMb
    ensures MaxFileSizeBytes(s) <= MaxFileSizeBytes(t)
    ensures MaxFileSizeBytes(Defaults) == 52428800
  {
  }

  predicate IsProduction(s: Settings)
  {
    s.environment == Production
  }

  /** Production is recognised exactly by its literal, and the defaults are not production. */
  lemma IsProductionLiteral(s: Settings)
    ensures IsProduction(s) <==> EnvironmentName(s.environment) == "production"
    ensures !IsProduction(Defaults)
    ensures Defaults.maxFileSizeMb == 50 && Defaults.enableValidation && !Defaults.strictMode
  {
  }
}

=== FILE: exceptions.dfy ===
/** The exception classes the processor raises and catches, with Python's
    single-inheritance subclass relation and first-matching `except` clause. */
module Exceptions {
  import opened Wrappers

  /** The project's own exception classes and the built-in ones its code paths raise. */
  datatype Cls =
    | Exception
    | ValueError
    | UnicodeDecodeError
    | TypeError
    | AttributeError
    | LookupError
    | KeyError
    | X12ProcessingError
    | X12ParseError
    | X12ValidationError
    | InputError
    | OutputError
    | ConfigurationError
    | FileSizeError
    | S3Error

  /** The direct base class; `Exception` is the root of this hierarchy. */
  function Parent(c: Cls): (p: Option<Cls>)
    ensures p.None? <==> c == Exception
    ensures p.Some? ==> Rank(p.value) < Rank(c)
  {
    match c
    case Exception => None
    case ValueError => Some(Exception)
    case TypeError => Some(Exception)
    case AttributeError => Some(Exception)
    case LookupError => Some(Exception)
    case X12ProcessingError => Some(Exception)
    case UnicodeDecodeError => Some(ValueError)
    case KeyError => Some(LookupError)
    case _ => Some(X12ProcessingError)
  }

  /** Distance from the root. */
  function Rank(c: Cls): nat
  {
    match c
    case Exception => 0
    case ValueError => 1
    case TypeError => 1
    case AttributeError => 1
    case LookupError => 1
    case X12ProcessingError => 1
    case _ => 2
  }

  /** `issubclass(c, base)`. */
  predicate IsA(c: Cls, base: Cls)
    decreases Rank(c)
  {
    c == base || (Parent(c).Some? && IsA(Parent(c).value, base))
  }

  /** What `except X12ProcessingError` catches. */
  predicate IsProcessingError(c: Cls)
  {
    IsA(c, X12ProcessingError)
  }

  /** The custom classes are exactly the processing errors: the base class and
      its seven direct subclasses, and no built-in exception. */
  lemma ProcessingErrors(c: Cls)
    ensures IsProcessingError(c) <==>
      c in {X12ProcessingError, X12ParseError, X12ValidationError, InputError,
            OutputError, ConfigurationError, FileSizeError, S3Error}
  {
  }

  /** Every class is an `Exception`, so a bare `except Exception` catches all of them. */
  lemma {:induction false} AllAreExceptions(c: Cls)
    ensures IsA(c, Exception)
    decreases Rank(c)
  {
    if c != Exception {
      AllAreExceptions(Parent(c).value);
    }
  }

  /** The subclass relation is transitive. */
  lemma {:induction false} IsATransitive(a: Cls, b: Cls, c: Cls)
    requires IsA(a, b) && IsA(b, c)
    ensures IsA(a, c)
    decreases Rank(a)
  {
    if a != b {
      IsATransitive(Parent(a).value, b, c);
    }
  }

  /** The size and S3 errors are siblings of the input error, not kinds of it;
      the parse and validation errors are unrelated siblings. */
  lemma Siblings()
    ensures !IsA(FileSizeError, InputError) && !IsA(S3Error, InputError)
    ensures !IsA(X12ParseError, X12ValidationError) && !IsA(X12ValidationError, X12ParseError)
    ensures !IsA(UnicodeDecodeError, InputError) && IsA(UnicodeDecodeError, ValueError)
  {
  }

  /** The index of the first `except` clause of a `try` that catches `c`, or
      None when the exception escapes. */
  function Catch(c: Cls, clauses: seq<Cls>): (r: Option<nat>)
    ensures r.Some? ==> r.value < |clauses| && IsA(c, clauses[r.value])
    ensures r.Some? ==> forall j | 0 <= j < r.value :: !IsA(c, clauses[j])
    ensures r.None? <==> forall j | 0 <= j < |clauses| :: !IsA(c, clauses[j])
  {
    if |clauses| == 0 then None
    else if IsA(c, clauses[0]) then Some(0)
    else match Catch(c, clauses[1..])
      case None => None
      case Some(k) => Some(k + 1)
  }

  /** Clause order decides: `except Exception` placed first shadows a later
      `except X12ProcessingError`, while the handler's order (processing errors
      first) sends a parse error to the first clause and a `ValueError` to the second. */
  lemma ClauseOrder()
    ensures Catch(X12ParseError, [Exception, X12ProcessingError]) == Some(0)
    ensures Catch(X12ParseError, [X12ProcessingError, Exception]) == Some(0)
    ensures Catch(ValueError, [X12ProcessingError, Exception]) == Some(1)
  {
    assert [X12ProcessingError, Exception][1..] == [Exception];
  }
}

=== FILE: feeds.dfy ===
/** What the reconciliation engine sees when it is fed the parsers' own
    output. The engine reads a record's fields by name with `.get`, so a
    field the producing parser never writes is simply absent: a 277CA
    acknowledgment has no `transaction_date`, and an 835 claim has none of
    `patient_id`, `date_of_service`, `billed_amount` or `charged_amount`. */
module Feeds {
  import opened Wrappers
  import opened ClaimKey
  import opened Reconciliation
  import Ack277CA
  import Remit835

  /** A 277CA acknowledgment as the engine reads it. */
  function AckRecord(a: Ack277CA.Ack): (r: ClaimRecord)
    ensures r.transactionDate.None? && r.chargedAmount.None?
    ensures r.patientId == a.patientId && r.dateOfService == a.dateOfService && r.billedAmount == a.billedAmount
  {
    ClaimRecord(a.patientId, a.patientName, a.dateOfService, a.billedAmount, None, None,
                a.rejectionReason, a.statusCode, a.traceNumber, None, None, None)
  }

  function AckRecords(acks: seq<Ack277CA.Ack>): (r: seq<ClaimRecord>)
    ensures |r| == |acks|
    ensures forall i | 0 <= i < |acks| :: r[i] == AckRecord(acks[i])
  {
    seq(|acks|, i requires 0 <= i < |acks| => AckRecord(acks[i]))
  }

  /** An 835 claim as the engine reads it: only `status_code` is among the
      names the engine looks up. */
  function ClaimRecord835(c: Remit835.ClaimPayment): (r: ClaimRecord)
    ensures r.patientId.None?
  {
    var status := if c.statusCode.Str? then Some(c.statusCode.s) else None;
    ClaimRecord(None, None, None, None, None, None, None, status, None, None, None, None)
  }

  function ClaimRecords835(claims: seq<Remit835.ClaimPayment>): (r: seq<ClaimRecord>)
    ensures |r| == |claims|
    ensures forall i | 0 <= i < |claims| :: r[i] == ClaimRecord835(claims[i])
  {
    seq(|claims|, i requires 0 <= i < |claims| => ClaimRecord835(claims[i]))
  }

  /** 835 claims carry no patient id, so loading them changes nothing. */
  lemma {:induction false} ClaimsNeverMatch(e: Engine, claims: seq<Remit835.ClaimPayment>)
    ensures AddPayments(e, ClaimRecords835(claims)) == e
    decreases |claims|
  {
    if |claims| > 0 {
      var front := claims[..|claims| - 1];
      ClaimsNeverMatch(e, front);
      assert ClaimRecords835(claims)[..|claims| - 1] == ClaimRecords835(front);
      assert MatchKey(ClaimRecord835(claims[|claims| - 1])).None?;
    }
  }

  /** Acknowledgments carry no rejection date, so a report built from them
      never alerts, whatever the payments, the threshold and the clock. */
  lemma NoAlertsFromAcks(acks: seq<Ack277CA.Ack>, payments: seq<ClaimRecord>,
                         threshold: int, now: int, parse: DateParser)
    ensures GenerateReport(AckRecords(acks), payments, threshold, now, parse).unsubmittedClaims == []
  {
    var recs := AckRecords(acks);
    var alerts := GenerateReport(recs, payments, threshold, now, parse).unsubmittedClaims;
    assert forall i | 0 <= i < |recs| :: !Overdue(RejectionOf(recs[i]), threshold, now, parse);
    if |alerts| > 0 {
      var k := alerts[0].matchKey;
      assert HasKey(alerts, k);
      ReportAlerts(recs, payments, threshold, now, parse, k);
      assert false;
    }
  }

  /** The whole pipeline: rejections from a parsed 277CA document and payments
      from a parsed 835 transaction leave every tracked rejection unmatched. */
  lemma PipelineNeverResubmits(content: string, parseAmount: Ack277CA.AmountParser,
                               t: Remit835.Transaction, threshold: int, now: int, parse: DateParser)
    ensures var p := Ack277CA.Parse(content, parseAmount);
      var r := GenerateReport(AckRecords(p.rejections), ClaimRecords835(t.claims), threshold, now, parse);
      r.summary.successfullyResubmitted == 0 && r.unsubmittedClaims == []
  {
    var p := Ack277CA.Parse(content, parseAmount);
    var e1 := AddRejections(NewEngine(DefaultLookbackDays), AckRecords(p.rejections));
    forall k | k in e1.rejections
      ensures !e1.rejections[k].foundIn835
    {
      LastRejectionWins(NewEngine(DefaultLookbackDays), AckRecords(p.rejections), k);
    }
    ClaimsNeverMatch(e1, t.claims);
    NoAlertsFromAcks(p.rejections, ClaimRecords835(t.claims), threshold, now, parse);
    NoneFound(e1);
  }

  /** A freshly loaded rejection is never marked as found. */
  lemma NoneFound(e: Engine)
    requires Valid(e)
    requires forall k | k in e.rejections :: !e.rejections[k].foundIn835
    ensures GetSummary(e).successfullyResubmitted == 0
  {
    NoneFoundCount(e.rejections, e.order);
  }

  lemma {:induction false} NoneFoundCount(m: map<string, Rejection>, keys: seq<string>)
    requires forall i | 0 <= i < |keys| :: keys[i] in m
    requires forall k | k in m :: !m[k].foundIn835
    ensures CountFound(m, keys) == 0
    decreases |keys|
  {
    if |keys| > 0 {
      NoneFoundCount(m, keys[..|keys| - 1]);
    }
  }
}

=== FILE: handler.dfy ===
/** The Lambda entry point: take the input location from the event (an S3
    notification overrides it), read the document, pick a parser by the
    transaction type (detected from the ST segment unless given), parse,
    optionally validate, write the result and answer with a status code.
    Reading, writing, the external X12 reader and the clock are the
    environment's. */
module Handler {
  import opened Wrappers
  import opened Text
  import opened Exceptions
  import opened StHeader
  import Config
  import Status277
  import Remit835

  /** The bucket and object key of an S3 notification record. */
  datatype S3Ref = S3Ref(bucket: string, key: string)

  /** The invocation event. `records` is the S3 notification list, with `None`
      for a record that lacks `s3.bucket.name` or `s3.object.key`; for the other
      fields `None` means the key is absent. */
  datatype Event = Event(
    records: seq<Option<S3Ref>>,
    inputSource: Option<string>,
    bucket: Option<string>,
    key: Option<string>,
    filePath: Option<string>,
    transactionType: Option<string>,
    outputDestination: Option<string>,
    outputBucket: Option<string>,
    outputPrefix: Option<string>,
    outputPath: Option<string>)

  /** What the handler asks of the outside world: S3 and file reads, the
      external X12 reader both parsers use, the S3 write and the opening of a
      local output file, and the UTC timestamp (`%Y%m%d_%H%M%S`) of the call. */
  datatype Env = Env(
    fetchS3: (string, string) -> Result<string, Cls>,
    readFile: string -> Result<string, Cls>,
    read: Status277.Reader,
    putS3: (string, string) -> Result<(), Cls>,
    openFile: string -> Result<(), Cls>,
    timestamp: string)

  /** An S3 notification replaces the event's bucket, key and input source by
      those of its first record; a first record of the wrong shape raises
      `KeyError`. Without records the event is used as given. */
  function ApplyRecords(e: Event): (r: Result<Event, Cls>)
    ensures r.Ok? <==> |e.records| == 0 || e.records[0].Some?
    ensures r.Err? ==> r.error == KeyError
    ensures r.Ok? ==> r.value.(bucket := e.bucket, key := e.key, inputSource := e.inputSource) == e
    ensures r.Ok? && |e.records| > 0 ==>
      && r.value.inputSource == Some("s3")
      && r.value.bucket == Some(e.records[0].value.bucket)
      && r.value.key == Some(e.records[0].value.key)
  {
    if |e.records| == 0 then Ok(e)
    else match e.records[0]
      case None => Err(KeyError)
      case Some(rec) => Ok(e.(bucket := Some(rec.bucket), key := Some(rec.key), inputSource := Some("s3")))
  }

  /** `_read_input`: "s3" needs a non-empty bucket and key, "local" a
      non-empty file path; anything missing, and any other source, is a
      `ValueError`. */
  function ReadInput(e: Event, source: string, env: Env): (r: Result<string, Cls>)
    ensures source != "s3" && source != "local" ==> r == Err(ValueError)
    ensures source == "s3" && (!Present(e.bucket) || !Present(e.key)) ==> r == Err(ValueError)
    ensures source == "local" && !Present(e.filePath) ==> r == Err(ValueError)
    ensures r.Ok? ==>
      || (source == "s3" && r == env.fetchS3(e.bucket.value, e.key.value))
      || (source == "local" && r == env.readFile(e.filePath.value))
    ensures source == "s3" && Present(e.bucket) && Present(e.key) ==> r == env.fetchS3(e.bucket.value, e.key.value)
    ensures source == "local" && Present(e.filePath) ==> r == env.readFile(e.filePath.value)
  {
    if source == "s3" then
      if !Present(e.bucket) || !Present(e.key) then Err(ValueError)
      else env.fetchS3(e.bucket.value, e.key.value)
    else if source == "local" then
      if !Present(e.filePath) then Err(ValueError)
      else env.readFile(e.filePath.value)
    else Err(ValueError)
  }

  /** The transaction type the handler goes on with: the event's, defaulting
      to "auto", which is replaced by the detected type. */
  function TransactionTypeFor(e: Event, content: string): (t: string)
    ensures e.transactionType.Some? && e.transactionType.value != "auto" ==> t == e.transactionType.value
    ensures e.transactionType.None? || e.transactionType == Some("auto") ==> t == DetectTransactionType(content)
  {
    var t := e.transactionType.GetOr("auto");
    if t == "auto" then DetectTransactionType(content) else t
  }

  datatype ParserKind = Parser277 | Parser835

  /** `_get_parser`: the 277 and 835 parsers by their codes, a `ValueError`
      for anything else. */
  function GetParser(t: string): (r: Result<ParserKind, Cls>)
    ensures r.Ok? <==> t == "277" || t == "835"
    ensures r.Err? ==> r.error == ValueError
    ensures r == Ok(Parser277) <==> t == "277"
  {
    if t == "277" then Ok(Parser277)
    else if t == "835" then Ok(Parser835)
    else Err(ValueError)
  }

  /** The 277CA parser cannot be reached from the handler, and neither a
      document without an ST header nor one whose first ST-like piece is an
      STC status segment gets a parser. */
  lemma NoParserFor277CA()
    ensures GetParser("277CA").Err? && GetParser(Unknown).Err?
    ensures GetParser(DetectTransactionType("STC*A1:20~ST*277")).Err?
  {
    StcTakenForHeader();
  }

  datatype Document =
    | Doc277(p277: Status277.Parsed)
    | Doc835(p835: Remit835.Parsed)
  {
    function TransactionType(): string
    {
      match this
      case Doc277(p) => p.transactionType
      case Doc835(p) => p.transactionType
    }

    function Version(): string
    {
      match this
      case Doc277(p) => p.version
      case Doc835(p) => p.version
    }

    function TransactionCount(): nat
    {
      match this
      case Doc277(p) => |p.transactions|
      case Doc835(p) => |p.transactions|
    }
  }

  datatype ValidationErrors =
    | Issues277(i277: seq<Status277.Issue>)
    | Issues835(i835: seq<Remit835.Issue>)
  {
    function Count(): nat
    {
      match this
      case Issues277(xs) => |xs|
      case Issues835(xs) => |xs|
    }
  }

  /** `parser.parse(content)` for the chosen parser. */
  function ParseDocument(kind: ParserKind, content: string, read: Status277.Reader): (r: Result<Document, Cls>)
    ensures r.Err? ==> r.error == X12ParseError
    ensures r.Ok? ==> (kind == Parser277 <==> r.value.Doc277?)
    ensures r.Ok? ==> r.value.TransactionCount() > 0
    ensures kind == Parser277 ==>
      && (r.Ok? <==> Status277.Parse(content, read).Ok?)
      && (r.Ok? ==> r.value == Doc277(Status277.Parse(content, read).value))
    ensures kind == Parser835 ==>
      && (r.Ok? <==> Remit835.Parse(content, read).Ok?)
      && (r.Ok? ==> r.value == Doc835(Remit835.Parse(content, read).value))
  {
    match kind
    case Parser277 =>
      var p :- Status277.Parse(content, read);
      Ok(Doc277(p))
    case Parser835 =>
      var p :- Remit835.Parse(content, read);
      Ok(Doc835(p))
  }

  /** `parser.validate(parsed)` for the parser that produced the document. */
  function ValidateDocument(d: Document): (r: ValidationErrors)
    ensures d.Doc277? <==> r.Issues277?
    ensures d.Doc277? ==> r == Issues277(Status277.Validate(d.p277))
    ensures d.Doc835? ==> r == Issues835(Remit835.Validate(d.p835))
  {
    match d
    case Doc277(p) => Issues277(Status277.Validate(p))
    case Doc835(p) => Issues835(Remit835.Validate(p))
  }

  /** The parsed data as the handler passes it on: `validation_errors` is
      attached only when validation ran. */
  datatype Processed = Processed(document: Document, validationErrors: Option<ValidationErrors>)

  datatype Summary = Summary(transactionType: string, version: string, transactionCount: nat, hasValidationErrors: bool)

  /** `_create_summary`: the count of transactions, and whether validation
      errors are attached and non-empty. */
  function CreateSummary(p: Processed): (s: Summary)
    ensures s.transactionCount == p.document.TransactionCount()
    ensures s.hasValidationErrors <==> p.validationErrors.Some? && p.validationErrors.value.Count() > 0
    ensures s.transactionType == p.document.TransactionType() && s.version == p.document.Version()
  {
    Summary(p.document.TransactionType(), p.document.Version(), p.document.TransactionCount(),
            p.validationErrors.Some? && p.validationErrors.value.Count() > 0)
  }

  /** The summary of a freshly parsed document: one transaction per tree the
      reader produced, under the parser's type and version. */
  lemma SummaryOfParsed(kind: ParserKind, content: string, read: Status277.Reader, errors: Option<ValidationErrors>)
    requires ParseDocument(kind, content, read).Ok?
    ensures read(content).Some?
    ensures var s := CreateSummary(Processed(ParseDocument(kind, content, read).value, errors));
      && s.transactionCount == |read(content).value|
      && s.transactionType == (if kind == Parser277 then "277" else "835")
      && s.version == (if kind == Parser277 then "005010X212" else "005010X221A1")
  {
  }

  /** The summary reports validation errors exactly when validation ran and
      the validator of the document's parser found some. */
  lemma SummaryReportsIssues(d: Document, validate: bool)
    ensures var s := CreateSummary(Processed(d, if validate then Some(ValidateDocument(d)) else None));
      s.hasValidationErrors <==> validate && match d
        case Doc277(p) => Status277.Validate(p) != []
        case Doc835(p) => Remit835.Validate(p) != []
  {
  }

  /** The last `/`-component of a key. */
  function BaseName(key: string): (r: string)
    ensures '/' !in r
  {
    var parts := Split(key, '/');
    parts[|parts| - 1]
  }

  /** The S3 output key: the prefix, then the input file's name with every
      ".x12" removed (or the transaction type when there is no input key),
      then `_`, the timestamp and ".json". */
  function OutputKey(prefix: string, originalKey: string, transactionType: string, timestamp: string): (k: string)
    ensures prefix <= k
    ensures |k| >= |prefix| + |timestamp| + 6
    ensures k[|k| - |timestamp| - 6..] == "_" + timestamp + ".json"
    ensures originalKey != "" ==> '/' !in k[|prefix|..|k| - |timestamp| - 6]
    ensures originalKey == "" ==> k[|prefix|..|k| - |timestamp| - 6] == transactionType
  {
    var name := if originalKey != "" then RemoveAll(BaseName(originalKey), ".x12") else transactionType;
    var k := prefix + name + "_" + timestamp + ".json";
    assert k[|prefix|..|k| - |timestamp| - 6] == name;
    k
  }

  /** Two outputs of the same input get different keys exactly when their
      timestamps differ: two runs within the same second overwrite each other. */
  lemma OutputKeyTimestamp(prefix: string, originalKey: string, transactionType: string, ts1: string, ts2: string)
    requires |ts1| == |ts2|
    ensures OutputKey(prefix, originalKey, transactionType, ts1) == OutputKey(prefix, originalKey, transactionType, ts2)
      <==> ts1 == ts2
  {
    var k1 := OutputKey(prefix, originalKey, transactionType, ts1);
    var k2 := OutputKey(prefix, originalKey, transactionType, ts2);
    if k1 == k2 {
      assert k1[|k1| - |ts1| - 6..] == k2[|k2| - |ts2| - 6..];
      assert ("_" + ts1 + ".json")[1..1 + |ts1|] == ts1;
      assert ("_" + ts2 + ".json")[1..1 + |ts2|] == ts2;
    }
  }

  /** The base name of `dir/name` is `name` when neither part holds a `/`. */
  lemma BaseNameOf(dir: string, name: string)
    requires '/' !in dir && '/' !in name
    ensures BaseName(dir + "/" + name) == name
  {
    SplitConcat(dir, '/', name);
    assert dir + "/" + name == dir + ['/'] + name;
  }

  lemma BaseNameExample()
    ensures BaseName("input/claims.x12") == "claims.x12"
  {
    var dir, name := "input", "claims.x12";
    assert dir + "/" + name == "input/claims.x12";
    BaseNameOf(dir, name);
  }

  /** `replace` keeps a leading character at which the pattern does not start. */
  lemma RemoveAllKeep(c: char, s: string, pat: string)
    requires |pat| > 0 && pat[0] != c
    ensures RemoveAll([c] + s, pat) == [c] + RemoveAll(s, pat)
  {
    assert ([c] + s)[1..] == s;
  }

  /** A name whose characters never start the pattern loses exactly the
      pattern appended to it. */
  lemma {:induction false} RemoveAllSuffix(name: string, pat: string)
    requires |pat| > 0 && pat[0] !in name
    ensures RemoveAll(name + pat, pat) == name
    decreases |name|
  {
    if |name| == 0 {
      assert name + pat == pat;
      assert pat[|pat|..] == [];
    } else {
      RemoveAllKeep(name[0], name[1..] + pat, pat);
      assert name + pat == [name[0]] + (name[1..] + pat);
      RemoveAllSuffix(name[1..], pat);
    }
  }

  lemma StripExtensionExample()
    ensures RemoveAll("claims.x12", ".x12") == "claims"
  {
    var name, pat := "claims", ".x12";
    assert name + pat == "claims.x12";
    RemoveAllSuffix(name, pat);
  }

  /** An uploaded "input/claims.x12" is written as "output/claims_<timestamp>.json". */
  lemma OutputKeyExample(timestamp: string)
    ensures OutputKey("output/", "input/claims.x12", "835", timestamp) == "output/" + "claims" + "_" + timestamp + ".json"
  {
    BaseNameExample();
    StripExtensionExample();
  }

  /** What the local branch of `_write_output` does after opening the file. */
  datatype LocalWrite =
    | AsWritten  // `json.dumps(data, f, indent=2)`: a second positional argument, so `TypeError`
    | Corrected  // the evidently intended `json.dump(data, f, indent=2, default=str)`, as the S3 branch serialises

  /** `_write_output`: S3 (the default) under the output key, a local file,
      or nowhere ("in-memory"); the location written is returned. */
  function WriteOutput(e: Event, p: Processed, settings: Config.Settings, env: Env, mode: LocalWrite): (r: Result<string, Cls>)
    ensures e.outputDestination.GetOr("s3") !in {"s3", "local"} ==> r == Ok("in-memory")
    ensures e.outputDestination == Some("local") && mode == AsWritten ==> r.Err?
    ensures e.outputDestination == Some("local") && mode == Corrected ==>
      var path := e.outputPath.GetOr("/tmp/result.json");
      (r.Ok? <==> env.openFile(path).Ok?) && (r.Ok? ==> r.value == path)
    ensures e.outputDestination.GetOr("s3") == "s3" ==>
      var bucket := e.outputBucket.GetOr(settings.awsS3Bucket);
      var key := OutputKey(e.outputPrefix.GetOr("output/"), e.key.GetOr(""), p.document.TransactionType(), env.timestamp);
      && (r.Ok? <==> env.putS3(bucket, key).Ok?)
      && (r.Ok? ==> r.value == "s3://" + bucket + "/" + key)
  {
    var dest := e.outputDestination.GetOr("s3");
    if dest == "s3" then
      var bucket := e.outputBucket.GetOr(settings.awsS3Bucket);
      var prefix := e.outputPrefix.GetOr("output/");
      var key := OutputKey(prefix, e.key.GetOr(""), p.document.TransactionType(), env.timestamp);
      var _ :- env.putS3(bucket, key);
      Ok("s3://" + bucket + "/" + key)
    else if dest == "local" then
      var path := e.outputPath.GetOr("/tmp/result.json");
      var _ :- env.openFile(path);
      if mode == AsWritten then Err(TypeError) else Ok(path)
    else Ok("in-memory")
  }

  datatype Body =
    | Success(transactionType: string, outputLocation: string, summary: Summary)
    | ValidationFailed(errors: ValidationErrors)
    | Failure(error: Cls)

  datatype Response = Response(statusCode: int, body: Body)

  function Finish(e: Event, p: Processed, t: string, settings: Config.Settings, env: Env, mode: LocalWrite): Result<Response, Cls>
  {
    var location :- WriteOutput(e, p, settings, env, mode);
    Ok(Response(200, Success(t, location, CreateSummary(p))))
  }

  /** Where the `try` body of `lambda_handler` stands once the document is
      parsed and validated: answered already, or left to write its output. */
  datatype Step =
    | Stop(response: Response)
    | Write(event: Event, processed: Processed, transactionType: string)

  /** The `try` body up to the output: apply the S3 notification, read,
      choose the parser, parse, and validate when enabled; a strict-mode
      validation failure answers 400 without writing anything. */
  function Prepare(event: Event, settings: Config.Settings, env: Env): (r: Result<Step, Cls>)
    ensures r.Ok? && r.value.Stop? ==>
      && r.value.response.statusCode == 400
      && r.value.response.body.ValidationFailed? && r.value.response.body.errors.Count() > 0
      && settings.enableValidation && settings.strictMode
    ensures r.Ok? && r.value.Write? ==>
      && (r.value.processed.validationErrors.Some? <==> settings.enableValidation)
      && (r.value.transactionType == "277" || r.value.transactionType == "835")
      && r.value.processed.document.TransactionCount() > 0
      && (settings.strictMode && settings.enableValidation ==> r.value.processed.validationErrors.value.Count() == 0)
    ensures r.Ok? && r.value.Write? ==>
      r.value.event.(bucket := event.bucket, key := event.key, inputSource := event.inputSource) == event
    ensures r.Ok? && r.value.Write? && settings.enableValidation ==>
      r.value.processed.validationErrors == Some(ValidateDocument(r.value.processed.document))
  {
    var e :- ApplyRecords(event);
    var source := e.inputSource.GetOr("s3");
    var content :- ReadInput(e, source, env);
    var t := TransactionTypeFor(e, content);
    var kind :- GetParser(t);
    var doc :- ParseDocument(kind, content, env.read);
    if settings.enableValidation then
      var errors := ValidateDocument(doc);
      if errors.Count() > 0 && settings.strictMode then Ok(Stop(Response(400, ValidationFailed(errors))))
      else Ok(Write(e, Processed(doc, Some(errors)), t))
    else Ok(Write(e, Processed(doc, None), t))
  }

  /** The whole `try` body of `lambda_handler`, up to the exceptions it
      raises: 400 from a strict validation failure, otherwise 200 with the
      output location and the summary. */
  function Process(event: Event, settings: Config.Settings, env: Env, mode: LocalWrite): (r: Result<Response, Cls>)
    ensures r.Ok? ==> r.value.statusCode == 200 || r.value.statusCode == 400
    ensures r.Ok? && r.value.statusCode == 400 ==>
      && r.value.body.ValidationFailed? && r.value.body.errors.Count() > 0
      && settings.enableValidation && settings.strictMode
    ensures r.Ok? && r.value.statusCode == 200 ==>
      && r.value.body.Success?
      && (r.value.body.summary.hasValidationErrors ==> settings.enableValidation)
      && (r.value.body.transactionType == "277" || r.value.body.transactionType == "835")
      && r.value.body.summary.transactionCount > 0
  {
    var step :- Prepare(event, settings, env);
    match step
    case Stop(resp) => Ok(resp)
    case Write(e, p, t) => Finish(e, p, t, settings, env, mode)
  }

  /** `lambda_handler` with the given local-write behaviour: an exception
      goes to the first matching `except` clause, `X12ProcessingError`
      answering 400 and `Exception` 500. */
  function HandleWith(event: Event, settings: Config.Settings, env: Env, mode: LocalWrite): (r: Response)
    ensures r.statusCode in {200, 400, 500}
    ensures Process(event, settings, env, mode).Ok? ==> r == Process(event, settings, env, mode).value
    ensures Process(event, settings, env, mode).Err? ==>
      && r.body == Failure(Process(event, settings, env, mode).error)
      && (r.statusCode == 400 <==> IsProcessingError(Process(event, settings, env, mode).error))
      && (r.statusCode == 500 <==> !IsProcessingError(Process(event, settings, env, mode).error))
  {
    match Process(event, settings, env, mode)
    case Ok(resp) => resp
    case Err(c) =>
      AllAreExceptions(c);
      if Catch(c, [X12ProcessingError, Exception]) == Some(0) then Response(400, Failure(c))
      else Response(500, Failure(c))
  }

  /** The handler with a working local write. */
  function Handle(event: Event, settings: Config.Settings, env: Env): (r: Response)
    ensures r.statusCode == 200 <==> r.body.Success?
  {
    HandleWith(event, settings, env, Corrected)
  }

  /** A malformed S3 record, an unsupported input source or transaction type
      is an internal error (500), not a processing error. */
  lemma InternalErrors(event: Event, settings: Config.Settings, env: Env)
    ensures |event.records| > 0 && event.records[0].None? ==>
      Handle(event, settings, env) == Response(500, Failure(KeyError))
    ensures |event.records| == 0 && event.inputSource.GetOr("s3") !in {"s3", "local"} ==>
      Handle(event, settings, env) == Response(500, Failure(ValueError))
  {
  }

  /** An explicit transaction type other than "277" and "835" (such as
      "277CA") fails with 500 once the input is read, whatever the content. */
  lemma UnsupportedTypeFails(event: Event, settings: Config.Settings, env: Env)
    requires |event.records| == 0 && event.inputSource == Some("local") && Present(event.filePath)
    requires env.readFile(event.filePath.value).Ok?
    requires event.transactionType.Some? && event.transactionType.value !in {"277", "835", "auto"}
    ensures Handle(event, settings, env) == Response(500, Failure(ValueError))
  {
  }

  /** Whatever the source, a failed read is answered with its own error:
      400 when it is a processing error (an S3 or file error), 500
      otherwise (a missing bucket, key or path, or an unsupported source). */
  lemma ReadFailureAnswers(event: Event, settings: Config.Settings, env: Env, e: Event, c: Cls)
    requires ApplyRecords(event) == Ok(e)
    requires ReadInput(e, e.inputSource.GetOr("s3"), env) == Err(c)
    ensures Handle(event, settings, env) == Response(if IsProcessingError(c) then 400 else 500, Failure(c))
  {
  }

  /** Whatever the source, a transaction type without a parser (an explicit
      "277CA", say) is answered with 500 and `ValueError` once the input
      is read, whatever the content. */
  lemma NoParserAnswers500(event: Event, settings: Config.Settings, env: Env, e: Event, content: string)
    requires ApplyRecords(event) == Ok(e)
    requires ReadInput(e, e.inputSource.GetOr("s3"), env) == Ok(content)
    requires GetParser(TransactionTypeFor(e, content)).Err?
    ensures Handle(event, settings, env) == Response(500, Failure(ValueError))
  {
  }

  /** An object S3 cannot fetch is answered with 400 and its `S3Error`. */
  lemma UnreachableObject(settings: Config.Settings, env: Env, b: string, k: string)
    requires b != "" && k != "" && env.fetchS3(b, k) == Err(S3Error)
    ensures var event := Event([Some(S3Ref(b, k))], None, None, None, None, None, None, None, None, None);
      Handle(event, settings, env) == Response(400, Failure(S3Error))
  {
    var event := Event([Some(S3Ref(b, k))], None, None, None, None, None, None, None, None, None);
    RecordsOverride(event, env, b, k);
    ReadFailureAnswers(event, settings, env, ApplyRecords(event).value, S3Error);
  }

  /** An S3 notification decides where the input comes from, whatever the
      event says about bucket, key and source. */
  lemma RecordsOverride(event: Event, env: Env, b: string, k: string)
    requires |event.records| > 0 && event.records[0] == Some(S3Ref(b, k)) && b != "" && k != ""
    ensures ApplyRecords(event).Ok?
    ensures var e := ApplyRecords(event).value;
      ReadInput(e, e.inputSource.GetOr("s3"), env) == env.fetchS3(b, k)
  {
  }

  /** The event gets as far as the parser: the S3 notification applies as
      `e`, the input reads as `content`, and its transaction type has the
      parser `kind`. */
  predicate ReachesParser(event: Event, env: Env, e: Event, content: string, kind: ParserKind)
  {
    && ApplyRecords(event) == Ok(e)
    && ReadInput(e, e.inputSource.GetOr("s3"), env) == Ok(content)
    && GetParser(TransactionTypeFor(e, content)) == Ok(kind)
  }

  /** The outcome a strict validation failure stops with, if any. */
  predicate StrictlyRejected(settings: Config.Settings, doc: Document)
  {
    settings.enableValidation && settings.strictMode && ValidateDocument(doc).Count() > 0
  }

  /** What the handler goes on to write for a parsed document. */
  function ProcessedOf(settings: Config.Settings, doc: Document): Processed
  {
    Processed(doc, if settings.enableValidation then Some(ValidateDocument(doc)) else None)
  }

  /** Once the parser is chosen, `Prepare` fails with the parse error, stops
      on a strict validation failure, or leaves the validated document to write. */
  lemma PrepareAfterParser(event: Event, settings: Config.Settings, env: Env, e: Event, content: string, kind: ParserKind)
    requires ReachesParser(event, env, e, content, kind)
    ensures ParseDocument(kind, content, env.read).Err? ==> Prepare(event, settings, env) == Err(X12ParseError)
    ensures ParseDocument(kind, content, env.read).Ok? ==>
      var doc := ParseDocument(kind, content, env.read).value;
      Prepare(event, settings, env) ==
        if StrictlyRejected(settings, doc) then Ok(Stop(Response(400, ValidationFailed(ValidateDocument(doc)))))
        else Ok(Write(e, ProcessedOf(settings, doc), TransactionTypeFor(e, content)))
  {
  }

  /** A document the chosen parser cannot parse is answered with 400 and
      `X12ParseError`. */
  lemma ParseFailureAnswers400(event: Event, settings: Config.Settings, env: Env, e: Event, content: string, kind: ParserKind)
    requires ReachesParser(event, env, e, content, kind)
    requires ParseDocument(kind, content, env.read).Err?
    ensures Handle(event, settings, env) == Response(400, Failure(X12ParseError))
  {
    ProcessParseFails(event, settings, env, e, content, kind);
    assert IsProcessingError(X12ParseError);
    ProcessingErrorAnswers400(event, settings, env, X12ParseError);
  }

  /** A local file declared as an 835 that the reader cannot read is
      answered with 400 and `X12ParseError`, whatever the settings. */
  lemma UnreadableLocalFile(settings: Config.Settings, env: Env, path: string, content: string)
    requires path != "" && env.readFile(path) == Ok(content) && env.read(content).None?
    ensures var event := Event([], Some("local"), None, None, Some(path), Some("835"), None, None, None, None);
      Handle(event, settings, env) == Response(400, Failure(X12ParseError))
  {
    var event := Event([], Some("local"), None, None, Some(path), Some("835"), None, None, None, None);
    assert ReachesParser(event, env, event, content, Parser835);
    ParseFailureAnswers400(event, settings, env, event, content, Parser835);
  }

  /** A processing error raised in the `try` body is answered with 400. */
  lemma ProcessingErrorAnswers400(event: Event, settings: Config.Settings, env: Env, c: Cls)
    requires Process(event, settings, env, Corrected) == Err(c) && IsProcessingError(c)
    ensures Handle(event, settings, env) == Response(400, Failure(c))
  {
  }

  lemma ProcessParseFails(event: Event, settings: Config.Settings, env: Env, e: Event, content: string, kind: ParserKind)
    requires ReachesParser(event, env, e, content, kind)
    requires ParseDocument(kind, content, env.read).Err?
    ensures Process(event, settings, env, Corrected) == Err(X12ParseError)
  {
    PrepareAfterParser(event, settings, env, e, content, kind);
  }

  /** In strict mode, a parsed document with validation errors is answered
      with 400 and those errors, and nothing is written. */
  lemma StrictValidationAnswers400(event: Event, settings: Config.Settings, env: Env, e: Event, content: string,
                                   kind: ParserKind, doc: Document)
    requires ReachesParser(event, env, e, content, kind)
    requires ParseDocument(kind, content, env.read) == Ok(doc)
    requires StrictlyRejected(settings, doc)
    ensures Handle(event, settings, env) == Response(400, ValidationFailed(ValidateDocument(doc)))
  {
    PrepareAfterParser(event, settings, env, e, content, kind);
    assert Process(event, settings, env, Corrected) == Ok(Response(400, ValidationFailed(ValidateDocument(doc))));
  }

  /** Otherwise a parsed document is answered with 200 exactly when its
      output is written, with the location and the document's summary. */
  lemma WrittenAnswers200(event: Event, settings: Config.Settings, env: Env, e: Event, content: string,
                          kind: ParserKind, doc: Document)
    requires ReachesParser(event, env, e, content, kind)
    requires ParseDocument(kind, content, env.read) == Ok(doc)
    requires !StrictlyRejected(settings, doc)
    ensures var w := WriteOutput(e, ProcessedOf(settings, doc), settings, env, Corrected);
      && (Handle(event, settings, env).statusCode == 200 <==> w.Ok?)
      && (w.Ok? ==>
            Handle(event, settings, env)
              == Response(200, Success(TransactionTypeFor(e, content), w.value, CreateSummary(ProcessedOf(settings, doc)))))
  {
    PrepareAfterParser(event, settings, env, e, content, kind);
    ProcessWrites(event, settings, env, Corrected);
  }

  /** With validation switched off, validation never decides the answer: a
      processed document answers 200 and carries no validation errors. */
  lemma NoValidationNoBlock(event: Event, settings: Config.Settings, env: Env)
    requires !settings.enableValidation
    requires Process(event, settings, env, Corrected).Ok?
    ensures Handle(event, settings, env).statusCode == 200
    ensures !Handle(event, settings, env).body.summary.hasValidationErrors
  {
  }

  /** A 200 answer means `Prepare` left the output to write and writing it
      succeeded. */
  lemma Answered200(event: Event, settings: Config.Settings, env: Env, mode: LocalWrite)
    requires HandleWith(event, settings, env, mode).statusCode == 200
    ensures Prepare(event, settings, env).Ok? && Prepare(event, settings, env).value.Write?
    ensures var s := Prepare(event, settings, env).value;
      Process(event, settings, env, mode) == Finish(s.event, s.processed, s.transactionType, settings, env, mode)
  {
    assert Process(event, settings, env, mode).Ok?;
  }

  /** Once `Prepare` has left the output to write, the response is what
      writing it gives. */
  lemma ProcessWrites(event: Event, settings: Config.Settings, env: Env, mode: LocalWrite)
    requires Prepare(event, settings, env).Ok? && Prepare(event, settings, env).value.Write?
    ensures var s := Prepare(event, settings, env).value;
      Process(event, settings, env, mode) == Finish(s.event, s.processed, s.transactionType, settings, env, mode)
  {
  }

  /** A local write that succeeds when corrected fails as written. */
  lemma FinishLocal(e: Event, p: Processed, t: string, settings: Config.Settings, env: Env)
    requires e.outputDestination == Some("local")
    requires Finish(e, p, t, settings, env, Corrected).Ok?
    ensures Finish(e, p, t, settings, env, AsWritten) == Err(TypeError)
    ensures Finish(e, p, t, settings, env, Corrected).value.body.outputLocation == e.outputPath.GetOr("/tmp/result.json")
  {
  }

  /** The local output branch as written always fails once the file is open:
      a request the handler would otherwise answer with 200 gets 500 and a
      `TypeError`. The corrected write returns the output path. */
  lemma LocalOutputFails(event: Event, settings: Config.Settings, env: Env)
    requires event.outputDestination == Some("local")
    requires Handle(event, settings, env).statusCode == 200
    ensures HandleWith(event, settings, env, AsWritten) == Response(500, Failure(TypeError))
    ensures Handle(event, settings, env).body.outputLocation == event.outputPath.GetOr("/tmp/result.json")
  {
    Answered200(event, settings, env, Corrected);
    ProcessWrites(event, settings, env, AsWritten);
    var s := Prepare(event, settings, env).value;
    FinishLocal(s.event, s.processed, s.transactionType, settings, env);
    assert !IsProcessingError(TypeError);
  }
}

=== FILE: json.dfy ===
/** The JSON-like tree that the external X12 reader hands to the 277 and 835
    extractors (one dictionary per transaction), and the Python operations the
    extractors perform on it: `.get` with a default, truthiness, iteration
    with the "single dict means a one-element list" normalisation, and the
    dotted-path lookup `_safe_get`. */
module Json {
  import opened Wrappers

  datatype Value =
    | Null
    | Bool(b: bool)
    | Num(n: real)
    | Str(s: string)
    | Arr(items: seq<Value>)
    | Obj(fields: map<string, Value>)

  /** The Python exceptions a walk over a tree of the wrong shape raises. */
  datatype Fault =
    | NoGet        // AttributeError: `.get` on something that is not a dict
    | NotIterable  // TypeError: iterating a number, a bool or None
    | NotAddable   // TypeError: adding something that is not a number to a float

  /** Python truthiness. */
  predicate Truthy(v: Value)
  {
    match v
    case Null => false
    case Bool(b) => b
    case Num(n) => n != 0.0
    case Str(s) => s != ""
    case Arr(xs) => |xs| > 0
    case Obj(m) => |m| > 0
  }

  /** `d.get(key, default)` on a dictionary that is known to be one. */
  function Field(d: map<string, Value>, key: string, default: Value): Value
  {
    if key in d then d[key] else default
  }

  /** The dictionary `v` is, for the `.get` calls that follow; anything else
      fails as `.get` on it would. */
  function AsDict(v: Value): (r: Result<map<string, Value>, Fault>)
    ensures r.Ok? <==> v.Obj?
    ensures r.Ok? ==> v == Obj(r.value)
  {
    if v.Obj? then Ok(v.fields) else Err(NoGet)
  }

  /** The entries a `for` loop visits after `if isinstance(v, dict): v = [v]`:
      a dict is one entry, a list its elements, a string its characters. */
  function Entries(v: Value): (r: Result<seq<Value>, Fault>)
    ensures v.Obj? ==> r == Ok([v])
    ensures v.Arr? ==> r == Ok(v.items)
    ensures r.Ok? <==> v.Obj? || v.Arr? || v.Str?
  {
    match v
    case Obj(_) => Ok([v])
    case Arr(xs) => Ok(xs)
    case Str(s) => Ok(seq(|s|, i requires 0 <= i < |s| => Str([s[i]])))
    case _ => Err(NotIterable)
  }

  /** `if isinstance(v, list) and v: v = v[0]`. */
  function First(v: Value): Value
  {
    if v.Arr? && |v.items| > 0 then v.items[0] else v
  }

  /** A number as Python's `float + x` sees it (a bool counts as 0 or 1). */
  function Amount(v: Value): (r: Result<real, Fault>)
    ensures r.Ok? <==> v.Num? || v.Bool?
  {
    match v
    case Num(n) => Ok(n)
    case Bool(b) => Ok(if b then 1.0 else 0.0)
    case _ => Err(NotAddable)
  }

  /** Apply `f` to every entry in order; the first failure stops the walk. */
  function Traverse<A, B>(xs: seq<A>, f: A -> Result<B, Fault>): (r: Result<seq<B>, Fault>)
    ensures r.Ok? <==> forall i | 0 <= i < |xs| :: f(xs[i]).Ok?
    ensures r.Ok? ==> |r.value| == |xs| && forall i | 0 <= i < |xs| :: r.value[i] == f(xs[i]).value
  {
    if |xs| == 0 then Ok([])
    else
      match f(xs[0])
      case Err(e) => Err(e)
      case Ok(y) =>
        match Traverse(xs[1..], f)
        case Err(e) => Err(e)
        case Ok(ys) =>
          assert forall i | 1 <= i < |xs| :: xs[i] == xs[1..][i - 1];
          Ok([y] + ys)
  }

  /** The value at a path of keys, when every step finds a dict holding the key. */
  function Lookup(v: Value, path: seq<string>): Option<Value>
  {
    if |path| == 0 then Some(v)
    else if v.Obj? && path[0] in v.fields then Lookup(v.fields[path[0]], path[1..])
    else None
  }

  /** `_safe_get(v, "k1.k2...", default)`: descend with `.get(key, default)`
      while the current value is a dict, return `default` as soon as it is
      not, and finally replace a `None` by `default`. */
  function SafeGet(v: Value, path: seq<string>, default: Value): Value
    decreases |path|
  {
    if |path| == 0 then (if v.Null? then default else v)
    else if v.Obj? then SafeGet(Field(v.fields, path[0], default), path[1..], default)
    else default
  }

  /** With a default that is not a dict (the code always passes ""), the
      dotted lookup returns the value at the path, and the default when an
      intermediate value is not a dict, a key is missing, or the value found
      is `None`. */
  lemma {:induction false} SafeGetLookup(v: Value, path: seq<string>, default: Value)
    requires !default.Obj?
    ensures SafeGet(v, path, default) ==
      match Lookup(v, path)
      case Some(x) => if x.Null? then default else x
      case None => default
    decreases |path|
  {
    if |path| > 0 && v.Obj? {
      if path[0] in v.fields {
        SafeGetLookup(v.fields[path[0]], path[1..], default);
      } else {
        SafeGetOnDefault(path[1..], default);
      }
    }
  }

  lemma SafeGetOnDefault(path: seq<string>, default: Value)
    requires !default.Obj?
    ensures SafeGet(default, path, default) == default
  {
  }

  /** A dict default is itself descended into: the lookup then finds a value
      that is nowhere in the tree. */
  lemma SafeGetDictDefault()
    ensures var d := Obj(map["b" := Str("x")]);
      SafeGet(Obj(map[]), ["a", "b"], d) == Str("x") && Lookup(Obj(map[]), ["a", "b"]) == None
  {
    var d := Obj(map["b" := Str("x")]);
    assert SafeGet(Obj(map[]), ["a", "b"], d) == SafeGet(d, ["b"], d);
    assert ["a", "b"][1..] == ["b"];
    assert ["b"][1..] == [];
  }
}

=== FILE: match_key.dfy ===
/** The composite key the reconciliation engine matches 277CA rejections and
    835 payments on: patient, date of service and whole-dollar amount, joined
    with `|`. Rejected claims have no payer control number yet, so nothing
    better is available. */
module ClaimKey {
  import opened Wrappers
  import opened Text

  /** The fields the engine reads from a rejection or a claim dictionary;
      a missing key and a `None` value are both `None`. */
  datatype ClaimRecord = ClaimRecord(
    patientId: Option<string>,
    patientName: Option<string>,
    dateOfService: Option<string>,
    billedAmount: Option<real>,
    chargedAmount: Option<real>,
    transactionDate: Option<string>,
    rejectionReason: Option<string>,
    statusCode: Option<string>,
    traceNumber: Option<string>,
    paymentDate: Option<string>,
    paidAmount: Option<real>,
    claimStatus: Option<string>)

  /** Python truthiness of an optional amount: present and non-zero. */
  predicate NonZero(o: Option<real>)
  {
    o.Some? && o.value != 0.0
  }

  /** `billed_amount or charged_amount`. */
  function KeyAmount(rec: ClaimRecord): Option<real>
  {
    if NonZero(rec.billedAmount) then rec.billedAmount else rec.chargedAmount
  }

  /** A date range `YYYYMMDD-…` in the shape the key shortens: one dash, at
      position 8. */
  predicate IsRange(d: string)
  {
    |d| >= 9 && d[8] == '-' && '-' !in d[..8] && '-' !in d[9..]
  }

  /** A date of service as the key uses it: a range is replaced by its start
      date, anything else is kept verbatim. */
  function NormalizeDate(d: string): (r: string)
    ensures r <= d
    ensures r != d <==> IsRange(d)
    ensures IsRange(d) ==> r == d[..8]
  {
    var parts := Split(d, '-');
    if '-' in d && |parts| == 2 && |parts[0]| == 8 then
      assert d == parts[0] + "-" + parts[1] by {
        assert Join(parts, '-') == parts[0] + "-" + Join(parts[1..], '-');
      }
      assert d[..8] == parts[0];
      assert d[9..] == parts[1];
      parts[0]
    else
      d
  }

  /** Normalising twice changes nothing more. */
  lemma NormalizeIdempotent(d: string)
    ensures NormalizeDate(NormalizeDate(d)) == NormalizeDate(d)
  {
    if IsRange(d) {
      assert !IsRange(d[..8]);
    }
  }

  /** The amount part of the key: the truncated whole amount. */
  function AmountPart(x: real): string
  {
    IntToString(Truncate(x))
  }

  function KeyParts(rec: ClaimRecord): seq<string>
    requires rec.patientId.Some?
  {
    [rec.patientId.value]
    + (if Present(rec.dateOfService) then [NormalizeDate(rec.dateOfService.value)] else [])
    + (if NonZero(KeyAmount(rec)) then [AmountPart(KeyAmount(rec).value)] else [])
  }

  /** `_create_match_key`: no key without a patient id, nor when neither a date
      of service nor a non-zero amount is there to go with it; otherwise the
      key starts with the patient id. */
  function MatchKey(rec: ClaimRecord): (r: Option<string>)
    ensures r.None? <==>
      !Present(rec.patientId) || (!Present(rec.dateOfService) && !NonZero(KeyAmount(rec)))
    ensures r.Some? ==> rec.patientId.value <= r.value
  {
    if !Present(rec.patientId) then None
    else
      var parts := KeyParts(rec);
      if |parts| >= 2 then
        assert parts[0] == rec.patientId.value;
        Some(Join(parts, '|'))
      else None
  }

  /** A key whose parts hold no `|` splits back into the patient id, the
      normalised date when there is one, and the whole amount when there is one. */
  lemma KeyDecodes(rec: ClaimRecord)
    requires MatchKey(rec).Some?
    requires '|' !in rec.patientId.value
    requires Present(rec.dateOfService) ==> '|' !in rec.dateOfService.value
    ensures var parts := Split(MatchKey(rec).value, '|');
      && parts[0] == rec.patientId.value
      && |parts| == 1 + (if Present(rec.dateOfService) then 1 else 0) + (if NonZero(KeyAmount(rec)) then 1 else 0)
      && (Present(rec.dateOfService) ==> parts[1] == NormalizeDate(rec.dateOfService.value))
      && (NonZero(KeyAmount(rec)) ==> parts[|parts| - 1] == AmountPart(KeyAmount(rec).value))
  {
    var parts := KeyParts(rec);
    forall i | 0 <= i < |parts|
      ensures '|' !in parts[i]
    {
      if Present(rec.dateOfService) {
        var d := rec.dateOfService.value;
        assert NormalizeDate(d) <= d;
        assert forall j | 0 <= j < |NormalizeDate(d)| :: NormalizeDate(d)[j] == d[j];
      }
      if NonZero(KeyAmount(rec)) {
        assert forall j | 0 <= j < |AmountPart(KeyAmount(rec).value)| :: AmountPart(KeyAmount(rec).value)[j] != '|';
      }
    }
    SplitJoin(parts, '|');
  }

  /** A date range matches its own start date. */
  lemma RangeMatchesStart(rec: ClaimRecord)
    requires rec.dateOfService.Some? && IsRange(rec.dateOfService.value)
    ensures MatchKey(rec) == MatchKey(rec.(dateOfService := Some(rec.dateOfService.value[..8])))
  {
    var d := rec.dateOfService.value;
    assert !IsRange(d[..8]);
    assert Present(rec.dateOfService) && Present(Some(d[..8]));
    if Present(rec.patientId) {
      assert NormalizeDate(d) == NormalizeDate(d[..8]);
      assert KeyParts(rec) == KeyParts(rec.(dateOfService := Some(d[..8])));
    }
  }

  /** Cents do not count: amounts with the same whole part give the same key. */
  lemma CentsIgnored(rec: ClaimRecord)
    requires rec.billedAmount == Some(100.99)
    ensures MatchKey(rec) == MatchKey(rec.(billedAmount := Some(100.0)))
  {
    assert Truncate(100.99) == 100 == Truncate(100.0);
  }

  /** The parts are not labelled, so a date and an amount can be confused:
      a claim dated with the digits of a whole number n and a claim of n.00
      without a date share a key (for n = 123, both keys are "P|123"). */
  lemma DateAmountCollision(p: string, n: nat)
    requires p != "" && n > 0
    ensures var a := ClaimRecord(Some(p), None, Some(NatToString(n)), None, None, None, None, None, None, None, None, None);
      var b := ClaimRecord(Some(p), None, None, Some(n as real), None, None, None, None, None, None, None, None);
      MatchKey(a) == MatchKey(b) == Some(p + "|" + NatToString(n))
  {
    var a := ClaimRecord(Some(p), None, Some(NatToString(n)), None, None, None, None, None, None, None, None, None);
    var b := ClaimRecord(Some(p), None, None, Some(n as real), None, None, None, None, None, None, None, None);
    var digits := NatToString(n);
    assert '-' !in digits;
    assert !IsRange(digits);
    assert Truncate(n as real) == n;
    assert AmountPart(n as real) == digits;
    assert KeyParts(a) == [p, digits];
    assert KeyParts(b) == [p, digits];
    assert Join([p, digits], '|') == p + "|" + digits;
  }
}

=== FILE: percent.dfy ===
/** Percentages the reports compute, exactly (the source uses floating point). */
module Percent {

  /** `part / total * 100`, or 0 when `total` is 0. */
  function Rate(part: nat, total: nat): (r: real)
    requires part <= total
    ensures 0.0 <= r <= 100.0
    ensures total == 0 ==> r == 0.0
    ensures total > 0 ==> r * (total as real) == (part as real) * 100.0
    ensures 0 < total == part ==> r == 100.0
  {
    if total == 0 then 0.0 else (part as real) / (total as real) * 100.0
  }
}

=== FILE: reconciliation.dfy ===
/** The claim reconciliation engine: 277CA rejections and 835 payments are
    filed under their match key; a payment marks the rejection with the same
    key as resubmitted, and rejections left unmarked past a threshold become
    "black hole" alerts. The engine is a value; every operation returns the
    next state. */
module Reconciliation {
  import opened Wrappers
  import opened Text
  import opened ClaimKey
  import opened Percent

  /** One tracked rejection (`rejections_cache` entry). */
  datatype Rejection = Rejection(
    rejectionDate: Option<string>,
    patientId: Option<string>,
    patientName: Option<string>,
    dateOfService: Option<string>,
    billedAmount: Option<real>,
    rejectionReason: Option<string>,
    statusCode: Option<string>,
    traceNumber: Option<string>,
    foundIn835: bool,
    resubmissionDate: Option<string>)

  /** One stored payment (`payments_cache` entry). */
  datatype Payment = Payment(
    paymentDate: Option<string>,
    patientId: Option<string>,
    paidAmount: Option<real>,
    claimStatus: Option<string>)

  /** The engine state. `order` is the insertion order of the rejection
      dictionary, which decides the order alerts are found in. */
  datatype Engine = Engine(
    lookbackDays: int,
    rejections: map<string, Rejection>,
    order: seq<string>,
    payments: map<string, Payment>)

  const DefaultLookbackDays := 60

  /** The `days_threshold` that `find_unsubmitted_claims` and
      `generate_reconciliation_report` use when the caller gives none. */
  const DefaultThreshold := 30

  function NewEngine(lookbackDays: int): (e: Engine)
    ensures Valid(e) && e.lookbackDays == lookbackDays
  {
    Engine(lookbackDays, map[], [], map[])
  }

  predicate Distinct(s: seq<string>)
  {
    forall i, j | 0 <= i < j < |s| :: s[i] != s[j]
  }

  /** The insertion order lists every tracked key exactly once. */
  predicate Valid(e: Engine)
  {
    && Distinct(e.order)
    && (forall k | k in e.rejections :: k in e.order)
    && (forall i | 0 <= i < |e.order| :: e.order[i] in e.rejections)
  }

  // ---------------------------------------------------------------- loading

  /** The entry `add_277ca_rejections` files for a record: the transaction
      date becomes the rejection date, the date of service is kept as given,
      and the entry starts out unmatched. */
  function RejectionOf(rec: ClaimRecord): Rejection
  {
    Rejection(rec.transactionDate, rec.patientId, rec.patientName, rec.dateOfService,
              rec.billedAmount, rec.rejectionReason, rec.statusCode, rec.traceNumber, false, None)
  }

  /** One iteration of `add_277ca_rejections`: a record without a key is
      dropped; otherwise its entry replaces whatever was filed under the key,
      resetting the match, and no other entry changes. */
  function AddRejection(e: Engine, rec: ClaimRecord): (r: Engine)
    ensures r.payments == e.payments && r.lookbackDays == e.lookbackDays
    ensures MatchKey(rec).None? ==> r == e
    ensures MatchKey(rec).Some? ==>
      var k := MatchKey(rec).value;
      k in r.rejections && r.rejections[k] == RejectionOf(rec) && !r.rejections[k].foundIn835
    ensures forall k | MatchKey(rec) != Some(k) ::
      (k in r.rejections <==> k in e.rejections) && (k in e.rejections ==> r.rejections[k] == e.rejections[k])
    ensures Valid(e) ==> Valid(r)
  {
    match MatchKey(rec)
    case None => e
    case Some(k) =>
      var order := if k in e.rejections then e.order else e.order + [k];
      e.(rejections := e.rejections[k := RejectionOf(rec)], order := order)
  }

  /** `add_277ca_rejections` over a list of records, in order. */
  function AddRejections(e: Engine, recs: seq<ClaimRecord>): (r: Engine)
    ensures r.payments == e.payments && r.lookbackDays == e.lookbackDays
    ensures Valid(e) ==> Valid(r)
    decreases |recs|
  {
    if |recs| == 0 then e
    else AddRejection(AddRejections(e, recs[..|recs| - 1]), recs[|recs| - 1])
  }

  /** The position of the last record filed under `k`. */
  function LastKeyed(recs: seq<ClaimRecord>, k: string): (r: Option<nat>)
    ensures r.Some? ==> r.value < |recs| && MatchKey(recs[r.value]) == Some(k)
    ensures r.Some? ==> forall j | r.value < j < |recs| :: MatchKey(recs[j]) != Some(k)
    ensures r.None? <==> forall j | 0 <= j < |recs| :: MatchKey(recs[j]) != Some(k)
    decreases |recs|
  {
    if |recs| == 0 then None
    else if MatchKey(recs[|recs| - 1]) == Some(k) then Some(|recs| - 1)
    else LastKeyed(recs[..|recs| - 1], k)
  }

  /** After loading a list of rejections, the entry under a key is the one
      made from the last record with that key; keys no record yields keep
      their earlier entry. */
  lemma {:induction false} LastRejectionWins(e: Engine, recs: seq<ClaimRecord>, k: string)
    ensures var r := AddRejections(e, recs);
      match LastKeyed(recs, k)
      case Some(i) => k in r.rejections && r.rejections[k] == RejectionOf(recs[i])
      case None =>
        && (k in r.rejections <==> k in e.rejections)
        && (k in e.rejections ==> r.rejections[k] == e.rejections[k])
    decreases |recs|
  {
    if |recs| > 0 {
      LastRejectionWins(e, recs[..|recs| - 1], k);
    }
  }

  /** The entry `add_835_payments` stores for a claim. */
  function PaymentOf(rec: ClaimRecord): Payment
  {
    Payment(rec.paymentDate, rec.patientId, rec.paidAmount, rec.claimStatus)
  }

  /** One iteration of `add_835_payments`: a claim with a key is stored as a
      payment, and the rejection under the same key, if any, is marked as
      found with the payment date as its resubmission date. Every other
      rejection and payment is left as it was. */
  function AddPayment(e: Engine, rec: ClaimRecord): (r: Engine)
    ensures r.order == e.order && r.lookbackDays == e.lookbackDays
    ensures MatchKey(rec).None? ==> r == e
    ensures MatchKey(rec).Some? ==>
      var k := MatchKey(rec).value;
      k in r.payments && r.payments[k] == PaymentOf(rec)
    ensures forall k | MatchKey(rec) != Some(k) ::
      (k in r.payments <==> k in e.payments) && (k in e.payments ==> r.payments[k] == e.payments[k])
    ensures forall k :: k in r.rejections <==> k in e.rejections
    ensures forall k | k in e.rejections ::
      r.rejections[k] == (if MatchKey(rec) == Some(k)
        then e.rejections[k].(foundIn835 := true, resubmissionDate := rec.paymentDate)
        else e.rejections[k])
    ensures Valid(e) ==> Valid(r)
  {
    match MatchKey(rec)
    case None => e
    case Some(k) =>
      var payments := e.payments[k := PaymentOf(rec)];
      if k in e.rejections then
        var marked := e.rejections[k].(foundIn835 := true, resubmissionDate := rec.paymentDate);
        e.(payments := payments, rejections := e.rejections[k := marked])
      else
        e.(payments := payments)
  }

  /** `add_835_payments` over a list of claims, in order. */
  function AddPayments(e: Engine, recs: seq<ClaimRecord>): (r: Engine)
    ensures r.order == e.order && r.lookbackDays == e.lookbackDays
    ensures forall k :: k in r.rejections <==> k in e.rejections
    ensures Valid(e) ==> Valid(r)
    decreases |recs|
  {
    if |recs| == 0 then e
    else AddPayment(AddPayments(e, recs[..|recs| - 1]), recs[|recs| - 1])
  }

  /** After loading a list of claims, a tracked rejection is marked exactly
      when it was marked before or some claim has its key; its resubmission
      date is the payment date of the last such claim; its other fields are
      untouched. */
  lemma {:induction false} PaymentsMark(e: Engine, recs: seq<ClaimRecord>, k: string)
    requires k in e.rejections
    ensures var r := AddPayments(e, recs);
      && k in r.rejections
      && r.rejections[k].foundIn835 == (e.rejections[k].foundIn835 || LastKeyed(recs, k).Some?)
      && r.rejections[k].resubmissionDate ==
           (match LastKeyed(recs, k)
            case Some(i) => recs[i].paymentDate
            case None => e.rejections[k].resubmissionDate)
      && r.rejections[k].(foundIn835 := false, resubmissionDate := None)
         == e.rejections[k].(foundIn835 := false, resubmissionDate := None)
    decreases |recs|
  {
    if |recs| > 0 {
      PaymentsMark(e, recs[..|recs| - 1], k);
    }
  }

  /** Loading order matters: a payment marks a rejection filed before it, but a
      rejection filed after its payment starts out unmatched and stays so. */
  lemma LoadOrderMatters(e: Engine, rejection: ClaimRecord, payment: ClaimRecord)
    requires MatchKey(rejection).Some? && MatchKey(rejection) == MatchKey(payment)
    ensures var k := MatchKey(rejection).value;
      && AddPayment(AddRejection(e, rejection), payment).rejections[k].foundIn835
      && !AddRejection(AddPayment(e, payment), rejection).rejections[k].foundIn835
  {
  }

  // ---------------------------------------------------------------- alerts

  /** Microseconds in a day: `datetime` arithmetic is exact to the microsecond. */
  const MicrosPerDay := 86_400_000_000

  /** The two `strptime` formats the engine tries: `%Y-%m-%d` and `%Y%m%d`. */
  datatype DateFormat = Iso | Compact

  /** `strptime` with a format, as the day number of the parsed date (whose
      midnight is `day * MicrosPerDay`); `None` stands for its `ValueError`. */
  type DateParser = (string, DateFormat) -> Option<int>

  /** A rejection date holding a dash is read as `%Y-%m-%d`, any other as `%Y%m%d`. */
  function FormatOf(s: string): DateFormat
  {
    if '-' in s then Iso else Compact
  }

  datatype Severity = High | Medium

  const ActionRequired :=
    "Review rejection reason and resubmit corrected claim. This claim will NEVER appear in 835 until resubmitted."

  datatype Alert = Alert(
    severity: Severity,
    matchKey: string,
    patientId: Option<string>,
    patientName: Option<string>,
    dateOfService: Option<string>,
    billedAmount: Option<real>,
    rejectionDate: Option<string>,
    rejectionReason: Option<string>,
    daysSinceRejection: int,
    estimatedRevenueLoss: Option<real>,
    actionRequired: string)

  /** The day a rejection date stands for, when it is present and parses. */
  function RejectionDay(r: Rejection, parse: DateParser): Option<int>
  {
    if Present(r.rejectionDate) then parse(r.rejectionDate.value, FormatOf(r.rejectionDate.value)) else None
  }

  /** A rejection to alert on: unmatched, with a readable date, and rejected
      strictly before `now` minus `threshold` days. */
  predicate Overdue(r: Rejection, threshold: int, now: int, parse: DateParser)
  {
    && !r.foundIn835
    && RejectionDay(r, parse).Some?
    && RejectionDay(r, parse).value * MicrosPerDay < now - threshold * MicrosPerDay
  }

  /** `timedelta.days`: whole days, rounded toward minus infinity. */
  function DaysBetween(day: int, now: int): int
  {
    (now - day * MicrosPerDay) / MicrosPerDay
  }

  function AlertOf(k: string, r: Rejection, days: int): Alert
  {
    Alert(if days > 45 then High else Medium, k, r.patientId, r.patientName, r.dateOfService,
          r.billedAmount, r.rejectionDate, r.rejectionReason, days, r.billedAmount, ActionRequired)
  }

  /** The body of the `find_unsubmitted_claims` loop for one entry: skip it
      when it is matched, has no date, or its date does not parse; alert when
      it is older than the threshold. */
  function Check(k: string, r: Rejection, threshold: int, now: int, parse: DateParser): (a: Option<Alert>)
    ensures a.Some? <==> Overdue(r, threshold, now, parse)
  {
    if r.foundIn835 then None
    else if !Present(r.rejectionDate) then None
    else match parse(r.rejectionDate.value, FormatOf(r.rejectionDate.value))
      case None => None
      case Some(day) =>
        if day * MicrosPerDay < now - threshold * MicrosPerDay then
          Some(AlertOf(k, r, DaysBetween(day, now)))
        else None
  }

  /** A well-formed alert for the entry under its key. */
  predicate Reported(m: map<string, Rejection>, a: Alert, threshold: int, now: int, parse: DateParser)
  {
    && a.matchKey in m
    && Overdue(m[a.matchKey], threshold, now, parse)
    && a == AlertOf(a.matchKey, m[a.matchKey], DaysBetween(RejectionDay(m[a.matchKey], parse).value, now))
  }

  predicate HasKey(alerts: seq<Alert>, k: string)
  {
    exists i | 0 <= i < |alerts| :: alerts[i].matchKey == k
  }

  /** The alerts of a walk over the given keys, in walk order: one for each
      overdue entry and nothing else. */
  function Scan(m: map<string, Rejection>, keys: seq<string>, threshold: int, now: int, parse: DateParser): (r: seq<Alert>)
    requires forall i | 0 <= i < |keys| :: keys[i] in m
    ensures |r| <= |keys|
    ensures forall a | a in r :: a.matchKey in keys && Reported(m, a, threshold, now, parse)
    ensures forall k | k in keys :: HasKey(r, k) <==> Overdue(m[k], threshold, now, parse)
    decreases |keys|
  {
    if |keys| == 0 then []
    else
      var front := Scan(m, keys[..|keys| - 1], threshold, now, parse);
      var k := keys[|keys| - 1];
      assert forall j | j in keys[..|keys| - 1] :: j in keys;
      assert forall j | j in keys :: j in keys[..|keys| - 1] || j == k;
      match Check(k, m[k], threshold, now, parse)
      case None => front
      case Some(a) =>
        assert a.matchKey == k;
        assert (front + [a])[|front|] == a;
        assert forall j | 0 <= j < |front| :: (front + [a])[j] == front[j];
        front + [a]
  }

  /** An alert is never younger than the threshold, since it was older than
      `threshold` days to be reported. */
  lemma DaysAtLeastThreshold(day: int, threshold: int, now: int)
    requires day * MicrosPerDay < now - threshold * MicrosPerDay
    ensures DaysBetween(day, now) >= threshold
  {
  }

  predicate SortedByDays(s: seq<Alert>)
  {
    forall i, j | 0 <= i < j < |s| :: s[i].daysSinceRejection >= s[j].daysSinceRejection
  }

  /** Place `a` after every alert at least as old, before the first younger one. */
  function Insert(s: seq<Alert>, a: Alert): (r: seq<Alert>)
    ensures multiset(r) == multiset(s) + multiset{a}
  {
    if |s| == 0 then [a]
    else if s[0].daysSinceRejection < a.daysSinceRejection then [a] + s
    else
      assert s == [s[0]] + s[1..];
      [s[0]] + Insert(s[1..], a)
  }

  /** Putting an alert no younger than all of a sorted list in front keeps
      it sorted. */
  lemma ConsSorted(x: Alert, s: seq<Alert>)
    requires SortedByDays(s)
    requires forall i | 0 <= i < |s| :: s[i].daysSinceRejection <= x.daysSinceRejection
    ensures SortedByDays([x] + s)
  {
    var r := [x] + s;
    forall i, j | 0 <= i < j < |r|
      ensures r[i].daysSinceRejection >= r[j].daysSinceRejection
    {
      assert r[j] == s[j - 1];
      if i > 0 {
        assert r[i] == s[i - 1];
      }
    }
  }

  lemma SortedTail(s: seq<Alert>)
    requires SortedByDays(s) && |s| > 0
    ensures SortedByDays(s[1..])
    ensures forall i | 0 <= i < |s[1..]| :: s[1..][i].daysSinceRejection <= s[0].daysSinceRejection
  {
    forall i | 0 <= i < |s[1..]|
      ensures s[1..][i].daysSinceRejection <= s[0].daysSinceRejection
    {
      assert s[1..][i] == s[i + 1];
    }
  }

  /** Inserting keeps every alert at most `bound` days old. */
  lemma InsertBelow(s: seq<Alert>, a: Alert, bound: int)
    requires forall i | 0 <= i < |s| :: s[i].daysSinceRejection <= bound
    requires a.daysSinceRejection <= bound
    ensures forall i | 0 <= i < |Insert(s, a)| :: Insert(s, a)[i].daysSinceRejection <= bound
  {
    var r := Insert(s, a);
    forall i | 0 <= i < |r|
      ensures r[i].daysSinceRejection <= bound
    {
      assert r[i] in multiset(r);
      if r[i] != a {
        assert r[i] in multiset(s);
        var j :| 0 <= j < |s| && s[j] == r[i];
      }
    }
  }

  lemma {:induction false} InsertSorted(s: seq<Alert>, a: Alert)
    requires SortedByDays(s)
    ensures SortedByDays(Insert(s, a))
    decreases |s|
  {
    if |s| > 0 && s[0].daysSinceRejection >= a.daysSinceRejection {
      SortedTail(s);
      InsertSorted(s[1..], a);
      InsertBelow(s[1..], a, s[0].daysSinceRejection);
      ConsSorted(s[0], Insert(s[1..], a));
    } else if |s| > 0 {
      SortedTail(s);
      ConsSorted(a, s);
    }
  }

  /** `alerts.sort(key=days_since_rejection, reverse=True)`: oldest first; the
      sort is stable. */
  function SortByDays(s: seq<Alert>): (r: seq<Alert>)
    ensures multiset(r) == multiset(s)
    ensures SortedByDays(r)
    decreases |s|
  {
    if |s| == 0 then []
    else
      assert s == s[..|s| - 1] + [s[|s| - 1]];
      InsertSorted(SortByDays(s[..|s| - 1]), s[|s| - 1]);
      Insert(SortByDays(s[..|s| - 1]), s[|s| - 1])
  }

  /** The alerts of a given age, in order. */
  function WithDays(s: seq<Alert>, d: int): (r: seq<Alert>)
    ensures |r| <= |s|
  {
    if |s| == 0 then []
    else (if s[0].daysSinceRejection == d then [s[0]] else []) + WithDays(s[1..], d)
  }

  lemma {:induction false} WithDaysConcat(a: seq<Alert>, b: seq<Alert>, d: int)
    ensures WithDays(a + b, d) == WithDays(a, d) + WithDays(b, d)
    decreases |a|
  {
    if |a| > 0 {
      assert (a + b)[1..] == a[1..] + b;
      WithDaysConcat(a[1..], b, d);
    } else {
      assert a + b == b;
    }
  }

  lemma {:induction false} WithDaysYounger(s: seq<Alert>, d: int)
    requires forall i | 0 <= i < |s| :: s[i].daysSinceRejection < d
    ensures WithDays(s, d) == []
    decreases |s|
  {
    if |s| > 0 {
      WithDaysYounger(s[1..], d);
    }
  }

  /** An alert placed in front of younger ones comes after them among the
      alerts of its age, since none of them has that age. */
  lemma InsertFrontStable(s: seq<Alert>, a: Alert, d: int)
    requires forall i | 0 <= i < |s| :: s[i].daysSinceRejection < a.daysSinceRejection
    ensures WithDays([a] + s, d) == WithDays(s, d) + WithDays([a], d)
  {
    WithDaysConcat([a], s, d);
    if d == a.daysSinceRejection {
      WithDaysYounger(s, d);
    } else {
      assert WithDays([a], d) == [];
    }
  }

  lemma WithDaysInsertPast(s: seq<Alert>, a: Alert, d: int)
    requires |s| > 0 && s[0].daysSinceRejection >= a.daysSinceRejection
    ensures WithDays(Insert(s, a), d) == WithDays([s[0]], d) + WithDays(Insert(s[1..], a), d)
  {
    assert Insert(s, a) == [s[0]] + Insert(s[1..], a);
    WithDaysConcat([s[0]], Insert(s[1..], a), d);
  }

  lemma WithDaysFront(s: seq<Alert>, d: int)
    requires |s| > 0
    ensures WithDays(s, d) == WithDays([s[0]], d) + WithDays(s[1..], d)
  {
    assert [s[0]] + s[1..] == s;
    WithDaysConcat([s[0]], s[1..], d);
  }

  /** Passing over an alert at least as old keeps the order of the alerts of
      each age. */
  lemma InsertStableStep(s: seq<Alert>, a: Alert, d: int)
    requires |s| > 0 && s[0].daysSinceRejection >= a.daysSinceRejection
    requires WithDays(Insert(s[1..], a), d) == WithDays(s[1..], d) + WithDays([a], d)
    ensures WithDays(Insert(s, a), d) == WithDays(s, d) + WithDays([a], d)
  {
    WithDaysInsertPast(s, a, d);
    WithDaysFront(s, d);
    ConcatAssoc(WithDays([s[0]], d), WithDays(s[1..], d), WithDays([a], d));
  }

  lemma {:induction false} InsertStable(s: seq<Alert>, a: Alert, d: int)
    requires SortedByDays(s)
    ensures WithDays(Insert(s, a), d) == WithDays(s, d) + WithDays([a], d)
    decreases |s|
  {
    if |s| == 0 {
      assert Insert(s, a) == [a] && WithDays(s, d) == [];
      assert [] + WithDays([a], d) == WithDays([a], d);
    } else if s[0].daysSinceRejection < a.daysSinceRejection {
      assert Insert(s, a) == [a] + s;
      assert forall i | 0 <= i < |s| :: s[i].daysSinceRejection <= s[0].daysSinceRejection;
      InsertFrontStable(s, a, d);
    } else {
      SortedTail(s);
      InsertStable(s[1..], a, d);
      InsertStableStep(s, a, d);
    }
  }

  /** The sort is stable: the alerts of any one age keep their relative order. */
  lemma {:induction false} SortStable(s: seq<Alert>, d: int)
    ensures WithDays(SortByDays(s), d) == WithDays(s, d)
    decreases |s|
  {
    if |s| > 0 {
      var front, last := s[..|s| - 1], s[|s| - 1];
      SortStable(front, d);
      InsertStable(SortByDays(front), last, d);
      assert SortByDays(s) == Insert(SortByDays(front), last);
      FrontLast(s);
      WithDaysConcat(front, [last], d);
    }
  }

  lemma HasKeyPermutation(s: seq<Alert>, t: seq<Alert>, k: string)
    requires multiset(s) == multiset(t)
    ensures HasKey(s, k) <==> HasKey(t, k)
  {
    if HasKey(s, k) {
      var i :| 0 <= i < |s| && s[i].matchKey == k;
      assert s[i] in multiset(t);
      var j :| 0 <= j < |t| && t[j] == s[i];
    }
    if HasKey(t, k) {
      var j :| 0 <= j < |t| && t[j].matchKey == k;
      assert t[j] in multiset(s);
      var i :| 0 <= i < |s| && s[i] == t[j];
    }
  }

  /** No two alerts are for the same key. */
  predicate KeysDistinct(alerts: seq<Alert>)
  {
    forall i, j | 0 <= i < j < |alerts| :: alerts[i].matchKey != alerts[j].matchKey
  }

  /** A walk over distinct keys raises at most one alert per key. */
  lemma {:induction false} ScanDistinct(m: map<string, Rejection>, keys: seq<string>, threshold: int, now: int, parse: DateParser)
    requires forall i | 0 <= i < |keys| :: keys[i] in m
    requires Distinct(keys)
    ensures KeysDistinct(Scan(m, keys, threshold, now, parse))
    decreases |keys|
  {
    if |keys| > 0 {
      var front := keys[..|keys| - 1];
      var k := keys[|keys| - 1];
      assert Distinct(front) by {
        forall i, j | 0 <= i < j < |front| ensures front[i] != front[j] {
          assert front[i] == keys[i] && front[j] == keys[j];
        }
      }
      ScanDistinct(m, front, threshold, now, parse);
      var f := Scan(m, front, threshold, now, parse);
      assert k !in front;
      assert forall i | 0 <= i < |f| :: f[i] in f && f[i].matchKey != k;
      ScanLast(m, keys, threshold, now, parse);
      var r := Scan(m, keys, threshold, now, parse);
      if r != f {
        ConsDistinctLast(f, r[|r| - 1]);
      }
    }
  }

  /** One step of the walk: the alerts over the keys but the last, and then
      possibly one alert for the last key. */
  lemma ScanLast(m: map<string, Rejection>, keys: seq<string>, threshold: int, now: int, parse: DateParser)
    requires forall i | 0 <= i < |keys| :: keys[i] in m
    requires |keys| > 0
    ensures var f := Scan(m, keys[..|keys| - 1], threshold, now, parse);
      var r := Scan(m, keys, threshold, now, parse);
      r == f || (|r| > 0 && r == f + [r[|r| - 1]] && r[|r| - 1].matchKey == keys[|keys| - 1])
  {
  }

  lemma ConsDistinctLast(f: seq<Alert>, a: Alert)
    requires KeysDistinct(f)
    requires forall i | 0 <= i < |f| :: f[i].matchKey != a.matchKey
    ensures KeysDistinct(f + [a])
  {
    var r := f + [a];
    forall i, j | 0 <= i < j < |r| ensures r[i].matchKey != r[j].matchKey {
      assert r[i] == f[i];
      if j < |f| {
        assert r[j] == f[j];
      }
    }
  }

  lemma ConsDistinct(x: Alert, s: seq<Alert>)
    requires KeysDistinct(s) && !HasKey(s, x.matchKey)
    ensures KeysDistinct([x] + s)
  {
    var r := [x] + s;
    forall i, j | 0 <= i < j < |r| ensures r[i].matchKey != r[j].matchKey {
      assert r[j] == s[j - 1];
      if i > 0 {
        assert r[i] == s[i - 1];
      }
    }
  }

  lemma {:induction false} InsertDistinct(s: seq<Alert>, a: Alert)
    requires KeysDistinct(s) && !HasKey(s, a.matchKey)
    ensures KeysDistinct(Insert(s, a))
    decreases |s|
  {
    if |s| == 0 {
    } else if s[0].daysSinceRejection < a.daysSinceRejection {
      ConsDistinct(a, s);
    } else {
      var t := s[1..];
      assert KeysDistinct(t) by {
        forall i, j | 0 <= i < j < |t| ensures t[i].matchKey != t[j].matchKey {
          assert t[i] == s[i + 1] && t[j] == s[j + 1];
        }
      }
      assert !HasKey(t, a.matchKey) by {
        forall i | 0 <= i < |t| ensures t[i].matchKey != a.matchKey {
          assert t[i] == s[i + 1];
        }
      }
      InsertDistinct(t, a);
      assert !HasKey(t + [a], s[0].matchKey) by {
        forall i | 0 <= i < |t + [a]| ensures (t + [a])[i].matchKey != s[0].matchKey {
          if i < |t| {
            assert (t + [a])[i] == s[i + 1];
          }
        }
      }
      HasKeyPermutation(Insert(t, a), t + [a], s[0].matchKey);
      ConsDistinct(s[0], Insert(t, a));
    }
  }

  lemma {:induction false} SortDistinct(s: seq<Alert>)
    requires KeysDistinct(s)
    ensures KeysDistinct(SortByDays(s))
    decreases |s|
  {
    if |s| > 0 {
      var front, last := s[..|s| - 1], s[|s| - 1];
      assert KeysDistinct(front) by {
        forall i, j | 0 <= i < j < |front| ensures front[i].matchKey != front[j].matchKey {
          assert front[i] == s[i] && front[j] == s[j];
        }
      }
      SortDistinct(front);
      assert !HasKey(front, last.matchKey) by {
        forall i | 0 <= i < |front| ensures front[i].matchKey != last.matchKey {
          assert front[i] == s[i];
        }
      }
      HasKeyPermutation(front, SortByDays(front), last.matchKey);
      InsertDistinct(SortByDays(front), last);
      assert SortByDays(s) == Insert(SortByDays(front), last);
    }
  }

  /** `find_unsubmitted_claims(threshold)`: exactly one alert per overdue
      entry and nothing else, oldest first. */
  function FindUnsubmitted(e: Engine, threshold: int, now: int, parse: DateParser): (r: seq<Alert>)
    requires Valid(e)
    ensures |r| <= |e.rejections|
    ensures forall a | a in r :: Reported(e.rejections, a, threshold, now, parse)
    ensures forall k | k in e.rejections :: HasKey(r, k) <==> Overdue(e.rejections[k], threshold, now, parse)
    ensures SortedByDays(r)
    ensures KeysDistinct(r)
  {
    var found := Scan(e.rejections, e.order, threshold, now, parse);
    SortKeeps(found);
    OrderCard(e);
    ScanDistinct(e.rejections, e.order, threshold, now, parse);
    SortDistinct(found);
    SortByDays(found)
  }

  /** Sorting keeps the alerts and the keys they are for. */
  lemma SortKeeps(s: seq<Alert>)
    ensures |SortByDays(s)| == |s|
    ensures forall a | a in SortByDays(s) :: a in s
    ensures forall k :: HasKey(SortByDays(s), k) <==> HasKey(s, k)
  {
    var r := SortByDays(s);
    assert |r| == |multiset(r)| == |multiset(s)| == |s|;
    forall a | a in r
      ensures a in s
    {
      assert a in multiset(r);
    }
    forall k
      ensures HasKey(r, k) <==> HasKey(s, k)
    {
      HasKeyPermutation(s, r, k);
    }
  }

  lemma OrderCard(e: Engine)
    requires Valid(e)
    ensures |e.order| == |e.rejections|
  {
    DistinctCard(e.order);
    assert e.rejections.Keys == set k | k in e.order;
  }

  /** Every alert is for an unmatched entry, at least `threshold` days old,
      HIGH exactly when older than 45 days, with the billed amount as the
      estimated loss. */
  lemma AlertFields(e: Engine, threshold: int, now: int, parse: DateParser)
    requires Valid(e)
    ensures var r := FindUnsubmitted(e, threshold, now, parse);
      forall a | a in r ::
        && !e.rejections[a.matchKey].foundIn835
        && a.daysSinceRejection >= threshold
        && (a.severity == High <==> a.daysSinceRejection > 45)
        && a.estimatedRevenueLoss == e.rejections[a.matchKey].billedAmount
  {
    var r := FindUnsubmitted(e, threshold, now, parse);
    forall a | a in r
      ensures a.daysSinceRejection >= threshold
    {
      DaysAtLeastThreshold(RejectionDay(e.rejections[a.matchKey], parse).value, threshold, now);
    }
  }

  /** Alerts of the same age come out in the order of the rejection
      dictionary. */
  lemma FindUnsubmittedStable(e: Engine, threshold: int, now: int, parse: DateParser, d: int)
    requires Valid(e)
    ensures WithDays(FindUnsubmitted(e, threshold, now, parse), d)
         == WithDays(Scan(e.rejections, e.order, threshold, now, parse), d)
  {
    SortStable(Scan(e.rejections, e.order, threshold, now, parse), d);
  }

  // ---------------------------------------------------------------- summary

  lemma {:induction false} DistinctCard(s: seq<string>)
    requires Distinct(s)
    ensures |set k | k in s| == |s|
    decreases |s|
  {
    if |s| > 0 {
      var front := s[..|s| - 1];
      DistinctCard(front);
      assert (set k | k in s) == (set k | k in front) + {s[|s| - 1]};
      assert s[|s| - 1] !in front;
    }
  }

  /** The contribution of an entry to the revenue at risk: its billed amount
      (a missing one counts as 0) while unmatched. */
  function AtRisk(r: Rejection): real
  {
    if r.foundIn835 then 0.0 else r.billedAmount.GetOr(0.0)
  }

  function CountFound(m: map<string, Rejection>, keys: seq<string>): (n: nat)
    requires forall i | 0 <= i < |keys| :: keys[i] in m
    ensures n <= |keys|
    decreases |keys|
  {
    if |keys| == 0 then 0
    else CountFound(m, keys[..|keys| - 1]) + (if m[keys[|keys| - 1]].foundIn835 then 1 else 0)
  }

  /** The tracked keys whose rejection a payment has matched. */
  function FoundKeys(m: map<string, Rejection>): set<string>
  {
    set k | k in m && m[k].foundIn835
  }

  /** The matched keys among a walk's keys. */
  function FoundAmong(m: map<string, Rejection>, keys: seq<string>): set<string>
  {
    set k | k in keys && k in FoundKeys(m)
  }

  lemma FoundAmongSnoc(m: map<string, Rejection>, keys: seq<string>)
    requires |keys| > 0
    ensures var last := keys[|keys| - 1];
      FoundAmong(m, keys) == FoundAmong(m, keys[..|keys| - 1]) + (if last in FoundKeys(m) then {last} else {})
  {
    forall k ensures k in keys <==> k in keys[..|keys| - 1] || k == keys[|keys| - 1] {
      FrontLast(keys);
    }
  }

  /** Counting along distinct keys counts the matched keys among them. */
  lemma {:induction false} CountFoundKeys(m: map<string, Rejection>, keys: seq<string>)
    requires forall i | 0 <= i < |keys| :: keys[i] in m
    requires Distinct(keys)
    ensures CountFound(m, keys) == |FoundAmong(m, keys)|
    decreases |keys|
  {
    if |keys| > 0 {
      var front, last := keys[..|keys| - 1], keys[|keys| - 1];
      assert Distinct(front) by {
        forall i, j | 0 <= i < j < |front| ensures front[i] != front[j] {
          assert front[i] == keys[i] && front[j] == keys[j];
        }
      }
      CountFoundKeys(m, front);
      FoundAmongSnoc(m, keys);
      assert last !in front;
    }
  }

  lemma OrderFound(e: Engine)
    requires Valid(e)
    ensures CountFound(e.rejections, e.order) == |FoundKeys(e.rejections)|
  {
    CountFoundKeys(e.rejections, e.order);
    assert FoundAmong(e.rejections, e.order) == FoundKeys(e.rejections);
  }

  function SumAtRisk(m: map<string, Rejection>, keys: seq<string>): real
    requires forall i | 0 <= i < |keys| :: keys[i] in m
    decreases |keys|
  {
    if |keys| == 0 then 0.0
    else SumAtRisk(m, keys[..|keys| - 1]) + AtRisk(m[keys[|keys| - 1]])
  }

  datatype Summary = Summary(
    totalRejectionsTracked: nat,
    successfullyResubmitted: nat,
    stillUnsubmitted: int,
    resubmissionRate: real,
    potentialRevenueAtRisk: real,
    trackingPeriodDays: int)

  /** `get_reconciliation_summary`: the matched and unmatched entries add up to
      all tracked entries, the rate is a percentage (0 with nothing tracked),
      and the revenue at risk sums the unmatched entries' billed amounts. */
  function GetSummary(e: Engine): (s: Summary)
    requires Valid(e)
    ensures s.totalRejectionsTracked == |e.rejections|
    ensures s.successfullyResubmitted + s.stillUnsubmitted == s.totalRejectionsTracked
    ensures 0 <= s.stillUnsubmitted
    ensures 0.0 <= s.resubmissionRate <= 100.0
    ensures s.totalRejectionsTracked == 0 ==> s.resubmissionRate == 0.0
    ensures s.successfullyResubmitted == s.totalRejectionsTracked > 0 ==> s.resubmissionRate == 100.0
    ensures s.trackingPeriodDays == e.lookbackDays
    ensures s.successfullyResubmitted == |FoundKeys(e.rejections)|
    ensures s.resubmissionRate == Rate(s.successfullyResubmitted, s.totalRejectionsTracked)
  {
    var total := |e.rejections|;
    var resubmitted := CountFound(e.rejections, e.order);
    assert total == |e.order| by {
      DistinctCard(e.order);
      assert e.rejections.Keys == set k | k in e.order;
    }
    OrderFound(e);
    Summary(
      total,
      resubmitted,
      total - resubmitted,
      Rate(resubmitted, total),
      SumAtRisk(e.rejections, e.order),
      e.lookbackDays)
  }

  lemma {:induction false} MarkOne(m: map<string, Rejection>, keys: seq<string>, k: string, date: Option<string>)
    requires forall i | 0 <= i < |keys| :: keys[i] in m
    requires Distinct(keys) && k in m && !m[k].foundIn835
    ensures var m' := m[k := m[k].(foundIn835 := true, resubmissionDate := date)];
      && CountFound(m', keys) == CountFound(m, keys) + (if k in keys then 1 else 0)
      && SumAtRisk(m', keys) == SumAtRisk(m, keys) - (if k in keys then m[k].billedAmount.GetOr(0.0) else 0.0)
    decreases |keys|
  {
    if |keys| > 0 {
      var front := keys[..|keys| - 1];
      MarkOne(m, front, k, date);
      assert k in keys <==> k in front || k == keys[|keys| - 1];
      assert keys[|keys| - 1] == k ==> k !in front;
    }
  }

  /** A payment that matches an unmatched entry moves exactly that entry from
      unsubmitted to resubmitted and takes its billed amount off the revenue at risk. */
  lemma PaymentLowersRisk(e: Engine, rec: ClaimRecord)
    requires Valid(e)
    requires MatchKey(rec).Some? && MatchKey(rec).value in e.rejections
    requires !e.rejections[MatchKey(rec).value].foundIn835
    ensures var before := GetSummary(e);
      var after := GetSummary(AddPayment(e, rec));
      && after.totalRejectionsTracked == before.totalRejectionsTracked
      && after.successfullyResubmitted == before.successfullyResubmitted + 1
      && after.stillUnsubmitted == before.stillUnsubmitted - 1
      && after.potentialRevenueAtRisk
         == before.potentialRevenueAtRisk - e.rejections[MatchKey(rec).value].billedAmount.GetOr(0.0)
  {
    var k := MatchKey(rec).value;
    MarkOne(e.rejections, e.order, k, rec.paymentDate);
    assert AddPayment(e, rec).rejections
      == e.rejections[k := e.rejections[k].(foundIn835 := true, resubmissionDate := rec.paymentDate)];
  }

  // ---------------------------------------------------------------- report

  datatype Report = Report(
    unsubmittedClaims: seq<Alert>,
    summary: Summary,
    alertCount: nat,
    highSeverityCount: nat)

  function CountHigh(alerts: seq<Alert>): (n: nat)
    ensures n <= |alerts|
    decreases |alerts|
  {
    if |alerts| == 0 then 0
    else CountHigh(alerts[..|alerts| - 1]) + (if alerts[|alerts| - 1].severity == High then 1 else 0)
  }

  /** The positions of the HIGH alerts. */
  function HighAt(alerts: seq<Alert>): set<int>
  {
    set i | 0 <= i < |alerts| && alerts[i].severity == High
  }

  lemma HighAtSnoc(alerts: seq<Alert>)
    requires |alerts| > 0
    ensures var n := |alerts| - 1;
      HighAt(alerts) == HighAt(alerts[..n]) + (if alerts[n].severity == High then {n} else {})
  {
    forall i | 0 <= i < |alerts| - 1 ensures alerts[..|alerts| - 1][i] == alerts[i] {
    }
  }

  /** The count is the number of HIGH alerts in the list. */
  lemma {:induction false} CountHighPositions(alerts: seq<Alert>)
    ensures CountHigh(alerts) == |HighAt(alerts)|
    decreases |alerts|
  {
    if |alerts| > 0 {
      var front := alerts[..|alerts| - 1];
      CountHighPositions(front);
      HighAtSnoc(alerts);
      assert |alerts| - 1 !in HighAt(front);
    }
  }

  /** The engine `generate_reconciliation_report` builds: a fresh engine with
      the default look-back, rejections loaded first, then payments. */
  function ReportEngine(rejections: seq<ClaimRecord>, payments: seq<ClaimRecord>): (e: Engine)
    ensures Valid(e) && e.lookbackDays == DefaultLookbackDays
  {
    AddPayments(AddRejections(NewEngine(DefaultLookbackDays), rejections), payments)
  }

  /** `generate_reconciliation_report`: the alerts of the loaded engine with
      their count and the count of HIGH ones among them, and its summary. */
  function GenerateReport(rejections: seq<ClaimRecord>, payments: seq<ClaimRecord>,
                          threshold: int, now: int, parse: DateParser): (r: Report)
    ensures r.alertCount == |r.unsubmittedClaims|
    ensures r.highSeverityCount <= r.alertCount
    ensures r.summary.trackingPeriodDays == DefaultLookbackDays
    ensures r.summary.successfullyResubmitted + r.summary.stillUnsubmitted == r.summary.totalRejectionsTracked
    ensures r.alertCount <= r.summary.totalRejectionsTracked
    ensures r.highSeverityCount == |HighAt(r.unsubmittedClaims)|
    ensures 0 <= r.summary.stillUnsubmitted
    ensures r.summary.resubmissionRate == Rate(r.summary.successfullyResubmitted, r.summary.totalRejectionsTracked)
    ensures r.summary == GetSummary(ReportEngine(rejections, payments))
    ensures SortedByDays(r.unsubmittedClaims) && KeysDistinct(r.unsubmittedClaims)
  {
    var e := ReportEngine(rejections, payments);
    var alerts := FindUnsubmitted(e, threshold, now, parse);
    CountHighPositions(alerts);
    Report(alerts, GetSummary(e), |alerts|, CountHigh(alerts))
  }

  /** With the default threshold every alert of the report is at least 30
      days old, and HIGH exactly when older than 45 days. */
  lemma DefaultReportAges(rejections: seq<ClaimRecord>, payments: seq<ClaimRecord>, now: int, parse: DateParser)
    ensures var r := GenerateReport(rejections, payments, DefaultThreshold, now, parse);
      forall a | a in r.unsubmittedClaims ::
        a.daysSinceRejection >= 30 && (a.severity == High <==> a.daysSinceRejection > 45)
  {
    AlertFields(ReportEngine(rejections, payments), DefaultThreshold, now, parse);
  }

  /** Alerts are only ever raised for tracked rejections. */
  lemma AlertsAreTracked(e: Engine, threshold: int, now: int, parse: DateParser, k: string)
    requires Valid(e)
    ensures HasKey(FindUnsubmitted(e, threshold, now, parse), k) ==> k in e.rejections
  {
    var alerts := FindUnsubmitted(e, threshold, now, parse);
    if HasKey(alerts, k) {
      var i :| 0 <= i < |alerts| && alerts[i].matchKey == k;
      assert alerts[i] in alerts;
    }
  }

  /** End to end: the report alerts on key `k` exactly when some rejection
      record yields `k`, no payment record does, and the last rejection
      record with that key is overdue. */
  lemma ReportAlerts(rejections: seq<ClaimRecord>, payments: seq<ClaimRecord>,
                     threshold: int, now: int, parse: DateParser, k: string)
    ensures HasKey(GenerateReport(rejections, payments, threshold, now, parse).unsubmittedClaims, k) <==>
      && LastKeyed(rejections, k).Some?
      && LastKeyed(payments, k).None?
      && Overdue(RejectionOf(rejections[LastKeyed(rejections, k).value]), threshold, now, parse)
  {
    var e0 := NewEngine(DefaultLookbackDays);
    var e1 := AddRejections(e0, rejections);
    var e := AddPayments(e1, payments);
    LastRejectionWins(e0, rejections, k);
    var alerts := FindUnsubmitted(e, threshold, now, parse);
    if k in e1.rejections {
      PaymentsMark(e1, payments, k);
    } else {
      AlertsAreTracked(e, threshold, now, parse, k);
    }
  }
}

=== FILE: remit835.dfy ===
/** The 835 payment/remittance extractor: it walks the tree the external
    reader produced for each transaction and builds the payment record, the
    claims with their service lines and adjustments, and the payment totals;
    `validate` lists what the record lacks. */
module Remit835 {
  import opened Wrappers
  import opened Json
  import opened Exceptions

  /** One transaction as the external reader hands it over. */
  type Model = map<string, Value>

  /** The external reader: the transaction trees of a document, or None when it raises. */
  type Reader = string -> Option<seq<Model>>

  datatype Address = Address(street: Value, city: Value, state: Value, zip: Value)
  datatype Party = Party(name: Value, identifier: Value, identifierType: Value, address: Address)
  datatype Financial = Financial(
    handlingCode: Value, totalProviderPayment: Value, creditDebitFlag: Value,
    paymentMethod: Value, paymentFormat: Value, checkOrEftNumber: Value, paymentDate: Value)
  datatype Adjustment = Adjustment(groupCode: Value, reasonCode: Value, amount: Value)
  datatype ServiceLine = ServiceLine(
    procedureCode: Value, lineItemCharge: Value, lineItemPayment: Value, units: Value,
    adjustments: seq<Adjustment>)
  datatype ClaimPayment = ClaimPayment(
    claimIdentifier: Value, statusCode: Value, totalCharge: Value, paymentAmount: Value,
    patientResponsibility: Value, payerClaimControlNumber: Value,
    serviceLines: seq<ServiceLine>, adjustments: seq<Adjustment>)
  datatype PaymentSummary = PaymentSummary(
    totalClaims: nat, totalCharged: real, totalPaid: real, controlNumber: Value)
  datatype Transaction = Transaction(
    controlNumber: Value, financial: Financial, payer: Party, payee: Party,
    claims: seq<ClaimPayment>, summary: PaymentSummary, raw: Model)
  datatype Parsed = Parsed(transactionType: string, version: string, transactions: seq<Transaction>)

  const Empty := Str("")
  const Zero := Num(0.0)
  const NoDict := Obj(map[])

  /** The BPR segment of the header, field by field (missing text is "", a missing amount 0). */
  function ExtractFinancial(model: Model): Result<Financial, Fault>
  {
    var header :- AsDict(Field(model, "header", NoDict));
    var bpr :- AsDict(Field(header, "bpr_segment", NoDict));
    Ok(Financial(
      Field(bpr, "transaction_handling_code", Empty),
      Field(bpr, "monetary_amount", Zero),
      Field(bpr, "credit_debit_flag_code", Empty),
      Field(bpr, "payment_method_code", Empty),
      Field(bpr, "payment_format_code", Empty),
      Field(bpr, "originating_company_supplemental_code", Empty),
      Field(bpr, "effective_date", Empty)))
  }

  /** The N3 and N4 segments of a party loop. */
  function ExtractAddress(loop: map<string, Value>): Result<Address, Fault>
  {
    var n3 :- AsDict(Field(loop, "n3_segment", NoDict));
    var n4 :- AsDict(Field(loop, "n4_segment", NoDict));
    Ok(Address(
      Field(n3, "address_information", Empty),
      Field(n4, "city_name", Empty),
      Field(n4, "state_or_province_code", Empty),
      Field(n4, "postal_code", Empty)))
  }

  /** A party (payer loop 1000A, payee loop 1000B): its NM1 segment and address. */
  function ExtractParty(model: Model, loopKey: string): Result<Party, Fault>
  {
    var loop :- AsDict(Field(model, loopKey, NoDict));
    var nm1 :- AsDict(Field(loop, "nm1_segment", NoDict));
    var address :- ExtractAddress(loop);
    Ok(Party(
      Field(nm1, "name_last_or_organization_name", Empty),
      Field(nm1, "identification_code", Empty),
      Field(nm1, "identification_code_qualifier", Empty),
      address))
  }

  /** One CAS entry. */
  function ExtractAdjustment(cas: Value): Result<Adjustment, Fault>
  {
    var fields :- AsDict(cas);
    Ok(Adjustment(
      Field(fields, "claim_adjustment_group_code", Empty),
      Field(fields, "adjustment_reason_code", Empty),
      Field(fields, "monetary_amount", Zero)))
  }

  /** The adjustments of a claim loop or a service loop (the claim-level and
      service-level extractors are the same code): one per CAS entry, in
      order, a single CAS dict counting as a one-element list. */
  function ExtractAdjustments(loop: map<string, Value>): (r: Result<seq<Adjustment>, Fault>)
    ensures var entries := Entries(Field(loop, "cas_segment", Arr([])));
      r.Ok? <==> (entries.Ok? && forall i | 0 <= i < |entries.value| :: ExtractAdjustment(entries.value[i]).Ok?)
    ensures var entries := Entries(Field(loop, "cas_segment", Arr([])));
      r.Ok? ==> (|r.value| == |entries.value|
        && forall i | 0 <= i < |r.value| :: Ok(r.value[i]) == ExtractAdjustment(entries.value[i]))
  {
    var entries :- Entries(Field(loop, "cas_segment", Arr([])));
    Traverse(entries, ExtractAdjustment)
  }

  /** One service loop: the SVC segment and the loop's adjustments. */
  function ExtractServiceLine(loop: Value): Result<ServiceLine, Fault>
  {
    var fields :- AsDict(loop);
    var svc :- AsDict(Field(fields, "svc_segment", NoDict));
    var adjustments :- ExtractAdjustments(fields);
    Ok(ServiceLine(
      SafeGet(Obj(svc), ["composite_medical_procedure", "procedure_code"], Empty),
      Field(svc, "line_item_charge_amount", Zero),
      Field(svc, "line_item_provider_payment_amount", Zero),
      Field(svc, "units_of_service_paid_count", Zero),
      adjustments))
  }

  /** The service lines of a claim loop: one per `loop_2100` entry, in order,
      a single dict counting as a one-element list. */
  function ExtractServiceLines(claimLoop: map<string, Value>): (r: Result<seq<ServiceLine>, Fault>)
    ensures var entries := Entries(Field(claimLoop, "loop_2100", Arr([])));
      r.Ok? <==> (entries.Ok? && forall i | 0 <= i < |entries.value| :: ExtractServiceLine(entries.value[i]).Ok?)
    ensures var entries := Entries(Field(claimLoop, "loop_2100", Arr([])));
      r.Ok? ==> (|r.value| == |entries.value|
        && forall i | 0 <= i < |r.value| :: Ok(r.value[i]) == ExtractServiceLine(entries.value[i]))
  {
    var entries :- Entries(Field(claimLoop, "loop_2100", Arr([])));
    Traverse(entries, ExtractServiceLine)
  }

  /** One claim loop: the CLP segment (missing text is "", missing amounts 0),
      its service lines and its claim-level adjustments. */
  function ExtractClaim(claimLoop: Value): (r: Result<ClaimPayment, Fault>)
    ensures r.Ok? ==> claimLoop.Obj?
    ensures r.Ok? ==> (ExtractServiceLines(claimLoop.fields) == Ok(r.value.serviceLines)
      && ExtractAdjustments(claimLoop.fields) == Ok(r.value.adjustments))
  {
    var fields :- AsDict(claimLoop);
    var clp :- AsDict(Field(fields, "clp_segment", NoDict));
    var lines :- ExtractServiceLines(fields);
    var adjustments :- ExtractAdjustments(fields);
    Ok(ClaimPayment(
      Field(clp, "claim_submitters_identifier", Empty),
      Field(clp, "claim_status_code", Empty),
      Field(clp, "total_claim_charge_amount", Zero),
      Field(clp, "claim_payment_amount", Zero),
      Field(clp, "patient_responsibility_amount", Zero),
      Field(clp, "payer_claim_control_number", Empty),
      lines, adjustments))
  }

  /** The claims of a transaction: one per `loop_2000` entry, in order, a
      single dict counting as a one-element list. */
  function ExtractClaims(model: Model): (r: Result<seq<ClaimPayment>, Fault>)
    ensures var entries := Entries(Field(model, "loop_2000", Arr([])));
      r.Ok? <==> (entries.Ok? && forall i | 0 <= i < |entries.value| :: ExtractClaim(entries.value[i]).Ok?)
    ensures var entries := Entries(Field(model, "loop_2000", Arr([])));
      r.Ok? ==> (|r.value| == |entries.value|
        && forall i | 0 <= i < |r.value| :: Ok(r.value[i]) == ExtractClaim(entries.value[i]))
  {
    var entries :- Entries(Field(model, "loop_2000", Arr([])));
    Traverse(entries, ExtractClaim)
  }

  /** A claim loop whose CLP segment is empty and which has no service or
      adjustment loops yields a claim of defaults: "" texts and 0 amounts. */
  lemma ClaimDefaults()
    ensures ExtractClaim(Obj(map["clp_segment" := NoDict])) ==
      Ok(ClaimPayment(Empty, Empty, Zero, Zero, Zero, Empty, [], []))
  {
  }

  /** In any claim loop, each CLP field the segment lacks reads as its
      default ("" for texts, 0 for amounts), and each field it holds is
      copied as it stands. */
  lemma ClaimFieldDefaults(fields: map<string, Value>, clp: map<string, Value>)
    requires Field(fields, "clp_segment", NoDict) == Obj(clp)
    ensures ExtractClaim(Obj(fields)).Ok? ==>
      var c := ExtractClaim(Obj(fields)).value;
      && c.claimIdentifier == (if "claim_submitters_identifier" in clp then clp["claim_submitters_identifier"] else Empty)
      && c.statusCode == (if "claim_status_code" in clp then clp["claim_status_code"] else Empty)
      && c.totalCharge == (if "total_claim_charge_amount" in clp then clp["total_claim_charge_amount"] else Zero)
      && c.paymentAmount == (if "claim_payment_amount" in clp then clp["claim_payment_amount"] else Zero)
      && c.patientResponsibility == (if "patient_responsibility_amount" in clp then clp["patient_responsibility_amount"] else Zero)
      && c.payerClaimControlNumber == (if "payer_claim_control_number" in clp then clp["payer_claim_control_number"] else Empty)
  {
  }

  /** A single claim dict and a one-element list holding it give the same claims. */
  lemma ClaimsDictAsList(model: Model, claim: map<string, Value>)
    ensures ExtractClaims(model["loop_2000" := Obj(claim)]) == ExtractClaims(model["loop_2000" := Arr([Obj(claim)])])
  {
  }

  /** The claims' amounts are all numbers (a bool counts as one). */
  predicate Numeric(claims: seq<ClaimPayment>)
  {
    forall i | 0 <= i < |claims| :: Amount(claims[i].totalCharge).Ok? && Amount(claims[i].paymentAmount).Ok?
  }

  /** Sum of the claims' total charges. */
  function SumCharged(claims: seq<ClaimPayment>): real
    requires Numeric(claims)
  {
    if |claims| == 0 then 0.0 else Amount(claims[0].totalCharge).value + SumCharged(claims[1..])
  }

  /** Sum of the claims' payment amounts. */
  function SumPaid(claims: seq<ClaimPayment>): real
    requires Numeric(claims)
  {
    if |claims| == 0 then 0.0 else Amount(claims[0].paymentAmount).value + SumPaid(claims[1..])
  }

  /** The accumulating loop of `_extract_payment_summary`: count the claims and
      add up the charges and the payments; adding something that is not a
      number fails. */
  function Totals(claims: seq<ClaimPayment>, count: nat, charged: real, paid: real): (r: Result<(nat, real, real), Fault>)
    ensures r.Ok? <==> Numeric(claims)
    ensures r.Ok? ==> r.value == (count + |claims|, charged + SumCharged(claims), paid + SumPaid(claims))
  {
    if |claims| == 0 then Ok((count, charged, paid))
    else
      match Amount(claims[0].totalCharge)
      case Err(e) => Err(e)
      case Ok(c) =>
        match Amount(claims[0].paymentAmount)
        case Err(e) => Err(e)
        case Ok(p) =>
          assert forall i | 1 <= i < |claims| :: claims[i] == claims[1..][i - 1];
          Totals(claims[1..], count + 1, charged + c, paid + p)
  }

  /** The payment summary: the claims are extracted again and totalled; the
      control number comes from the SE segment of the footer. */
  function ExtractSummary(model: Model): (r: Result<PaymentSummary, Fault>)
    ensures r.Ok? ==> ExtractClaims(model).Ok? && Numeric(ExtractClaims(model).value)
    ensures r.Ok? ==>
      var claims := ExtractClaims(model).value;
      r.value.totalClaims == |claims| && r.value.totalCharged == SumCharged(claims)
      && r.value.totalPaid == SumPaid(claims)
  {
    var claims :- ExtractClaims(model);
    var footer := Field(model, "footer", NoDict);
    var totals :- Totals(claims, 0, 0.0, 0.0);
    Ok(PaymentSummary(totals.0, totals.1, totals.2,
      SafeGet(footer, ["se_segment", "transaction_set_control_number"], Empty)))
  }

  /** The ST control number in the transaction's header, "" when missing. */
  function ControlNumber(model: Model): Value
  {
    SafeGet(Field(model, "header", NoDict), ["st_segment", "transaction_set_control_number"], Empty)
  }

  /** One transaction record. */
  function ExtractTransaction(model: Model): (r: Result<Transaction, Fault>)
    ensures r.Ok? ==> ExtractClaims(model).Ok? && r.value.claims == ExtractClaims(model).value
    ensures r.Ok? ==> (Numeric(r.value.claims) && r.value.summary.totalClaims == |r.value.claims|
      && r.value.summary.totalCharged == SumCharged(r.value.claims)
      && r.value.summary.totalPaid == SumPaid(r.value.claims))
    ensures r.Ok? ==> r.value.raw == model
  {
    var control := ControlNumber(model);
    var financial :- ExtractFinancial(model);
    var payer :- ExtractParty(model, "loop_1000a");
    var payee :- ExtractParty(model, "loop_1000b");
    var claims :- ExtractClaims(model);
    var summary :- ExtractSummary(model);
    Ok(Transaction(control, financial, payer, payee, claims, summary, model))
  }

  /** `parse`: an empty model list, a failing reader and any failure while
      walking a tree all end as X12ParseError; otherwise one transaction per
      model under the fixed type and version. */
  function Parse(content: string, read: Reader): (r: Result<Parsed, Cls>)
    ensures r.Err? ==> r.error == X12ParseError
    ensures r.Ok? ==> read(content).Some? && |r.value.transactions| == |read(content).value| > 0
    ensures r.Ok? ==> r.value.transactionType == "835" && r.value.version == "005010X221A1"
  {
    match read(content)
    case None => Err(X12ParseError)
    case Some(models) =>
      if |models| == 0 then Err(X12ParseError)
      else
        match Traverse(models, ExtractTransaction)
        case Err(_) => Err(X12ParseError)
        case Ok(txs) => Ok(Parsed("835", "005010X221A1", txs))
  }

  /** `parse` succeeds exactly when the reader does and every tree it hands
      over can be walked; the transactions are then the walked trees, in order. */
  lemma ParseWalksEveryModel(content: string, read: Reader)
    ensures Parse(content, read).Ok? <==> (read(content).Some? && |read(content).value| > 0
      && forall i | 0 <= i < |read(content).value| :: ExtractTransaction(read(content).value[i]).Ok?)
    ensures Parse(content, read).Ok? ==>
      forall i | 0 <= i < |read(content).value| ::
        Ok(Parse(content, read).value.transactions[i]) == ExtractTransaction(read(content).value[i])
  {
  }

  /** The problems `validate` reports; transactions are numbered from 0. */
  datatype Issue =
    | WrongType
    | NoTransactions
    | MissingControlNumber(index: nat)
    | MissingPaymentAmount(index: nat)
    | MissingPayer(index: nat)
    | MissingPayee(index: nat)
  {
    predicate PerTransaction()
    {
      !WrongType? && !NoTransactions?
    }
  }

  /** The transaction shows the kind of problem `issue` names: the field the
      check reads is falsy. */
  predicate Lacks(t: Transaction, issue: Issue)
  {
    match issue
    case MissingControlNumber(_) => !Truthy(t.controlNumber)
    case MissingPaymentAmount(_) => !Truthy(t.financial.totalProviderPayment)
    case MissingPayer(_) => !Truthy(t.payer.name)
    case MissingPayee(_) => !Truthy(t.payee.name)
    case _ => false
  }

  /** The checks of one transaction, numbered `index`. */
  function IssuesOf(t: Transaction, index: nat): (r: seq<Issue>)
    ensures |r| <= 4
    ensures forall x :: x in r <==> x.PerTransaction() && x.index == index && Lacks(t, x)
  {
    (if Truthy(t.controlNumber) then [] else [MissingControlNumber(index)])
    + (if Truthy(t.financial.totalProviderPayment) then [] else [MissingPaymentAmount(index)])
    + (if Truthy(t.payer.name) then [] else [MissingPayer(index)])
    + (if Truthy(t.payee.name) then [] else [MissingPayee(index)])
  }

  /** The per-transaction checks for transactions numbered from `from` on. */
  function TransactionIssues(txs: seq<Transaction>, from: nat): (r: seq<Issue>)
    ensures |r| <= 4 * |txs|
    ensures forall x :: x in r <==>
      x.PerTransaction() && from <= x.index < from + |txs| && Lacks(txs[x.index - from], x)
    decreases |txs|
  {
    if |txs| == 0 then []
    else
      var rest := TransactionIssues(txs[1..], from + 1);
      assert forall x | x in rest :: txs[x.index - from] == txs[1..][x.index - (from + 1)];
      IssuesOf(txs[0], from) + rest
  }

  /** Numbered from 0, the index of an issue is its transaction's position. */
  lemma IssuesFromZero(txs: seq<Transaction>)
    ensures forall x: Issue | x.PerTransaction() :: x in TransactionIssues(txs, 0) <==>
      x.index < |txs| && Lacks(txs[x.index], x)
  {
    forall x: Issue | x.PerTransaction()
      ensures x in TransactionIssues(txs, 0) <==> x.index < |txs| && Lacks(txs[x.index], x)
    {
      var i := x.index;
      assert i - 0 == i;
    }
  }

  /** `validate`: a wrong type, an empty transaction list, and per transaction
      a falsy control number, provider payment (0 counts as missing), payer
      name or payee name. */
  function Validate(p: Parsed): (r: seq<Issue>)
    ensures WrongType in r <==> p.transactionType != "835"
    ensures NoTransactions in r <==> |p.transactions| == 0
    ensures forall x: Issue | x.PerTransaction() :: x in r <==>
      x.index < |p.transactions| && Lacks(p.transactions[x.index], x)
    ensures |r| <= 2 + 4 * |p.transactions|
  {
    var head := (if p.transactionType != "835" then [WrongType] else [])
      + (if |p.transactions| == 0 then [NoTransactions] else []);
    var tail := TransactionIssues(p.transactions, 0);
    assert forall x | x in head :: !x.PerTransaction();
    assert forall x: Issue | x.PerTransaction() :: x in head + tail <==> x in tail;
    IssuesFromZero(p.transactions);
    head + tail
  }

  /** A provider payment of zero is reported as missing. */
  lemma ZeroPaymentMissing(p: Parsed, i: nat)
    requires i < |p.transactions|
    requires p.transactions[i].financial.totalProviderPayment == Zero
    ensures MissingPaymentAmount(i) in Validate(p)
  {
  }
}

=== FILE: segments.dfy ===
/** The hand-written segment tokenizer of the 277CA parser: newlines are
    removed, the text is cut at `~`, each piece is stripped, blank pieces are
    skipped and every other piece is cut at `*` into an identifier and its
    elements. The delimiters are fixed; nothing is read from the ISA header. */
module Segments {
  import opened Text

  /** A segment: its identifier (the first `*`-field) and the elements after it. */
  datatype Segment = Segment(id: string, elements: seq<string>)

  /** The text of a segment: identifier and elements joined by `*`. */
  function Render(seg: Segment): string
  {
    Join([seg.id] + seg.elements, '*')
  }

  /** No field of the segment contains the given delimiter. */
  predicate FieldsFree(seg: Segment, c: char)
  {
    c !in seg.id && forall i | 0 <= i < |seg.elements| :: c !in seg.elements[i]
  }

  /** The segments the tokenizer can produce: delimiter-free fields whose text
      is non-blank and carries no white space at either end. */
  predicate WellFormed(seg: Segment)
  {
    && FieldsFree(seg, '*') && FieldsFree(seg, '~') && FieldsFree(seg, '\n')
    && var t := Render(seg);
       t != [] && !IsSpace(t[0]) && !IsSpace(t[|t| - 1])
  }

  /** One stripped piece cut at `*`; rendering the segment gives the piece back. */
  function SegmentOf(piece: string): (seg: Segment)
    ensures Render(seg) == piece
    ensures FieldsFree(seg, '*')
  {
    var fields := Split(piece, '*');
    assert [fields[0]] + fields[1..] == fields;
    Segment(fields[0], fields[1..])
  }

  /** A character absent from a text is absent from every field cut from it. */
  lemma SegmentOfFree(piece: string, c: char)
    requires c !in piece
    ensures FieldsFree(SegmentOf(piece), c)
  {
    var seg := SegmentOf(piece);
    JoinContains([seg.id] + seg.elements, '*', c);
  }

  lemma {:induction false} JoinContains(parts: seq<string>, sep: char, c: char)
    requires c !in Join(parts, sep)
    ensures forall i | 0 <= i < |parts| :: c !in parts[i]
    decreases |parts|
  {
    if |parts| > 1 {
      JoinContains(parts[1..], sep, c);
      forall i | 1 <= i < |parts|
        ensures c !in parts[i]
      {
        assert parts[i] == parts[1..][i - 1];
      }
    }
  }

  /** Pieces as they come out of the `~` split of newline-free text. */
  predicate Clean(pieces: seq<string>)
  {
    forall j | 0 <= j < |pieces| :: '~' !in pieces[j] && '\n' !in pieces[j]
  }

  /** The segment of one `~`-piece: none when it strips to nothing. */
  function LineSegments(piece: string): (segs: seq<Segment>)
    requires '~' !in piece && '\n' !in piece
    ensures |segs| <= 1
    ensures forall i | 0 <= i < |segs| :: WellFormed(segs[i])
  {
    var line := Strip(piece);
    if line == [] then [] else LineWellFormed(piece); [SegmentOf(line)]
  }

  /** Tokenize `~`-pieces in order: strip each, skip blank ones. */
  function TokenizePieces(pieces: seq<string>): (segs: seq<Segment>)
    requires Clean(pieces)
    ensures |segs| <= |pieces|
    ensures forall i | 0 <= i < |segs| :: WellFormed(segs[i])
  {
    if |pieces| == 0 then []
    else LineSegments(pieces[0]) + TokenizePieces(pieces[1..])
  }

  /** A non-blank piece free of `~` and newlines gives a well-formed segment. */
  lemma LineWellFormed(piece: string)
    requires '~' !in piece && '\n' !in piece
    requires Strip(piece) != []
    ensures WellFormed(SegmentOf(Strip(piece)))
  {
    var line := Strip(piece);
    StripChars(piece, '~');
    StripChars(piece, '\n');
    StripBlank(piece);
    SegmentOfFree(line, '~');
    SegmentOfFree(line, '\n');
  }

  /** The segments of a 277CA document, in source order. */
  function Tokenize(content: string): (segs: seq<Segment>)
    ensures forall i | 0 <= i < |segs| :: WellFormed(segs[i])
  {
    var pieces := Split(RemoveChar(content, '\n'), '~');
    assert forall j | 0 <= j < |pieces| :: '\n' !in pieces[j] by {
      JoinContains(pieces, '~', '\n');
    }
    TokenizePieces(pieces)
  }

  /** The document text of a segment list: rendered segments joined by `~`. */
  function Serialize(segs: seq<Segment>): string
  {
    Join(RenderAll(segs), '~')
  }

  function RenderAll(segs: seq<Segment>): (r: seq<string>)
    ensures |r| == |segs|
    ensures forall i | 0 <= i < |segs| :: r[i] == Render(segs[i])
  {
    if |segs| == 0 then [] else [Render(segs[0])] + RenderAll(segs[1..])
  }

  lemma {:induction false} TokenizePiecesConcat(p: seq<string>, q: seq<string>)
    requires Clean(p) && Clean(q)
    ensures TokenizePieces(p + q) == TokenizePieces(p) + TokenizePieces(q)
    decreases |p|
  {
    if |p| == 0 {
      assert p + q == q;
    } else {
      var pq := p + q;
      assert pq[0] == p[0];
      assert pq[1..] == p[1..] + q;
      assert Clean(p[1..]) && Clean(pq);
      TokenizePiecesConcat(p[1..], q);
    }
  }

  /** Segments come out in source order: the segments of `a~b` are those of
      `a` followed by those of `b`. */
  lemma TokenizeConcat(a: string, b: string)
    ensures Tokenize(a + "~" + b) == Tokenize(a) + Tokenize(b)
  {
    var a' := RemoveChar(a, '\n');
    var b' := RemoveChar(b, '\n');
    RemoveCharConcat(a + "~", b, '\n');
    RemoveCharConcat(a, "~", '\n');
    assert RemoveChar("~", '\n') == "~";
    assert RemoveChar(a + "~" + b, '\n') == a' + ['~'] + b';
    SplitConcat(a', '~', b');
    var p := Split(a', '~');
    var q := Split(b', '~');
    JoinContains(p, '~', '\n');
    JoinContains(q, '~', '\n');
    TokenizePiecesConcat(p, q);
  }

  /** A piece of nothing but white space yields no segment. */
  lemma TokenizeBlank(a: string)
    requires '~' !in a
    requires AllSpace(a)
    ensures Tokenize(a) == []
  {
    var a' := RemoveChar(a, '\n');
    assert AllSpace(a') by {
      forall k | 0 <= k < |a'|
        ensures IsSpace(a'[k])
      {
        assert a'[k] in a;
      }
    }
    assert Split(a', '~') == [a'];
    StripBlank(a');
  }

  lemma RenderAllClean(segs: seq<Segment>)
    requires forall i | 0 <= i < |segs| :: WellFormed(segs[i])
    ensures Clean(RenderAll(segs))
  {
    forall j | 0 <= j < |segs|
      ensures '~' !in RenderAll(segs)[j] && '\n' !in RenderAll(segs)[j]
    {
      RenderFree(segs[j], '~');
      RenderFree(segs[j], '\n');
    }
  }

  /** The line of a well-formed segment yields exactly that segment. */
  lemma LineSegmentsRender(seg: Segment)
    requires WellFormed(seg)
    ensures '~' !in Render(seg) && '\n' !in Render(seg)
    ensures LineSegments(Render(seg)) == [seg]
  {
    RenderFree(seg, '~');
    RenderFree(seg, '\n');
    StripFixed(Render(seg));
    RenderSegmentOf(seg);
  }

  lemma {:induction false} TokenizePiecesRendered(segs: seq<Segment>)
    requires forall i | 0 <= i < |segs| :: WellFormed(segs[i])
    ensures Clean(RenderAll(segs))
    ensures TokenizePieces(RenderAll(segs)) == segs
    decreases |segs|
  {
    RenderAllClean(segs);
    if |segs| > 0 {
      var texts := RenderAll(segs);
      LineSegmentsRender(segs[0]);
      assert texts[1..] == RenderAll(segs[1..]);
      TokenizePiecesRendered(segs[1..]);
      assert TokenizePieces(texts) == LineSegments(texts[0]) + TokenizePieces(texts[1..]);
      assert [segs[0]] + segs[1..] == segs;
    }
  }

  lemma RenderFree(seg: Segment, c: char)
    requires c != '*'
    requires FieldsFree(seg, c)
    ensures c !in Render(seg)
  {
    JoinFree([seg.id] + seg.elements, '*', c);
  }

  lemma {:induction false} JoinFree(parts: seq<string>, sep: char, c: char)
    requires c != sep
    requires forall i | 0 <= i < |parts| :: c !in parts[i]
    ensures c !in Join(parts, sep)
    decreases |parts|
  {
    if |parts| > 1 {
      JoinFree(parts[1..], sep, c);
    }
  }

  /** Cutting the text of a well-formed segment at `*` gives the segment back. */
  lemma RenderSegmentOf(seg: Segment)
    requires FieldsFree(seg, '*')
    ensures SegmentOf(Render(seg)) == seg
  {
    var parts := [seg.id] + seg.elements;
    SplitJoin(parts, '*');
    assert parts[1..] == seg.elements;
  }

  /** Round trip: tokenizing the serialized form of well-formed segments
      recovers exactly those segments, in order. */
  lemma TokenizeSerialize(segs: seq<Segment>)
    requires forall i | 0 <= i < |segs| :: WellFormed(segs[i])
    ensures Tokenize(Serialize(segs)) == segs
  {
    var texts := RenderAll(segs);
    TokenizePiecesRendered(segs);
    JoinFree(texts, '~', '\n');
    if |segs| == 0 {
      assert Serialize(segs) == "";
      assert Split("", '~') == [""];
      StripBlank("");
    } else {
      SplitJoin(texts, '~');
    }
  }
}

=== FILE: st_header.dfy ===
/** The ST-segment scans that name a document's transaction set: the base
    parser's `get_transaction_info` and the handler's auto-detection. Both cut
    the text at `~`, look at the pieces whose stripped text starts with "ST"
    (a test that an STC segment passes too), cut the piece at `*` without
    stripping it, and take the first piece with enough fields. */
module StHeader {
  import opened Wrappers
  import opened Text

  /** A piece the scans consider: its stripped text starts with "ST" and it has
      at least `minFields` `*`-fields. */
  predicate Qualifies(piece: string, minFields: nat)
  {
    "ST" <= Strip(piece) && |Split(piece, '*')| >= minFields
  }

  /** The position of the first `true`, if any. */
  function FirstIndex(flags: seq<bool>): (r: Option<nat>)
    ensures r.Some? ==> r.value < |flags| && flags[r.value]
    ensures r.Some? ==> forall j | 0 <= j < r.value :: !flags[j]
    ensures r.None? <==> forall j | 0 <= j < |flags| :: !flags[j]
  {
    if |flags| == 0 then None
    else if flags[0] then Some(0)
    else Shift(FirstIndex(flags[1..]))
  }

  /** A position one further on. */
  function Shift(o: Option<nat>): Option<nat>
  {
    match o
    case None => None
    case Some(k) => Some(k + 1)
  }

  /** Which pieces qualify. */
  function Flags(pieces: seq<string>, minFields: nat): (r: seq<bool>)
    ensures |r| == |pieces|
    ensures forall i | 0 <= i < |pieces| :: r[i] == Qualifies(pieces[i], minFields)
  {
    seq(|pieces|, i requires 0 <= i < |pieces| => Qualifies(pieces[i], minFields))
  }

  /** The position of a qualifying piece, if any: the first one, as
      `FirstHeaderIsFirst` states. */
  function FirstHeader(pieces: seq<string>, minFields: nat): (r: Option<nat>)
    ensures r.Some? ==> r.value < |pieces| && Qualifies(pieces[r.value], minFields)
  {
    var flags := Flags(pieces, minFields);
    FirstIndex(flags)
  }

  /** The scan stops at the first qualifying piece, and finds none exactly
      when no piece qualifies. */
  lemma FirstHeaderIsFirst(pieces: seq<string>, minFields: nat)
    ensures var r := FirstHeader(pieces, minFields);
      r.Some? ==> forall j | 0 <= j < r.value :: !Qualifies(pieces[j], minFields)
    ensures FirstHeader(pieces, minFields).None? <==> forall j | 0 <= j < |pieces| :: !Qualifies(pieces[j], minFields)
  {
    var flags := Flags(pieces, minFields);
    assert forall j | 0 <= j < |pieces| :: flags[j] == Qualifies(pieces[j], minFields);
  }

  datatype TransactionInfo = TransactionInfo(transactionCode: string, version: string)

  const Unknown := "unknown"

  /** `get_transaction_info`: the first ST piece with at least three fields
      decides; the code is its second field and the version its fourth, when
      there is one. Without such a piece both are "unknown". */
  function GetTransactionInfo(content: string): (r: TransactionInfo)
    ensures var pieces := Split(content, '~');
      FirstHeader(pieces, 3).None? ==> r == TransactionInfo(Unknown, Unknown)
    ensures var pieces := Split(content, '~');
      FirstHeader(pieces, 3).Some? ==>
        var fields := Split(pieces[FirstHeader(pieces, 3).value], '*');
        r.transactionCode == fields[1] && r.version == (if |fields| > 3 then fields[3] else Unknown)
  {
    InfoOf(Split(content, '~'))
  }

  /** The code and version an ST piece with at least three fields gives. */
  function PieceInfo(piece: string): TransactionInfo
    requires Qualifies(piece, 3)
  {
    var fields := Split(piece, '*');
    TransactionInfo(fields[1], if |fields| > 3 then fields[3] else Unknown)
  }

  function InfoOf(pieces: seq<string>): TransactionInfo
  {
    match FirstHeader(pieces, 3)
    case None => TransactionInfo(Unknown, Unknown)
    case Some(i) => PieceInfo(pieces[i])
  }

  /** `_detect_transaction_type`: the second field of the first ST piece with
      at least two fields, else "unknown". */
  function DetectTransactionType(content: string): (r: string)
    ensures var pieces := Split(content, '~');
      FirstHeader(pieces, 2).None? ==> r == Unknown
    ensures var pieces := Split(content, '~');
      FirstHeader(pieces, 2).Some? ==> r == Split(pieces[FirstHeader(pieces, 2).value], '*')[1]
  {
    var pieces := Split(content, '~');
    match FirstHeader(pieces, 2)
    case None => Unknown
    case Some(i) => Split(pieces[i], '*')[1]
  }

  /** No ST piece has exactly two fields. */
  predicate NoTwoFieldHeader(pieces: seq<string>)
  {
    forall j | 0 <= j < |pieces| :: "ST" <= Strip(pieces[j]) ==> |Split(pieces[j], '*')| != 2
  }

  lemma FirstHeaderAgree(pieces: seq<string>)
    requires NoTwoFieldHeader(pieces)
    ensures FirstHeader(pieces, 2) == FirstHeader(pieces, 3)
  {
    assert Flags(pieces, 2) == Flags(pieces, 3);
  }

  /** The two scans agree on the transaction code unless the document holds an
      ST piece with exactly two fields, which only detection accepts. */
  lemma DetectAgreesWithInfo(content: string)
    requires NoTwoFieldHeader(Split(content, '~'))
    ensures DetectTransactionType(content) == GetTransactionInfo(content).transactionCode
  {
    FirstHeaderAgree(Split(content, '~'));
  }

  /** The pieces of `a~b` when `a` holds no `~`. */
  lemma SplitFront(a: string, b: string)
    requires '~' !in a
    ensures Split(a + "~" + b, '~') == [a] + Split(b, '~')
  {
    SplitConcat(a, '~', b);
    assert Split(a, '~') == [a];
  }

  lemma FirstHeaderCons(a: string, pieces: seq<string>, minFields: nat)
    requires !Qualifies(a, minFields)
    ensures FirstHeader([a] + pieces, minFields) == Shift(FirstHeader(pieces, minFields))
  {
    FlagsCons(a, pieces, minFields);
    FirstIndexCons(Flags([a] + pieces, minFields));
  }

  lemma FlagsCons(a: string, pieces: seq<string>, minFields: nat)
    ensures Flags([a] + pieces, minFields) == [Qualifies(a, minFields)] + Flags(pieces, minFields)
  {
    var all := [a] + pieces;
    var l, r := Flags(all, minFields), [Qualifies(a, minFields)] + Flags(pieces, minFields);
    forall i | 0 <= i < |all|
      ensures l[i] == r[i]
    {
      if i > 0 {
        assert all[i] == pieces[i - 1];
      }
    }
  }

  lemma FirstIndexCons(flags: seq<bool>)
    requires |flags| > 0 && !flags[0]
    ensures FirstIndex(flags) == Shift(FirstIndex(flags[1..]))
  {
  }

  /** A leading piece that does not qualify is skipped, not fatal: the scan
      continues with the rest of the document. */
  lemma SkipPiece(a: string, b: string, minFields: nat)
    requires '~' !in a
    requires !Qualifies(a, minFields)
    ensures FirstHeader(Split(a + "~" + b, '~'), minFields) ==
      Shift(FirstHeader(Split(b, '~'), minFields))
  {
    SplitFront(a, b);
    FirstHeaderCons(a, Split(b, '~'), minFields);
  }

  /** A short ST piece before the header does not stop the header from being found. */
  lemma SkipShortHeader(a: string, b: string)
    requires '~' !in a && "ST" <= Strip(a) && |Split(a, '*')| < 3
    ensures GetTransactionInfo(a + "~" + b) == GetTransactionInfo(b)
  {
    SplitFront(a, b);
    assert !Qualifies(a, 3);
    InfoCons(a, Split(b, '~'));
  }

  lemma InfoCons(a: string, rest: seq<string>)
    requires !Qualifies(a, 3)
    ensures InfoOf([a] + rest) == InfoOf(rest)
  {
    var all := [a] + rest;
    var o := FirstHeader(rest, 3);
    FirstHeaderCons(a, rest, 3);
    assert FirstHeader(all, 3) == Shift(o);
    if o.Some? {
      var k := o.value;
      assert Shift(o) == Some(k + 1);
      assert all[k + 1] == rest[k];
    }
  }

  /** Two separator-free pieces joined by the separator split back apart. */
  lemma SplitTwo(a: string, b: string, sep: char)
    requires sep !in a && sep !in b
    ensures Split(a + [sep] + b, sep) == [a, b]
  {
    SplitConcat(a, sep, b);
  }

  lemma StcPieceFields()
    ensures Split("STC*A1:20", '*') == ["STC", "A1:20"]
  {
    var a, b := "STC", "A1:20";
    assert a + ['*'] + b == "STC*A1:20";
    SplitTwo(a, b, '*');
  }

  lemma StcPieceStripped()
    ensures Strip("STC*A1:20") == "STC*A1:20"
  {
    var a := "STC*A1:20";
    assert a[0] == 'S' && a[|a| - 1] == '0';
    StripFixed(a);
  }

  /** The prefix test lets an STC segment through: a status segment ahead of
      the header is taken for it. */
  lemma StcTakenForHeader()
    ensures DetectTransactionType("STC*A1:20~ST*277") == "A1:20"
  {
    var a := "STC*A1:20";
    assert a + "~" + "ST*277" == "STC*A1:20~ST*277";
    SplitFront(a, "ST*277");
    StcPieceFields();
    StcPieceStripped();
    assert Qualifies(a, 2);
    assert Split("STC*A1:20~ST*277", '~')[0] == a;
  }
}

=== FILE: status277.dfy ===
/** The 277 claim-status extractor: it walks the tree the external reader
    produced for each transaction and builds the information source and
    receiver, the service providers with their claims and status codes;
    `validate` lists what the record lacks. */
module Status277 {
  import opened Wrappers
  import opened Json
  import opened Exceptions

  /** One transaction as the external reader hands it over. */
  type Model = map<string, Value>

  /** The external reader: the transaction trees of a document, or None when it raises. */
  type Reader = string -> Option<seq<Model>>

  datatype Entity = Entity(name: Value, identifier: Value, identifierType: Value)
  datatype StatusCode = StatusCode(category: Value, code: Value, effectiveDate: Value)
  datatype StatusClaim = StatusClaim(identifier: Value, statusCodes: seq<StatusCode>)
  datatype Provider = Provider(name: Value, identifier: Value, claims: seq<StatusClaim>)
  datatype Transaction = Transaction(
    controlNumber: Value, source: Entity, receiver: Entity, providers: seq<Provider>,
    claimStatus: seq<StatusCode>, raw: Model)
  datatype Parsed = Parsed(transactionType: string, version: string, transactions: seq<Transaction>)

  const Empty := Str("")
  const NoDict := Obj(map[])

  /** The NM1 segment under an inner loop that may be a dict or a list whose
      first element is used; anything else has no NM1 segment. */
  function Nm1Of(inner: Value): Value
  {
    var loop := First(inner);
    if loop.Obj? then Field(loop.fields, "nm1_segment", NoDict) else NoDict
  }

  /** Name, identifier and qualifier of an NM1 segment ("" when missing). */
  function EntityOf(nm1: Value): (r: Result<Entity, Fault>)
    ensures r.Ok? <==> nm1.Obj?
    ensures nm1 == NoDict ==> r == Ok(Entity(Empty, Empty, Empty))
  {
    var fields :- AsDict(nm1);
    Ok(Entity(
      Field(fields, "name_last_or_organization_name", Empty),
      Field(fields, "identification_code", Empty),
      Field(fields, "identification_code_qualifier", Empty)))
  }

  /** The information source (loops 2000A/2100A) or receiver (2000B/2100B):
      at both levels a non-empty list stands for its first element, and a
      level that is not a dict leaves the three fields empty. */
  function ExtractEntity(model: Model, outerKey: string, innerKey: string): (r: Result<Entity, Fault>)
    ensures !First(Field(model, outerKey, Arr([]))).Obj? ==> r == Ok(Entity(Empty, Empty, Empty))
  {
    var outer := First(Field(model, outerKey, Arr([])));
    var nm1 := if outer.Obj? then Nm1Of(Field(outer.fields, innerKey, NoDict)) else NoDict;
    EntityOf(nm1)
  }

  function ExtractSource(model: Model): Result<Entity, Fault>
  {
    ExtractEntity(model, "loop_2000a", "loop_2100a")
  }

  function ExtractReceiver(model: Model): Result<Entity, Fault>
  {
    ExtractEntity(model, "loop_2000b", "loop_2100b")
  }

  /** A list of loops contributes only its first element (one level deep):
      the source of a model whose `loop_2000a` is `[x] + rest` is the source
      of `x`, and the same holds one level down for `loop_2100a`. */
  lemma SourceFirstElement(model: Model, x: Value, rest: seq<Value>, inner: map<string, Value>, y: Value, more: seq<Value>)
    requires !x.Arr? && !y.Arr?
    ensures ExtractSource(model["loop_2000a" := Arr([x] + rest)]) == ExtractSource(model["loop_2000a" := x])
    ensures ExtractSource(model["loop_2000a" := Obj(inner["loop_2100a" := Arr([y] + more)])])
         == ExtractSource(model["loop_2000a" := Obj(inner["loop_2100a" := y])])
  {
  }

  /** An absent or empty source loop, or one that is not a dict, yields three empty strings. */
  lemma SourceFallback(model: Model)
    requires "loop_2000a" !in model || model["loop_2000a"] == Arr([]) || model["loop_2000a"].Str?
    ensures ExtractSource(model) == Ok(Entity(Empty, Empty, Empty))
  {
  }

  /** One STC entry. */
  function ExtractStatusCode(stc: Value): Result<StatusCode, Fault>
  {
    var fields :- AsDict(stc);
    Ok(StatusCode(
      Field(fields, "health_care_claim_status_category_code", Empty),
      Field(fields, "status_code", Empty),
      Field(fields, "status_effective_date", Empty)))
  }

  /** The trace number the claim identifier is read from: under the claim's
      own nested `loop_2200c` key, in its TRN segment ("" when absent). */
  function TraceOf(claim: map<string, Value>): Result<Value, Fault>
  {
    var nested :- AsDict(Field(claim, "loop_2200c", NoDict));
    var trn :- AsDict(Field(nested, "trn_segment", NoDict));
    Ok(Field(trn, "trace_number", Empty))
  }

  /** One claim entry: its identifier and one status code per STC entry, in
      order, a single STC dict counting as a one-element list. */
  function ExtractClaim(claim: Value): (r: Result<StatusClaim, Fault>)
    ensures r.Ok? ==> claim.Obj?
    ensures r.Ok? ==> TraceOf(claim.fields) == Ok(r.value.identifier)
    ensures r.Ok? ==> (
      var stcs := Entries(Field(claim.fields, "stc_segment", Arr([])));
      stcs.Ok? && |r.value.statusCodes| == |stcs.value|
      && forall i | 0 <= i < |stcs.value| :: Ok(r.value.statusCodes[i]) == ExtractStatusCode(stcs.value[i]))
  {
    var fields :- AsDict(claim);
    var identifier :- TraceOf(fields);
    var stcs :- Entries(Field(fields, "stc_segment", Arr([])));
    var codes :- Traverse(stcs, ExtractStatusCode);
    Ok(StatusClaim(identifier, codes))
  }

  /** A claim without the nested loop holding its TRN segment gets the identifier "". */
  lemma ClaimWithoutTrace(claim: Value)
    requires claim.Obj? && "loop_2200c" !in claim.fields
    requires ExtractClaim(claim).Ok?
    ensures ExtractClaim(claim).value.identifier == Empty
  {
  }

  /** The claims of a provider loop: one per `loop_2200c` entry, in order. */
  function ExtractClaims(provider: map<string, Value>): (r: Result<seq<StatusClaim>, Fault>)
    ensures var entries := Entries(Field(provider, "loop_2200c", Arr([])));
      r.Ok? <==> (entries.Ok? && forall i | 0 <= i < |entries.value| :: ExtractClaim(entries.value[i]).Ok?)
    ensures var entries := Entries(Field(provider, "loop_2200c", Arr([])));
      r.Ok? ==> (|r.value| == |entries.value|
        && forall i | 0 <= i < |r.value| :: Ok(r.value[i]) == ExtractClaim(entries.value[i]))
  {
    var entries :- Entries(Field(provider, "loop_2200c", Arr([])));
    Traverse(entries, ExtractClaim)
  }

  /** One service provider entry: its NM1 name and identifier (loop 2100C,
      first element of a list) and the claims of its own loop. */
  function ExtractProvider(provider: Value): (r: Result<Provider, Fault>)
    ensures r.Ok? ==> provider.Obj?
    ensures r.Ok? ==> ExtractClaims(provider.fields) == Ok(r.value.claims)
  {
    var fields :- AsDict(provider);
    var nm1 :- AsDict(Nm1Of(Field(fields, "loop_2100c", NoDict)));
    var claims :- ExtractClaims(fields);
    Ok(Provider(
      Field(nm1, "name_last_or_organization_name", Empty),
      Field(nm1, "identification_code", Empty),
      claims))
  }

  /** The service providers: one per `loop_2000c` entry, in order, a single
      dict counting as a one-element list. */
  function ExtractProviders(model: Model): (r: Result<seq<Provider>, Fault>)
    ensures var entries := Entries(Field(model, "loop_2000c", Arr([])));
      r.Ok? <==> (entries.Ok? && forall i | 0 <= i < |entries.value| :: ExtractProvider(entries.value[i]).Ok?)
    ensures var entries := Entries(Field(model, "loop_2000c", Arr([])));
      r.Ok? ==> (|r.value| == |entries.value|
        && forall i | 0 <= i < |r.value| :: Ok(r.value[i]) == ExtractProvider(entries.value[i]))
  {
    var entries :- Entries(Field(model, "loop_2000c", Arr([])));
    Traverse(entries, ExtractProvider)
  }

  /** A single provider dict and a one-element list holding it give the same providers. */
  lemma ProvidersDictAsList(model: Model, provider: map<string, Value>)
    ensures ExtractProviders(model["loop_2000c" := Obj(provider)])
         == ExtractProviders(model["loop_2000c" := Arr([Obj(provider)])])
  {
  }

  /** One transaction record; the overall claim status list is always empty. */
  function ExtractTransaction(model: Model): (r: Result<Transaction, Fault>)
    ensures r.Ok? <==> ExtractSource(model).Ok? && ExtractReceiver(model).Ok? && ExtractProviders(model).Ok?
    ensures r.Ok? ==> r.value.claimStatus == [] && r.value.raw == model
    ensures r.Ok? ==> Ok(r.value.source) == ExtractSource(model) && Ok(r.value.providers) == ExtractProviders(model)
  {
    var control := SafeGet(Field(model, "header", NoDict), ["st_segment", "transaction_set_control_number"], Empty);
    var source :- ExtractSource(model);
    var receiver :- ExtractReceiver(model);
    var providers :- ExtractProviders(model);
    Ok(Transaction(control, source, receiver, providers, [], model))
  }

  /** `parse`: an empty model list, a failing reader and any failure while
      walking a tree all end as X12ParseError; otherwise one transaction per
      model under the fixed type and version. */
  function Parse(content: string, read: Reader): (r: Result<Parsed, Cls>)
    ensures r.Err? ==> r.error == X12ParseError
    ensures r.Ok? ==> read(content).Some? && |r.value.transactions| == |read(content).value| > 0
    ensures r.Ok? ==> r.value.transactionType == "277" && r.value.version == "005010X212"
  {
    match read(content)
    case None => Err(X12ParseError)
    case Some(models) =>
      if |models| == 0 then Err(X12ParseError)
      else
        match Traverse(models, ExtractTransaction)
        case Err(_) => Err(X12ParseError)
        case Ok(txs) => Ok(Parsed("277", "005010X212", txs))
  }

  /** `parse` succeeds exactly when the reader does and every tree it hands
      over can be walked; the transactions are then the walked trees, in order. */
  lemma ParseWalksEveryModel(content: string, read: Reader)
    ensures Parse(content, read).Ok? <==> (read(content).Some? && |read(content).value| > 0
      && forall i | 0 <= i < |read(content).value| :: ExtractTransaction(read(content).value[i]).Ok?)
    ensures Parse(content, read).Ok? ==>
      forall i | 0 <= i < |read(content).value| ::
        Ok(Parse(content, read).value.transactions[i]) == ExtractTransaction(read(content).value[i])
  {
  }

  /** The problems `validate` reports; transactions are numbered from 0. */
  datatype Issue =
    | WrongType
    | NoTransactions
    | MissingControlNumber(index: nat)
    | MissingSource(index: nat)
  {
    predicate PerTransaction()
    {
      MissingControlNumber? || MissingSource?
    }
  }

  /** The transaction shows the kind of problem `issue` names. */
  predicate Lacks(t: Transaction, issue: Issue)
  {
    match issue
    case MissingControlNumber(_) => !Truthy(t.controlNumber)
    case MissingSource(_) => !Truthy(t.source.name)
    case _ => false
  }

  function IssuesOf(t: Transaction, index: nat): (r: seq<Issue>)
    ensures |r| <= 2
    ensures forall x :: x in r <==> x.PerTransaction() && x.index == index && Lacks(t, x)
  {
    (if Truthy(t.controlNumber) then [] else [MissingControlNumber(index)])
    + (if Truthy(t.source.name) then [] else [MissingSource(index)])
  }

  /** The per-transaction checks for transactions numbered from `from` on. */
  function TransactionIssues(txs: seq<Transaction>, from: nat): (r: seq<Issue>)
    ensures |r| <= 2 * |txs|
    ensures forall x :: x in r <==>
      x.PerTransaction() && from <= x.index < from + |txs| && Lacks(txs[x.index - from], x)
    decreases |txs|
  {
    if |txs| == 0 then []
    else
      var rest := TransactionIssues(txs[1..], from + 1);
      assert forall x | x in rest :: txs[x.index - from] == txs[1..][x.index - (from + 1)];
      IssuesOf(txs[0], from) + rest
  }

  /** `validate`: a wrong type, an empty transaction list, and per transaction
      a falsy control number or information-source name. */
  function Validate(p: Parsed): (r: seq<Issue>)
    ensures WrongType in r <==> p.transactionType != "277"
    ensures NoTransactions in r <==> |p.transactions| == 0
    ensures forall x: Issue | x.PerTransaction() :: x in r <==>
      x.index < |p.transactions| && Lacks(p.transactions[x.index], x)
    ensures |r| <= 2 + 2 * |p.transactions|
  {
    (if p.transactionType != "277" then [WrongType] else [])
    + (if |p.transactions| == 0 then [NoTransactions] else [])
    + TransactionIssues(p.transactions, 0)
  }
}

=== FILE: text.dfy ===
/** String operations the system relies on, with Python's `str` semantics. */
module Text {

  /** Python's `sep.join(parts)` for a one-character separator. */
  function Join(parts: seq<string>, sep: char): string
  {
    if |parts| == 0 then ""
    else if |parts| == 1 then parts[0]
    else parts[0] + [sep] + Join(parts[1..], sep)
  }

  /** Index of the first occurrence of `c` in `s`. */
  function IndexOf(s: string, c: char): (i: nat)
    requires c in s
    ensures i < |s| && s[i] == c
    ensures c !in s[..i]
  {
    if s[0] == c then 0 else 1 + IndexOf(s[1..], c)
  }

  /** Python's `s.split(sep)` for a one-character separator: never empty,
      no piece contains the separator, and joining the pieces gives back `s`. */
  function Split(s: string, sep: char): (r: seq<string>)
    ensures |r| >= 1
    ensures forall i | 0 <= i < |r| :: sep !in r[i]
    ensures Join(r, sep) == s
    decreases |s|
  {
    if sep !in s then [s]
    else
      var i := IndexOf(s, sep);
      [s[..i]] + Split(s[i + 1..], sep)
  }

  /** Splitting the join of separator-free pieces recovers the pieces. */
  lemma {:induction false} SplitJoin(parts: seq<string>, sep: char)
    requires |parts| >= 1
    requires forall i | 0 <= i < |parts| :: sep !in parts[i]
    ensures Split(Join(parts, sep), sep) == parts
    decreases |parts|
  {
    if |parts| > 1 {
      SplitAt(parts[0], sep, Join(parts[1..], sep));
      SplitJoin(parts[1..], sep);
      assert [parts[0]] + parts[1..] == parts;
    }
  }

  /** A separator-free front piece splits off on its own. */
  lemma SplitAt(a: string, sep: char, b: string)
    requires sep !in a
    ensures Split(a + [sep] + b, sep) == [a] + Split(b, sep)
  {
    var s := a + [sep] + b;
    IndexOfAfterPrefix(a, sep, b);
    assert s[..|a|] == a;
    assert s[|a| + 1..] == b;
  }

  lemma {:induction false} IndexOfAfterPrefix(a: string, sep: char, b: string)
    requires sep !in a
    ensures sep in a + [sep] + b
    ensures IndexOf(a + [sep] + b, sep) == |a|
    decreases |a|
  {
    var s := a + [sep] + b;
    assert s[|a|] == sep;
    if |a| > 0 {
      assert s[1..] == a[1..] + [sep] + b;
      IndexOfAfterPrefix(a[1..], sep, b);
    }
  }

  lemma ConcatAssoc<T>(x: seq<T>, y: seq<T>, z: seq<T>)
    ensures x + (y + z) == (x + y) + z
  {
  }

  /** A non-empty sequence is its front followed by its last element. */
  lemma FrontLast<T>(s: seq<T>)
    requires |s| > 0
    ensures s == s[..|s| - 1] + [s[|s| - 1]]
  {
  }

  /** Splitting at a separator splits the pieces: `(a + sep + b).split(sep)`
      is `a.split(sep) + b.split(sep)`. */
  lemma {:induction false} SplitConcat(a: string, sep: char, b: string)
    ensures Split(a + [sep] + b, sep) == Split(a, sep) + Split(b, sep)
    decreases |a|
  {
    var s := a + [sep] + b;
    assert s[|a|] == sep;
    if sep !in a {
      SplitAt(a, sep, b);
    } else {
      var i := IndexOf(a, sep);
      assert s[i] == sep;
      assert s[..i] == a[..i];
      assert IndexOf(s, sep) == i by {
        IndexOfPrefix(a, sep, [sep] + b);
        assert s == a + ([sep] + b);
      }
      assert s[i + 1..] == a[i + 1..] + [sep] + b;
      SplitConcat(a[i + 1..], sep, b);
      ConcatAssoc([a[..i]], Split(a[i + 1..], sep), Split(b, sep));
    }
  }

  lemma {:induction false} IndexOfPrefix(a: string, sep: char, b: string)
    requires sep in a
    ensures sep in a + b
    ensures IndexOf(a + b, sep) == IndexOf(a, sep)
    decreases |a|
  {
    var s := a + b;
    assert s[IndexOf(a, sep)] == sep;
    if a[0] != sep {
      assert s[1..] == a[1..] + b;
      IndexOfPrefix(a[1..], sep, b);
    }
  }

  /** The characters Python's `str.strip()` removes (Unicode white space). */
  predicate IsSpace(c: char)
  {
    c == ' ' || ('\t' <= c <= '\r') || ('\U{1C}' <= c <= '\U{1F}')
    || c == '\U{85}' || c == '\U{A0}' || c == '\U{1680}'
    || ('\U{2000}' <= c <= '\U{200A}') || c == '\U{2028}' || c == '\U{2029}'
    || c == '\U{202F}' || c == '\U{205F}' || c == '\U{3000}'
  }

  predicate AllSpace(s: string)
  {
    forall k | 0 <= k < |s| :: IsSpace(s[k])
  }

  /** Number of white-space characters at the front of `s`. */
  function LeadingSpace(s: string): (n: nat)
    ensures n <= |s|
    ensures AllSpace(s[..n])
    ensures n < |s| ==> !IsSpace(s[n])
  {
    if |s| > 0 && IsSpace(s[0]) then
      var n := 1 + LeadingSpace(s[1..]);
      assert forall k | 1 <= k < n :: s[..n][k] == s[1..][..n - 1][k - 1];
      n
    else 0
  }

  /** Number of white-space characters at the end of `s`. */
  function TrailingSpace(s: string): (n: nat)
    ensures n <= |s|
    ensures AllSpace(s[|s| - n..])
    ensures n < |s| ==> !IsSpace(s[|s| - n - 1])
  {
    if |s| > 0 && IsSpace(s[|s| - 1]) then
      var n := 1 + TrailingSpace(s[..|s| - 1]);
      assert forall k | |s| - n <= k < |s| - 1 :: s[k] == s[..|s| - 1][k];
      n
    else 0
  }

  /** Python's `s.strip()`: drop the leading and the trailing white space. */
  function Strip(s: string): (r: string)
    ensures |r| <= |s|
  {
    var i := LeadingSpace(s);
    var rest := s[i..];
    rest[..|rest| - TrailingSpace(rest)]
  }

  lemma StripIsSlice(s: string)
    ensures LeadingSpace(s) + |Strip(s)| <= |s|
    ensures Strip(s) == s[LeadingSpace(s)..LeadingSpace(s) + |Strip(s)|]
  {
    var i := LeadingSpace(s);
    var rest := s[i..];
    var m := |rest| - TrailingSpace(rest);
    assert Strip(s) == rest[..m];
    SliceOfSlice(s, i, m);
  }

  lemma SliceOfSlice<T>(s: seq<T>, i: nat, m: nat)
    requires i + m <= |s|
    ensures s[i..][..m] == s[i..i + m]
  {
  }

  lemma StripTrailer(s: string)
    ensures LeadingSpace(s) + |Strip(s)| <= |s|
    ensures AllSpace(s[LeadingSpace(s) + |Strip(s)|..])
  {
    var i := LeadingSpace(s);
    var rest := s[i..];
    var t := TrailingSpace(rest);
    var m := |rest| - t;
    assert |Strip(s)| == m;
    SuffixOfSlice(s, i, m);
    assert s[i + m..] == rest[|rest| - t..];
  }

  lemma SuffixOfSlice<T>(s: seq<T>, i: nat, m: nat)
    requires i + m <= |s|
    ensures s[i + m..] == s[i..][m..]
  {
  }

  /** `strip` keeps a contiguous slice of its input, bounded by white space. */
  lemma StripSlice(s: string)
    ensures LeadingSpace(s) + |Strip(s)| <= |s|
    ensures Strip(s) == s[LeadingSpace(s)..LeadingSpace(s) + |Strip(s)|]
    ensures AllSpace(s[..LeadingSpace(s)])
    ensures AllSpace(s[LeadingSpace(s) + |Strip(s)|..])
  {
    StripIsSlice(s);
    StripTrailer(s);
  }

  /** A piece strips to nothing exactly when it is all white space, and a
      non-empty result starts and ends with a non-space character. */
  lemma StripBlank(s: string)
    ensures Strip(s) == [] <==> AllSpace(s)
    ensures Strip(s) != [] ==> !IsSpace(Strip(s)[0]) && !IsSpace(Strip(s)[|Strip(s)| - 1])
  {
    var i := LeadingSpace(s);
    var rest := s[i..];
    var t := TrailingSpace(rest);
    if i == |s| {
      assert s[..i] == s;
    } else {
      assert rest[0] == s[i];
      assert t < |rest|;
      assert !AllSpace(s);
    }
  }

  /** A text without white space at either end is its own `strip`. */
  lemma StripFixed(s: string)
    requires s != [] && !IsSpace(s[0]) && !IsSpace(s[|s| - 1])
    ensures Strip(s) == s
  {
    assert LeadingSpace(s) == 0;
    assert s[0..] == s;
    assert TrailingSpace(s) == 0;
  }

  /** `strip` introduces no character that was not already there. */
  lemma StripChars(s: string, c: char)
    requires c !in s
    ensures c !in Strip(s)
  {
    StripSlice(s);
  }

  /** Python's `s.replace(c, "")` for a single character. */
  function RemoveChar(s: string, c: char): (r: string)
    ensures c !in r
    ensures |r| <= |s|
    ensures c !in s ==> r == s
    ensures forall x | x in r :: x in s
  {
    if |s| == 0 then ""
    else if s[0] == c then RemoveChar(s[1..], c)
    else [s[0]] + RemoveChar(s[1..], c)
  }

  lemma {:induction false} RemoveCharConcat(a: string, b: string, c: char)
    ensures RemoveChar(a + b, c) == RemoveChar(a, c) + RemoveChar(b, c)
    decreases |a|
  {
    if |a| == 0 {
      assert a + b == b;
    } else {
      assert (a + b)[1..] == a[1..] + b;
      RemoveCharConcat(a[1..], b, c);
    }
  }

  /** `pat` occurs in `s` at some position. */
  predicate Occurs(pat: string, s: string)
    decreases |s|
  {
    pat <= s || (|s| > 0 && Occurs(pat, s[1..]))
  }

  /** Python's `s.replace(pat, "")`: remove the non-overlapping occurrences
      of `pat`, scanning left to right. */
  function RemoveAll(s: string, pat: string): (r: string)
    requires |pat| > 0
    ensures |r| <= |s|
    ensures forall x | x in r :: x in s
    decreases |s|
  {
    if |s| == 0 then ""
    else if pat <= s then RemoveAll(s[|pat|..], pat)
    else [s[0]] + RemoveAll(s[1..], pat)
  }

  /** When `pat` does not occur, `replace` leaves the string as it is. */
  lemma {:induction false} RemoveAllAbsent(s: string, pat: string)
    requires |pat| > 0
    requires !Occurs(pat, s)
    ensures RemoveAll(s, pat) == s
    decreases |s|
  {
    if |s| > 0 {
      RemoveAllAbsent(s[1..], pat);
      assert [s[0]] + s[1..] == s;
    }
  }

  /** A single pass of `replace` can leave a fresh occurrence behind:
      removing ".x12" from ".x.x1212" yields ".x12". */
  lemma RemoveAllNotIdempotent()
    ensures RemoveAll(".x.x1212", ".x12") == ".x12"
  {
    assert !(".x12" <= ".x.x1212");
    assert ".x12" <= ".x1212";
    assert ".x1212"[4..] == "12";
    assert !(".x12" <= "12");
    assert !(".x12" <= "2");
    assert !(".x12" <= "x.x1212");
    assert ".x.x1212"[1..] == "x.x1212";
    assert "x.x1212"[1..] == ".x1212";
  }

  /** The decimal digits of a natural number, most significant first. */
  function NatToString(n: nat): (r: string)
    ensures |r| >= 1
    ensures forall k | 0 <= k < |r| :: '0' <= r[k] <= '9'
    decreases n
  {
    var d := [('0' as int + n % 10) as char];
    if n < 10 then d else NatToString(n / 10) + d
  }

  /** Python's `str(i)` for an integer. */
  function IntToString(i: int): (r: string)
    ensures |r| >= 1
    ensures forall k | 0 <= k < |r| :: '0' <= r[k] <= '9' || r[k] == '-'
  {
    if i < 0 then "-" + NatToString(-i) else NatToString(i)
  }

  /** Python's `int(x)` on a float: truncation toward zero. */
  function Truncate(x: real): (i: int)
    ensures x >= 0.0 ==> 0 <= i && i as real <= x < i as real + 1.0
    ensures x < 0.0 ==> i <= 0 && i as real - 1.0 < x <= i as real
  {
    if x >= 0.0 then x.Floor else -((-x).Floor)
  }
}

=== FILE: upload.dfy ===
/** The HTTP upload inputs: a whole upload held as bytes, and a streamed
    upload read in one go. Both check the size against the configured limit;
    they differ in which failures they wrap as `InputError`. Decoding bytes
    to text is a library call and is passed in. */
module Upload {
  import opened Wrappers
  import opened Exceptions
  import Config

  newtype byte = x: int | 0 <= x < 256

  /** `bytes.decode(encoding)`: the text, or the exception it raises
      (`UnicodeDecodeError` on malformed input, `LookupError` for an unknown
      encoding). */
  type Decoder = (string, seq<byte>) -> Result<string, Cls>

  datatype UploadInput = UploadInput(fileContent: seq<byte>, filename: string, encoding: string)

  /** `UploadInput.validate_source`: empty content is refused first, then
      content larger than the limit; content exactly at the limit passes. */
  function ValidateUpload(u: UploadInput, settings: Config.Settings): (r: Result<(), Cls>)
    ensures r.Err? <==> |u.fileContent| == 0 || |u.fileContent| > Config.MaxFileSizeBytes(settings)
    ensures |u.fileContent| == 0 ==> r == Err(InputError)
    ensures 0 < |u.fileContent| ==> (r.Err? ==> r.error == FileSizeError)
  {
    if |u.fileContent| == 0 then Err(InputError)
    else if |u.fileContent| > Config.MaxFileSizeBytes(settings) then Err(FileSizeError)
    else Ok(())
  }

  /** Emptiness is checked before size, whatever the limit. */
  lemma EmptyBeforeSize(settings: Config.Settings, filename: string, encoding: string)
    requires settings.maxFileSizeMb < 0
    ensures ValidateUpload(UploadInput([], filename, encoding), settings) == Err(InputError)
    ensures ValidateUpload(UploadInput([0], filename, encoding), settings) == Err(FileSizeError)
  {
  }

  /** `UploadInput.read`: a validation failure propagates as raised
      (`FileSizeError` stays a `FileSizeError`); a decode failure becomes
      `InputError` when it is a `UnicodeDecodeError` and propagates
      otherwise. */
  function ReadUpload(u: UploadInput, settings: Config.Settings, decode: Decoder): (r: Result<string, Cls>)
    ensures ValidateUpload(u, settings).Err? ==> r == Err(ValidateUpload(u, settings).error)
    ensures ValidateUpload(u, settings).Ok? ==>
      match decode(u.encoding, u.fileContent)
      case Ok(text) => r == Ok(text)
      case Err(c) => r == Err(if IsA(c, UnicodeDecodeError) then InputError else c)
  {
    var _ :- ValidateUpload(u, settings);
    match decode(u.encoding, u.fileContent)
    case Ok(text) => Ok(text)
    case Err(c) => if IsA(c, UnicodeDecodeError) then Err(InputError) else Err(c)
  }

  /** The text `read` returns is the decoding of content that is non-empty
      and within the limit. */
  lemma ReadUploadOk(u: UploadInput, settings: Config.Settings, decode: Decoder)
    requires ReadUpload(u, settings, decode).Ok?
    ensures 0 < |u.fileContent| <= Config.MaxFileSizeBytes(settings)
    ensures decode(u.encoding, u.fileContent) == Ok(ReadUpload(u, settings, decode).value)
  {
  }

  /** Only an input error or a size error can come out of `read` for a
      decoder that fails with `UnicodeDecodeError` alone. */
  lemma ReadUploadErrors(u: UploadInput, settings: Config.Settings, decode: Decoder)
    requires forall e: string, b: seq<byte> :: decode(e, b).Err? ==> decode(e, b).error == UnicodeDecodeError
    ensures ReadUpload(u, settings, decode).Err? ==>
      ReadUpload(u, settings, decode).error in {InputError, FileSizeError}
  {
  }

  datatype Metadata = Metadata(filename: string, size: nat, encoding: string)

  /** `UploadInput.get_metadata`: the size is the byte length of the content. */
  function UploadMetadata(u: UploadInput): (m: Metadata)
    ensures m.size == |u.fileContent|
    ensures m.filename == u.filename && m.encoding == u.encoding
  {
    Metadata(u.filename, |u.fileContent|, u.encoding)
  }

  /** The size reported for an upload that was read is positive and within
      the limit. */
  lemma MetadataOfAccepted(u: UploadInput, settings: Config.Settings, decode: Decoder)
    requires ReadUpload(u, settings, decode).Ok?
    ensures 0 < UploadMetadata(u).size <= Config.MaxFileSizeBytes(settings)
  {
    ReadUploadOk(u, settings, decode);
  }

  /** The limit counts whole mebibytes and is inclusive: content of exactly
      `max_file_size_mb` × 1048576 bytes passes, one byte more is refused. */
  lemma SizeLimitInclusive(u: UploadInput, settings: Config.Settings, extra: byte)
    requires |u.fileContent| == settings.maxFileSizeMb * 1048576 > 0
    ensures ValidateUpload(u, settings).Ok?
    ensures ValidateUpload(u.(fileContent := u.fileContent + [extra]), settings) == Err(FileSizeError)
  {
  }

  /** A stream as the code sees it: absent (`None`), or what its `read()`
      returns, the bytes or the exception raised. */
  datatype StreamingUploadInput = StreamingUploadInput(
    fileStream: Option<Result<seq<byte>, Cls>>, filename: string, encoding: string)

  /** `StreamingUploadInput.validate_source`: the stream must be there. */
  function ValidateStream(s: StreamingUploadInput): (r: Result<(), Cls>)
    ensures r.Err? <==> s.fileStream.None?
    ensures r.Err? ==> r.error == InputError
  {
    if s.fileStream.None? then Err(InputError) else Ok(())
  }

  /** The body of `StreamingUploadInput.read` before its `except` clauses:
      validate, read, check the size, decode. */
  function ReadStreamRaw(s: StreamingUploadInput, settings: Config.Settings, decode: Decoder): Result<string, Cls>
  {
    var _ :- ValidateStream(s);
    var content :- s.fileStream.value;
    if |content| > Config.MaxFileSizeBytes(settings) then Err(FileSizeError)
    else decode(s.encoding, content)
  }

  /** `StreamingUploadInput.read`: the `except UnicodeDecodeError` and
      `except Exception` clauses turn every failure into `InputError`. */
  function ReadStream(s: StreamingUploadInput, settings: Config.Settings, decode: Decoder): (r: Result<string, Cls>)
    ensures r.Err? ==> r.error == InputError
    ensures s.fileStream.None? ==> r == Err(InputError)
    ensures r.Ok? <==>
      && s.fileStream.Some? && s.fileStream.value.Ok?
      && |s.fileStream.value.value| <= Config.MaxFileSizeBytes(settings)
      && decode(s.encoding, s.fileStream.value.value).Ok?
    ensures r.Ok? ==> r.value == decode(s.encoding, s.fileStream.value.value).value
  {
    match ReadStreamRaw(s, settings, decode)
    case Ok(text) => Ok(text)
    case Err(c) =>
      var clauses := [UnicodeDecodeError, Exception];
      AllAreExceptions(c);
      assert Catch(c, clauses).Some?;
      Err(InputError)
  }

  /** The size is checked before decoding: an oversized stream fails the same
      way whatever the decoder would have done with it. */
  lemma StreamSizeBeforeDecode(s: StreamingUploadInput, settings: Config.Settings, d1: Decoder, d2: Decoder)
    requires s.fileStream.Some? && s.fileStream.value.Ok?
    requires |s.fileStream.value.value| > Config.MaxFileSizeBytes(settings)
    ensures ReadStreamRaw(s, settings, d1) == ReadStreamRaw(s, settings, d2) == Err(FileSizeError)
    ensures ReadStream(s, settings, d1) == Err(InputError)
  {
  }

  /** The two inputs part ways on an oversized upload: the whole upload
      raises `FileSizeError`, the stream `InputError`; and an empty stream is
      accepted where an empty upload is not. */
  lemma UploadAndStreamDiffer(settings: Config.Settings, decode: Decoder, content: seq<byte>)
    requires |content| > Config.MaxFileSizeBytes(settings) && |content| > 0
    ensures ReadUpload(UploadInput(content, "f", "utf-8"), settings, decode) == Err(FileSizeError)
    ensures ReadStream(StreamingUploadInput(Some(Ok(content)), "f", "utf-8"), settings, decode) == Err(InputError)
    ensures ReadUpload(UploadInput([], "f", "utf-8"), settings, decode) == Err(InputError)
    ensures settings.maxFileSizeMb >= 0 && decode("utf-8", []) == Ok("") ==>
      ReadStream(StreamingUploadInput(Some(Ok([])), "f", "utf-8"), settings, decode) == Ok("")
  {
  }

  datatype StreamMetadata = StreamMetadata(filename: string, encoding: string, kind: string)

  /** `StreamingUploadInput.get_metadata`: no size, and the type "streaming". */
  function StreamMetadataOf(s: StreamingUploadInput): (m: StreamMetadata)
    ensures m.kind == "streaming" && m.filename == s.filename && m.encoding == s.encoding
  {
    StreamMetadata(s.filename, s.encoding, "streaming")
  }

  /** Stream metadata never looks at the stream: streams with the same name
      and encoding describe alike, whether absent, failing or of any size. */
  lemma StreamMetadataIgnoresStream(s: StreamingUploadInput, t: StreamingUploadInput)
    requires s.filename == t.filename && s.encoding == t.encoding
    ensures StreamMetadataOf(s) == StreamMetadataOf(t)
    ensures StreamMetadataOf(s).kind == "streaming"
  {
  }
}

=== FILE: wrappers.dfy ===
/** Optional values and failure-carrying results, usable with `:-`. */
module Wrappers {

  /** A value that may be absent: Python's `None` versus a present value. */
  datatype Option<+T> = None | Some(value: T) {

    predicate IsFailure() {
      None?
    }

    function PropagateFailure<U>(): Option<U>
      requires None?
    {
      None
    }

    function Extract(): T
      requires Some?
    {
      value
    }

    /** The present value, or `default` when absent. */
    function GetOr(default: T): T {
      match this
      case Some(v) => v
      case None => default
    }
  }

  /** Either a computed value or the error that stopped the computation. */
  datatype Result<+R, +E> = Ok(value: R) | Err(error: E) {

    predicate IsFailure() {
      Err?
    }

    function PropagateFailure<U>(): Result<U, E>
      requires Err?
    {
      Err(error)
    }

    function Extract(): R
      requires Ok?
    {
      value
    }
  }

  /** Python truthiness of an optional string: present and non-empty. */
  predicate Present(o: Option<string>)
  {
    o.Some? && o.value != ""
  }
}
